=== FILE: README.md ===
# luaffi-rs core in Dafny

This project models the C-type and memory engine of luaffi-rs, a Lua FFI written in Rust. It covers four parts:

- the `CType` algebra and its `size()` and `alignment()` (`src/ctype.rs`);
- the struct layout pass and the `ffi.cdef` declaration parser (`src/parser.rs`);
- type-name resolution, the type registry, `sizeof`, `offsetof`, `new`, `cast`, `addressof`, `copy`, `fill` and `string` (`src/ffi_ops.rs`);
- the `CData` value: its allocation and release, the reading and writing of scalars, and the `__index`, `__newindex` and `__len` meta-methods (`src/cdata.rs`).

The target platform is fixed: LP64, little-endian, 8-byte pointers, `long` and `size_t`, and a 1-byte `bool`.

Memory is a map from address to byte. An absent address is an undefined byte. A heap is that map together with the live allocations and their layouts. The allocator's answer (an address) is a parameter. The type registry is a `map<string, CType>` passed in and returned instead of a global behind a lock. The panics the model covers become preconditions, so the model only describes runs that do not reach them; "## Left out" lists each one. Integer overflow is the exception: sizes and counts are unbounded naturals, and the model makes no promise about a size of 2^64 or more. Each distinct error message becomes a constructor of `Wrappers.Error`.

Modules, in dependency order:

| module | file | contents |
|---|---|---|
| `Wrappers` | wrappers.dfy | `Option`, `Result`, the error kinds |
| `Bytes` | bytes.dfy | little-endian encoding, memory loads and stores |
| `Text` | text.dfy | `trim`, nom's `multispace`, digits, `usize::from_str`, UTF-8 lengths |
| `CTypes` | ctypes.dfy | `CType`, `CField`, `Alignment`, `Size`, round-up |
| `Layout` | layout.dfy | `calculate_field_offsets` as a fold and as a loop |
| `Cdata` | cdata.dfy | `CData::new`, `new_null_ptr`, `from_ptr`, `Drop` |
| `Marshal` | marshal.dfy | `read_ctype_value`, `write_value_to_ptr`, the meta-methods |
| `FfiOps` | ffiops.dfy | `lookup_type`, registry, `sizeof`, `offsetof`, `new`, `cast`, `addressof`, `copy`, `fill`, `string` |
| `Parser` | parser.dfy | `parse_cdef` and its sub-parsers |

Behaviours of the code that the model keeps, and that a reader who knows C or LuaJIT's `ffi` (whose interface this library follows) might not expect:

- Any number of trailing stars gives ONE pointer level: `int**` resolves to `Ptr(Int)` (`FfiOps.StarsCollapse`).
- Reading a `Ptr` member gives a non-owning view of the member itself, typed as the pointer, at the member's own address. The stored address is not followed (`Marshal.PointerReadIsView`).
- `Typedef` is not forwarded: reading one gives a view and writing one fails (`Marshal.TypedefNotForwarded`). Only `size()` and `alignment()` look through it.
- `const`, `volatile` and `restrict` are not stripped. `T[?]` is not a variable-length array. `ffi.new` ignores its initialiser.
- A union's size is its largest member's size, not rounded up to its alignment (`CTypes.UnionSizeNotRounded`).
- A struct's size is computed from whatever offsets its members carry (`CTypes.StructSizeTrustsOffsets`). For a struct the parser declared, this equals the layout pass's final cursor rounded up to the struct's alignment (`Layout.LaidOutStructSize`).

Other behaviours the contracts make visible:

- `parse_type` reads a single identifier (`Parser.ParseType`). In `struct S { unsigned int x; };` the member is therefore named `int` with type `unsigned`, and the `x` after it stops the member list before the `}`, so the struct declaration fails. A declaration whose struct parse fails leaves the registry unchanged (`Parser.ParseDeclaration`), and `parse_function` skips the text up to the `;`. So the line registers nothing and reports no error.
- Structs registered before a failing declaration stay registered (`Parser.ParseCdef`).
- Element indexing has no bounds check (`Marshal.NoBoundsCheck`).
- A cdata-to-cdata copy and `fill` do not check the destination's size (`FfiOps.CdataCopyUnchecked`, `FfiOps.FillMemory`).

## Model

| member | source | states |
|---|---|---|
| `CTypes.Alignment` | src/ctype.rs:86-106 | every alignment is a power of two and at least 1, which the bit-mask round-up relies on |
| `CTypes.ClearLowBitsMod` | src/ctype.rs:140 | for a power of two a, `y & !(a - 1)`, modelled bit by bit, is `y - y % a` |
| `CTypes.AlignUpIsLeastMultiple` | src/ctype.rs:140 | `(x + a - 1) & !(a - 1)` is the least multiple of a that is at least x |
| `CTypes.ScalarLayout` | src/ctype.rs:110-125 | `void` has size 0 and alignment 1; every other scalar has a positive size equal to its alignment, and that size is 1, 2, 4 or 8 |
| `CTypes.PointerLayout` | src/ctype.rs:126 | pointers and function types are 8 bytes, 8-aligned, whatever they point to |
| `CTypes.ArrayLayout` | src/ctype.rs:127 | an array of n is n times its element's size and aligned like the element; an array of 0 has size 0; nested arrays multiply their counts |
| `CTypes.TypedefLayout` | src/ctype.rs:143 | a typedef has the size and alignment of the type it names |
| `CTypes.AggregateAlignment` | src/ctype.rs:98-102 | a struct or union is aligned to the largest alignment among its members, and to 1 when it has none |
| `CTypes.StructSize` | src/ctype.rs:128-141 | a non-empty struct's size is the least multiple of its alignment that covers every member's stored offset plus size |
| `CTypes.EmptyStructSize` | src/ctype.rs:129-131 | a struct without members has size 0 and alignment 1 |
| `CTypes.UnionSize` | src/ctype.rs:142 | a union's size is the size of some member and at least every member's size; it is 0 when empty |
| `CTypes.UnionSizeIgnoresOffsets` | src/ctype.rs:142 | unions whose members have the same types have the same size, whatever the names and offsets |
| `CTypes.UnionSizeNotRounded` | src/ctype.rs:142 | `union { char c[5]; int i; }` has size 5 but alignment 4, so its size is not a multiple of its alignment |
| `CTypes.StructSizeTrustsOffsets` | src/ctype.rs:132-140 | an `int` member stored at offset 100 makes the struct 104 bytes: the size follows the stored offsets |
| `Layout.CalculateFieldOffsets` | src/parser.rs:75-84 | the loop keeps names, types and order. The first member goes at 0. Each later member goes at the previous member's end rounded up to its own alignment. Every offset is aligned, no two members overlap, and the result equals the fold `AssignOffsets` |
| `Layout.PlaceMembers` | src/parser.rs:75-84 | the loop with its running cursor produces exactly the fold `AssignOffsets` from offset 0 |
| `Layout.FoldPlaces` | src/parser.rs:78-83 | member i of the result is member i of the input placed at the end of member i - 1, or at 0, rounded up to its alignment |
| `Layout.AssignOffsetsLaidOut` | src/parser.rs:77-83 | the fold changes offsets only and produces a layout in which each offset is the least aligned position after the previous member |
| `Layout.LaidOutUnique` | src/parser.rs:77-83 | only one layout has given members: any laid-out sequence with the same names and types is the fold's result |
| `Layout.LaidOutAligned` | src/parser.rs:78-81 | in a layout every member's offset is a multiple of its alignment |
| `Layout.LaidOutOrdered` | src/parser.rs:80-82 | in a layout every member ends at or before the start of every later member |
| `Layout.LaidOutStructSize` | src/ctype.rs:128-141 | a laid-out struct's size is the end of its last member rounded up to the struct's alignment |
| `Layout.StructPairLayout` | src/ctype.rs:128-141 | a two-member struct is aligned to the larger of its members' alignments, and its size is the further member end rounded up to that alignment |
| `Layout.SameTypePair` | src/parser.rs:75-84 | two members of one scalar type sit at 0 and at the type's size, and the struct is twice that size (`struct Point { int x; int y; }` gives 0, 4 and 8) |
| `Layout.ByteThenMember` | src/parser.rs:80-81 | after a one-byte member the next member is padded up to its own alignment (`char c; int i;` puts i at 4) |
| `Layout.ByteThenMemberAlignment` | src/ctype.rs:98-102 | such a struct takes the second member's alignment |
| `Cdata.New` | src/cdata.rs:102-135 | three cases. Sizes 1 to 64 give an owned value on a zero-filled 64-byte inline block. Larger sizes give an owned heap block laid out as (size, alignment) with undefined contents. Size 0 gives a null, unowned value of size 0. Memory outside the new block is unchanged |
| `Cdata.NewInlineZeroed` | src/cdata.rs:104-113 | the first bytes of a new inline value, up to 64 of them, are defined and zero |
| `Cdata.NewNullPtr` | src/cdata.rs:137-145 | a null, unowned `void *` whose size is the pointer width and equals its type's size |
| `Cdata.FromPtr` | src/cdata.rs:148-157 | a view at the given address, sized by its type, with no inline buffer |
| `Cdata.Drop` | src/cdata.rs:170-182 | A value that owns a non-null, non-empty heap block, or holds the inline buffer, releases it: the block leaves the live set and exactly its bytes become undefined. Any other value leaves the heap unchanged. No defined byte changes value |
| `Cdata.NewThenDrop` | src/cdata.rs:102-182 | dropping a freshly created value is allowed and leaves the live blocks exactly as they were before it was created |
| `Cdata.NewReleasesIffNonEmpty` | src/cdata.rs:102-135 | a new value releases something on drop if and only if its size is positive |
| `Cdata.ViewsReleaseNothing` | src/cdata.rs:174 | an unowned value without an inline buffer releases nothing |
| `Cdata.NoDoubleRelease` | src/cdata.rs:174-179 | after a value has released its block, dropping it again violates `dealloc`'s contract |
| `Marshal.IntKindWidth` | src/cdata.rs:14-41 | the width each integer type is read and written with equals its `size()` and its `alignment()` |
| `Marshal.FromBits` | src/cdata.rs:14-41 | a stored pattern reads back, after `as i64`, as the value congruent to it in the type's signed range. For the 32-bit-and-narrower unsigned types it is the unsigned range instead |
| `Marshal.WrapBits` | src/cdata.rs:343 | `i as T` keeps i modulo 2^(8·width) |
| `Marshal.ReadValue` | src/cdata.rs:10-85 | integer types read an in-range integer congruent to the little-endian bytes. `bool` reads whether the byte is 1. Every other type reads as an unowned view at the address |
| `Marshal.Encode` | src/cdata.rs:340-447 | Integer types accept exactly integers and numbers, else `ExpectedNumber`. `bool` accepts exactly booleans and integers, else `ExpectedBooleanOrInteger`. Pointers accept exactly integers and cdata. They store the integer modulo 2^64, or the cdata's address, as 8 little-endian bytes. A userdata holding no cdata gives `NotACData`, and any other value gives `ExpectedPointerValue`. Every other type gives `CannotAssign`. A success is `size(t)` bytes |
| `Marshal.WriteValue` | src/cdata.rs:355-450 | a write succeeds exactly when the value is accepted. On success the `size(t)` bytes at the address hold the value's encoding, and no other byte changes or appears |
| `Marshal.IntegerRoundTrip` | src/cdata.rs:340-386 | writing an integer to an integer type and reading it back gives a value congruent to it in the read range, which is the integer itself whenever it is in range |
| `Marshal.WrapThenRead` | src/cdata.rs:14-41 | the arithmetic of that round trip: wrap then read is congruent to the input, and equals it when the input is in range |
| `Marshal.BoolRoundTrip` | src/cdata.rs:393-400 | a `bool` reads back as the boolean written, or as `i != 0` for an integer written |
| `Marshal.PointerReadIsView` | src/cdata.rs:78-82 | after any accepted pointer write, reading the member gives an unowned `Ptr` view at the member's own address |
| `Marshal.PointerWriteStoresAddress` | src/cdata.rs:431-437 | writing an integer or a cdata to a pointer always succeeds. It leaves 8 defined bytes that decode to the integer modulo 2^64, or to the cdata's address |
| `Marshal.TypedefNotForwarded` | src/cdata.rs:444-446 | writing a typedef always fails with `CannotAssign`, and reading one gives a view |
| `Marshal.FindFieldNamed` | src/cdata.rs:193-198 | finds the first member whose name's UTF-8 bytes are the key; `None` means no member has that name |
| `Marshal.FieldAddr` | src/cdata.rs:195 | a member's address is the value's address plus the member's offset: exactly that sum when it is below 2^64, and congruent to it modulo 2^64 otherwise |
| `Marshal.ElemAddrIsWrappedOffset` | src/cdata.rs:209-212 | the element address `ptr.add(i as usize * size)` is `ptr + i * size` modulo 2^64, for negative indexes too, as a release build computes it |
| `Marshal.Locate` | src/cdata.rs:188-220 | A string key on a struct or union gives the first matching member's address and type, else `UnknownField`. On any other type it gives `NotStructOrUnion`. An integer key on an array or pointer gives the element's address and type, else `NotArrayOrPointer`. Any other key gives `InvalidIndexType` |
| `Marshal.Index` | src/cdata.rs:186-222 | `__index` succeeds exactly when the key designates a location, and then reads the value stored there with the location's type. Otherwise it reports that key's error |
| `Marshal.NewIndex` | src/cdata.rs:224-266 | `__newindex` reports a bad key's error. For a good key it is the write of the value to the designated location with that location's type, and it fails with the encoding's error. On success the location's bytes are defined, and no other byte changes |
| `Marshal.Len` | src/cdata.rs:268-271 | `__len` gives an array's count, and fails with `NotAnArray` on any other type |
| `Marshal.NoBoundsCheck` | src/cdata.rs:207-214 | every integer index into an array designates an element, including indexes beyond the count or below zero |
| `Marshal.FieldRoundTrip` | src/cdata.rs:224-237 | assigning an in-range integer to an integer member through `__newindex` and reading it through `__index` gives the integer back |
| `FfiOps.Register` | src/ffi_ops.rs:39-41 | registering binds the name to the type and leaves every other name as it was |
| `FfiOps.LookupType` | src/ffi_ops.rs:234-271 | Basic names resolve from the fixed table before anything else. A name ending in a star resolves to nothing but a pointer. A name with neither a star at the end nor a `[` resolves from the registry, or fails with `UnknownType` naming it |
| `FfiOps.LookupTypePointer` | src/ffi_ops.rs:240-245 | a non-basic name ending in `*` resolves to a pointer to whatever the name resolves to once all its trailing stars and surrounding white space are removed, or fails with that name's error |
| `FfiOps.LookupTypeArray` | src/ffi_ops.rs:247-266 | a non-basic name with a `[` and no trailing star resolves to an array of the element name's type with the bracket's count. An error for the element name comes first, then an error for the count |
| `FfiOps.BasicNamesEndInLetter` | src/ffi_ops.rs:12-35 | every basic name ends in a lower-case letter, so no name ending in a star, bracket or digit is basic |
| `FfiOps.RegisterThenLookup` | src/ffi_ops.rs:39-46 | a registered plain name resolves to the type registered last; a basic name resolves from the table even when registered |
| `FfiOps.StarsCollapse` | src/ffi_ops.rs:240-245 | a name followed by any number of stars resolves to one `Ptr` around the name's type, or fails with the name's error |
| `FfiOps.ArrayCount` | src/ffi_ops.rs:252-263 | With no `]` the count is `MissingCloseBracket`. Otherwise the trimmed text between the first `[` and the first `]` gives 0 when it is empty, its `usize` value when it parses, else `InvalidArraySize` |
| `FfiOps.ArrayLookup` | src/ffi_ops.rs:247-266 | `name[digits]` resolves to an array of the digits' value (0 for `[]`) of what `name` resolves to; an error for `name` comes first |
| `FfiOps.ArrayNameRoundTrip` | src/ffi_ops.rs:247-266 | for n below 2^64 whose array size is also below 2^64: printing n in decimal inside brackets after a resolvable name and resolving gives an array of exactly n, whose `sizeof` is n times the element size |
| `FfiOps.MissingBracket` | src/ffi_ops.rs:248-254 | `name[digits` with no `]` reports `MissingCloseBracket` when `name` resolves, and `name`'s own error otherwise |
| `FfiOps.SizeOf` | src/ffi_ops.rs:106-109 | `sizeof` succeeds exactly when the name resolves, with that type's size, and otherwise reports the resolver's error |
| `FfiOps.FindField` | src/ffi_ops.rs:116-120 | finds the first member with the name; `None` exactly when no member has it |
| `FfiOps.OffsetOf` | src/ffi_ops.rs:111-128 | `offsetof` passes on a resolver error. It gives `NotStructOrUnion` for any other resolved type, a typedef included. On a struct or union it fails with `FieldNotFound` exactly when no member has the name. Otherwise it returns the stored offset of the first member with that name |
| `FfiOps.OffsetOfDeclared` | src/ffi_ops.rs:111-128 | for a struct the parser declared, `offsetof` gives an offset aligned for the member and past the end of every earlier member |
| `FfiOps.NewCData` | src/ffi_ops.rs:47-54 | `ffi.new` succeeds exactly when the name resolves. The value has that type and its size. It is owned exactly when the size is positive, and inline exactly when the size is 1 to 64 |
| `FfiOps.NewArrayLen` | src/ffi_ops.rs:47-54 | `ffi.new("T[n]")` makes a value whose `__len` is n |
| `FfiOps.NewIntegerIsZero` | src/cdata.rs:104-113 | a new value of an integer type reads as 0 |
| `FfiOps.CastCData` | src/ffi_ops.rs:56-70 | `ffi.cast` passes on a resolver error. It accepts exactly integers, reinterpreted as a 64-bit address, and cdata, giving their address. A userdata holding no cdata gives `NotACData`, and anything else gives `CannotCast`. The result is an unowned view of the named type |
| `FfiOps.GetAddress` | src/ffi_ops.rs:81-86 | `ffi.addressof` gives an unowned, pointer-sized view typed as a pointer to the value's type, at the same address |
| `FfiOps.ViewsOwnNothing` | src/ffi_ops.rs:56-86 | dropping what `cast` and `addressof` return releases nothing |
| `FfiOps.CopyMemory` | src/ffi_ops.rs:180-219 | A string copy moves `len` bytes, or the string's length when `len` is absent. A count above the destination size is a `BufferOverflow`. Otherwise exactly those bytes land, followed by a 0 only when `len` was absent and there is room, and nothing else changes. A cdata copy needs `len` (`LengthRequired`) and copies that many bytes with no size check, byte for byte: a destination byte is defined exactly when its source byte is, and then equal to it; when the whole source span is defined, the destination loads the same bytes. A userdata holding no cdata gives `NotACData`, and any other source gives `InvalidCopySource` |
| `FfiOps.CopyUninitialised` | src/ffi_ops.rs:205-213 | copying from a span nothing has been written to, such as a fresh block from `alloc`, succeeds and leaves the destination span undefined |
| `FfiOps.CdataCopyUnchecked` | src/ffi_ops.rs:205-214 | a cdata copy longer than the destination still succeeds |
| `FfiOps.NoTerminatorWithoutRoom` | src/ffi_ops.rs:198-201 | with an explicit length, or when the string fills the buffer, the byte after the copy keeps its old value |
| `FfiOps.FillMemory` | src/ffi_ops.rs:221-227 | exactly `len` bytes from the value's address become the fill byte, and nothing else changes |
| `FfiOps.FillZeroReadsZero` | src/ffi_ops.rs:221-227 | zero-filling an integer value makes it read as 0 |
| `FfiOps.CStringUnique` | src/ffi_ops.rs:171 | a C string at an address is determined by memory: it ends at the first zero byte |
| `FfiOps.CdataToString` | src/ffi_ops.rs:161-178 | A null value gives `NullPointer`. Anything not a pointer or array gives `NotAString`. A pointer or array of anything but `char`/`unsigned char` gives `NotAStringPointer`. Otherwise the result is the bytes before the first zero, found by scanning memory and not limited by the array's count |
| `FfiOps.CopyThenToString` | src/ffi_ops.rs:180-204 | copying a zero-free string without a length into a larger buffer and reading the buffer back as a string gives the string |
| `Parser.Identifier` | src/parser.rs:160-162 | an identifier is the longest non-empty run of identifier characters |
| `Parser.MemberType` | src/parser.rs:122-128 | a member type is what the resolver answers, or a `Typedef` of the name standing for `int` when it fails |
| `Parser.ParseType` | src/parser.rs:119-131 | `parse_type` succeeds exactly when an identifier starts there, and consumes exactly that identifier. The type is what the resolver answers for that word, or the `int` fallback |
| `Parser.FallbackIsInt` | src/parser.rs:127 | the fallback typedef has the size and alignment of `int`, 4 and 4 |
| `Parser.ParseArraySize` | src/parser.rs:133-139 | `[n]` parses exactly when a `[` is followed by one or more ASCII digits and a `]`. It yields the digits' value and the position after the `]` |
| `Parser.ParseField` | src/parser.rs:94-116 | A member parses exactly when a type word, white space and a name follow. It is named by that name. Its type is the parsed type, or an array of it when `[n]` follows, and the parse stops after the white space that comes next. Its offset is 0 until layout |
| `Parser.StructHead` | src/parser.rs:51-56 | the head parses exactly when `struct`, white space, an identifier, optional white space and `{` follow. It gives that identifier and the position after the `{` |
| `Parser.ParseStructFields` | src/parser.rs:86-92 | the member list's parse stays within the text and never moves backwards |
| `Parser.StructFieldsFrom` | src/parser.rs:86-92 | after one space, a member list whose last `;` is followed by a space and `}` gives exactly that list, and stops at the `}` |
| `Parser.StructFieldsNone` | src/parser.rs:86-92 | ` }` gives no members and stops at the `}` |
| `Parser.ParseFieldAt` | src/parser.rs:94-131 | `T f` followed by `;`, with only white space before it, is the member `f` typed as the resolver answers for `T` (or the `int` fallback), at offset 0, and the parse stops at the `;` |
| `Parser.NextFieldAt` | src/parser.rs:88 | after a `;` and a space, the separated list reads the next member `T f` and stops at its `;` |
| `Parser.TwoFieldList` | src/parser.rs:88 | `T1 f1; T2 f2; }` gives both members, in order, and stops at the second `;` |
| `Parser.DeclaredStruct` | src/parser.rs:61-65 | the type registered for a struct declaration is a struct of that name whose members keep their names and types and are laid out |
| `Parser.ParseStruct` | src/parser.rs:50-71 | a struct declaration parses exactly when the `struct N {` head, the member list, `}` and `;` follow. It then registers the laid-out struct of the parsed members under N, replacing any earlier entry, and stops after the trailing white space |
| `Parser.StructClose` | src/parser.rs:56-59 | after the member list, the declaration closes exactly when `}`, optional white space and `;` follow, and it stops after the white space after the `;` |
| `Parser.ParseTypedef` | src/parser.rs:141-149 | a typedef parses exactly when `typedef` and white space are followed somewhere by a `;`, and it stops just after the first such `;` |
| `Parser.ParseFunction` | src/parser.rs:151-158 | a function declaration parses exactly when its first character is neither `;` nor a line end. It skips to the first `;` or line end, takes the `;` if there is one, and then skips white space |
| `Parser.ParseDeclaration` | src/parser.rs:34-48 | a declaration consumes input and changes the registry only as a struct declaration does |
| `Parser.DeclarationAlternatives` | src/parser.rs:34-48 | after the leading white space, nothing is left at the end of the text. Otherwise a struct that parses is the result; failing that, a typedef; failing both, a function declaration, with the registry unchanged |
| `Parser.DeclarationFailsIff` | src/parser.rs:34-48 | a declaration fails exactly at the end of the text or at a `;`, white space aside |
| `Parser.SemicolonStartsNothing` | src/parser.rs:43-47 | no struct, typedef or function declaration starts with `;` |
| `Parser.ParseCdef` | src/parser.rs:14-31 | the registry afterwards is what the declarations registered, also when the result is an error. It succeeds exactly when the trimmed remainder is empty. Otherwise the only error is the unparsed-input report: it carries the remainder's UTF-8 byte length and shows the remainder whole when it has at most 50 characters, else its first 50 |
| `Parser.Declarations` | src/parser.rs:15 | the declaration loop's parse stays within the text and never moves backwards |
| `Parser.DeclarationsStop` | src/parser.rs:15 | the declaration loop stops at the end of the text or at a `;`, white space aside |
| `Parser.CdefSucceedsIffConsumed` | src/parser.rs:14-31 | `parse_cdef` succeeds exactly when the declarations consume everything but trailing white space; a failure's remainder starts with `;` |
| `Parser.NoSemicolonParses` | src/parser.rs:151-158 | text without `;` always parses, because every stretch of it is at worst a function declaration |
| `Parser.DeclarationsKeepStructsOnly` | src/parser.rs:42-71 | declarations never remove an entry, and a registry of laid-out structs under their own names stays one |
| `Parser.CdefRegistersLaidOutStructs` | src/parser.rs:14-71 | starting from an empty registry, `parse_cdef` registers only laid-out structs under their own names |
| `Parser.TypedefRegistersNothing` | src/parser.rs:141-158 | a declaration that is not a struct leaves the registry unchanged |
| `Parser.TwoMemberStructRegisters` | src/parser.rs:14-116 | for identifiers N, T1, f1, T2, f2, `parse_cdef` on `struct N { T1 f1; T2 f2; };` succeeds and registers under N the laid-out struct whose members are f1 and f2, in that order, typed as the resolver answers for T1 and T2 |
| `Parser.EmptyStructRegisters` | src/parser.rs:14-92 | for an identifier N, `parse_cdef` on `struct N { };` succeeds and registers N as a struct with no members |

## Left out

- `Float` and `Double` reads and writes, and the float-to-integer `n as T` casts, because they are floating point. `Marshalled` excludes these types from reads and writes.
- `Marshal.FloatBits`: models writing a Lua number to an integer type as truncate, saturate, then wrap. Its contract states only that the result fits the width. NaN and infinities are not modelled: a `Number` is a finite real.
- Reads and writes of the POSIX typedefs (`ino_t` and the others), because the libc widths are platform-specific. These types keep their sizes and alignments in `CTypes`.
- `cdata_to_number`, because its results are doubles.
- `set_metatype` and `set_gc`, because they only store values in the Lua registry.
- `src/dylib.rs`, `CLib` and `CFunction`, because they are dynamic-library loading and a call stub that always fails. `src/lib.rs`, the Lua export table, is not part of this model either.
- The `RwLock` and `OnceLock` around the registry, because the model is sequential.
- `Clone` for `CData`, because the modelled code never calls it and a clone would duplicate an owned pointer.
- `Layout::from_size_align(..).expect` is a precondition (`Cdata.NewRequires`), not behaviour. So are an allocation failure and a `]` before the first `[`. Reading past a string shorter than an explicit `len` is a precondition too (`FfiOps.CopyRequires`).
- `FfiOps.LookupType`: requires that no `]` precedes the first `[` in the whole name. The source panics only when such a name reaches the array branch after its element type has resolved, so this requirement is stronger than the source's.
- `CTypes.Size`: sizes are unbounded naturals. In the source `size()` is a `usize`, so `int[4611686018427387904]`, whose size is 2^64, overflows it: a debug build panics and a release build wraps modulo 2^64. The model promises neither, and computes the exact product. The same holds for the struct round-up `max_end + align - 1` (src/ctype.rs:140) and for the layout cursor `offset += size` (src/parser.rs:80-82): both are exact sums in the model.
- `CTypes.ArrayLayout`: states the exact product `n * size(T)` for every count. It does not model the source's `usize` overflow described above.
- `Parser.ParseCdef`: requires `CountsFit`, that every digit run between a `[` and a `]` in the whole text is below 2^64. The source panics only on a run that `parse_array_size` reads inside a struct member. A text such as `void f(char b[99999999999999999999]);`, which the source skips as a function declaration, is therefore outside the model.
- `Marshal.NewIndex`: storing a cdata into a pointer member of itself (`p.next = p`) fails in the source. There, `__newindex` holds the value mutably borrowed, so `borrow::<CData>()` on the same userdata fails. The model has no borrow state and stores the address.
- `FfiOps.CopyMemory`: requires what `copy_nonoverlapping` requires of its caller. A string source must hold the requested bytes, and a cdata source's span must not overlap the destination's. The source checks neither, and breaking either is undefined behaviour, which the model does not describe.
- `Marshal.ElemAddrIsWrappedOffset` and `Marshal.NoBoundsCheck`: the element address follows a release build, where `i as usize * elem_size` and the pointer addition wrap at 2^64. A debug build panics on that overflow, for example on `a[-1]` of an `int[4]`. Any `ptr.add` beyond the allocation is undefined behaviour in every build. The model describes neither the panic nor the undefined behaviour: it gives the wrapped address.
- `FfiOps.GetAddress`, `FfiOps.FillMemory`, `FfiOps.CdataToString`, and the destination of `FfiOps.CopyMemory`: these take a `CData`. The source takes any userdata, and fails in `borrow::<CData>()` when it holds no `CData`. That failure is modelled only for the value arguments of `cast`, `copy` and pointer writes (`NotACData`).
- `Parser.TwoMemberStructRegisters` and `Parser.EmptyStructRegisters`: they state what a whole struct declaration registers only for texts with zero or two plain members, written with single spaces. Other member counts, spacings and array members are described piece by piece, by `Parser.ParseField`, `Parser.StructFieldsFrom` and `Parser.ParseStruct`.
- `Parser.ParseArraySize`: a count of 2^64 or more makes `digits.parse().expect` panic. The parsers therefore require `CountsFit`, which says every digit run between a `[` and a `]` in the text is below 2^64. A run with no `]` after it is allowed, since `parse_array_size` fails at `char(']')` before it reaches the `expect`.
- `Parser.ParseStructFields`: its contract states only the position reached. Each member is described by `Parser.ParseField`, and the struct that results by `Parser.DeclaredStruct`.
- `Parser.FieldList`: the contract does not restate that every member has offset 0 before layout. The layout pass overwrites every offset anyway (`Layout.CalculateFieldOffsets`).
- `Parser.Identifier`: accepts ASCII letters, digits and `_`, where the source's `is_alphanumeric` accepts every Unicode alphanumeric character.
- `FfiOps.CdataToString`: returns the raw bytes. The source decodes them with `to_string_lossy`, which replaces invalid UTF-8.
- `Marshal.Locate`: a key that is not valid UTF-8 makes the source fail in `to_str()`. The model treats it as a name no member has.
- The `init` argument of `ffi.new`, variable-length arrays and `const`/`volatile` qualifiers, because the source does not implement them.
- The release of a CData's memory when Lua's garbage collector finalises it is modelled as an explicit `Cdata.Drop` call.

=== FILE: bytes.dfy ===
/** Raw memory: bytes, little-endian integer encoding, and the process
    memory as a partial map from address to byte. An address that is absent
    from the map holds no defined value (memory handed out by `alloc` before
    anything is written to it).
 */
module Bytes {
  import opened Wrappers

  type byte = b: int | 0 <= b < 256

  /** The address space: a byte per defined address. */
  type Mem = map<nat, byte>

  /** 256^n, the number of values an n-byte integer can hold. */
  function Pow256(n: nat): (p: nat)
    ensures p >= 1
  {
    if n == 0 then 1 else 256 * Pow256(n - 1)
  }

  /** The n-byte little-endian encoding of v. */
  function EncodeLE(v: nat, n: nat): (bs: seq<byte>)
    requires v < Pow256(n)
    ensures |bs| == n
  {
    if n == 0 then [] else [v % 256] + EncodeLE(v / 256, n - 1)
  }

  /** The value of a little-endian byte sequence. */
  function DecodeLE(bs: seq<byte>): (v: nat)
    ensures v < Pow256(|bs|)
  {
    if |bs| == 0 then 0 else bs[0] + 256 * DecodeLE(bs[1..])
  }

  lemma {:induction false} DecodeEncode(v: nat, n: nat)
    requires v < Pow256(n)
    ensures DecodeLE(EncodeLE(v, n)) == v
  {
    if n > 0 {
      var bs := EncodeLE(v, n);
      assert bs[1..] == EncodeLE(v / 256, n - 1);
      DecodeEncode(v / 256, n - 1);
    }
  }

  lemma {:induction false} EncodeDecode(bs: seq<byte>)
    ensures EncodeLE(DecodeLE(bs), |bs|) == bs
  {
    if |bs| > 0 {
      var v := DecodeLE(bs);
      assert v % 256 == bs[0] && v / 256 == DecodeLE(bs[1..]);
      EncodeDecode(bs[1..]);
    }
  }

  /** All n bytes starting at p hold a value. */
  predicate Defined(mem: Mem, p: nat, n: nat) {
    forall k :: p <= k < p + n ==> k in mem
  }

  /** The n bytes starting at p. */
  function Load(mem: Mem, p: nat, n: nat): (bs: seq<byte>)
    requires Defined(mem, p, n)
    ensures |bs| == n
    ensures forall i :: 0 <= i < n ==> bs[i] == mem[p + i]
  {
    seq(n, i requires 0 <= i < n => mem[p + i])
  }

  /** The memory after `bs` is written at p: exactly the bytes p .. p+|bs|-1
      change, and they become defined. */
  function Store(mem: Mem, p: nat, bs: seq<byte>): (m: Mem)
    ensures forall k :: k in m <==> k in mem || p <= k < p + |bs|
    ensures forall k :: p <= k < p + |bs| ==> m[k] == bs[k - p]
    ensures forall k :: k in mem && !(p <= k < p + |bs|) ==> m[k] == mem[k]
    ensures Defined(m, p, |bs|)
    decreases |bs|
  {
    if |bs| == 0 then mem else Store(mem[p := bs[0]], p + 1, bs[1..])
  }

  lemma LoadAfterStore(mem: Mem, p: nat, bs: seq<byte>)
    ensures Load(Store(mem, p, bs), p, |bs|) == bs
  {
  }

  /** n copies of b. */
  function Repeat(b: byte, n: nat): (bs: seq<byte>)
    ensures |bs| == n
    ensures forall i :: 0 <= i < n ==> bs[i] == b
  {
    seq(n, _ => b)
  }

  /** The n bytes starting at p as they stand, defined or not: `None` for
      an address that holds no defined value. */
  function Contents(mem: Mem, p: nat, n: nat): (cs: seq<Option<byte>>)
    ensures |cs| == n
    ensures forall i :: 0 <= i < n ==> (cs[i].Some? <==> p + i in mem)
    ensures forall i :: 0 <= i < n && p + i in mem ==> cs[i] == Some(mem[p + i])
  {
    seq(n, i requires 0 <= i < n => if p + i in mem then Some(mem[p + i]) else None)
  }

  /** The memory after the bytes cs are put at p, an undefined byte leaving
      its address undefined: the raw effect of a byte-wise copy. */
  function Put(mem: Mem, p: nat, cs: seq<Option<byte>>): (m: Mem)
    ensures forall k :: k in m <==> (k in mem && !(p <= k < p + |cs|)) || (p <= k < p + |cs| && cs[k - p].Some?)
    ensures forall k :: p <= k < p + |cs| && cs[k - p].Some? ==> m[k] == cs[k - p].value
    ensures forall k :: k in mem && !(p <= k < p + |cs|) ==> m[k] == mem[k]
    decreases |cs|
  {
    if |cs| == 0 then mem
    else
      var m0 := if cs[0].Some? then mem[p := cs[0].value] else mem - {p};
      Put(m0, p + 1, cs[1..])
  }

  /** Putting bytes and reading the same span back gives them again, the
      undefined ones included. */
  lemma ContentsAfterPut(mem: Mem, p: nat, cs: seq<Option<byte>>)
    ensures Contents(Put(mem, p, cs), p, |cs|) == cs
  {
    var m := Put(mem, p, cs);
    forall i | 0 <= i < |cs|
      ensures Contents(m, p, |cs|)[i] == cs[i]
    {
      assert cs[(p + i) - p] == cs[i];
    }
  }

  /** Two spans with the same contents, the first fully defined: the second
      is defined too and loads the same bytes. */
  lemma SameContentsLoad(mem: Mem, p: nat, m: Mem, q: nat, n: nat)
    requires Contents(m, q, n) == Contents(mem, p, n) && Defined(mem, p, n)
    ensures Defined(m, q, n) && Load(m, q, n) == Load(mem, p, n)
  {
    forall k | q <= k < q + n
      ensures k in m
    {
      assert Contents(m, q, n)[k - q] == Contents(mem, p, n)[k - q];
    }
    forall i | 0 <= i < n
      ensures Load(m, q, n)[i] == Load(mem, p, n)[i]
    {
      assert Contents(m, q, n)[i] == Contents(mem, p, n)[i];
    }
  }

  /** `copy_nonoverlapping(from, to, n)` on memory: each of the n
      destination bytes becomes what its source byte was, undefined
      included, and no other address changes. */
  function CopyBytes(mem: Mem, from: nat, to: nat, n: nat): (m: Mem)
    ensures Contents(m, to, n) == Contents(mem, from, n)
    ensures Defined(mem, from, n) ==> Defined(m, to, n) && Load(m, to, n) == Load(mem, from, n)
    ensures forall k :: !(to <= k < to + n) ==> (k in m <==> k in mem)
    ensures forall k :: k in mem && !(to <= k < to + n) ==> m[k] == mem[k]
  {
    var m := Put(mem, to, Contents(mem, from, n));
    ContentsAfterPut(mem, to, Contents(mem, from, n));
    if Defined(mem, from, n) then
      SameContentsLoad(mem, from, m, to, n);
      m
    else m
  }
}

=== FILE: cdata.dfy ===
/** The life of a `CData` value (`src/cdata.rs`): where its bytes live and
    who releases them.

    A value is created in one of three ways by `CData::new`: a zero-filled
    64-byte inline buffer for sizes 1..64, a heap block laid out as
    `(size, alignment)` for larger sizes, or a null pointer for size 0.
    Views built by `from_ptr` own nothing. Release happens only when the value
    is dropped, and only for what it owns.

    The allocator is outside the model: the address it hands out is a
    parameter, and what the model needs of it (non-null, suitably aligned, not
    overlapping a live block) is stated as a precondition.
 */
module Cdata {
  import opened CTypes
  import opened Bytes

  /** `SMALL_BUFFER_SIZE`: values of at most this many bytes live inline. */
  const SMALL_BUFFER_SIZE: nat := 64

  /** Addresses are 64-bit. */
  const ADDRESS_LIMIT: nat := 0x1_0000_0000_0000_0000

  /** `isize::MAX`, the largest size `Layout::from_size_align` accepts once
      rounded up to the alignment. */
  const ISIZE_MAX: nat := 0x7FFF_FFFF_FFFF_FFFF

  const NULL: nat := 0

  type Address = a: nat | a < ADDRESS_LIMIT

  /** A C value as the Lua side holds it. `inline` says whether the
      small-buffer `Box` backs it (`small_buffer.is_some()`). */
  datatype CData = CData(ctype: CType, ptr: Address, owned: bool, size: nat, inline: bool)

  /** The layout of a live allocation. */
  datatype Block = Block(size: nat, align: nat)

  /** Memory contents and the live allocations, keyed by start address. */
  datatype Heap = Heap(mem: Mem, blocks: map<nat, Block>)

  /** The layout of the inline buffer, a `Box<[u8; 64]>`. */
  const INLINE_BLOCK: Block := Block(SMALL_BUFFER_SIZE, 1)

  predicate IsNull(c: CData) {
    c.ptr == NULL
  }

  /** `Layout::from_size_align` succeeds. */
  predicate ValidLayout(size: nat, align: nat) {
    align >= 1 && IsPow2(align) && AlignUp(size, align) <= ISIZE_MAX
  }

  /** `n` bytes at `addr` are a fresh allocation: non-null, inside the address
      space, and clear of every live block. */
  predicate Fresh(heap: Heap, addr: nat, n: nat) {
    && addr != NULL
    && addr + n <= ADDRESS_LIMIT
    && forall p :: p in heap.blocks ==> p + heap.blocks[p].size <= addr || addr + n <= p
  }

  /** The memory with the bytes `p .. p+n-1` made undefined (fresh from
      `alloc`, or released). */
  function Forget(mem: Mem, p: nat, n: nat): (m: Mem)
    ensures forall k :: k in m <==> k in mem && !(p <= k < p + n)
    ensures forall k :: k in m ==> m[k] == mem[k]
  {
    map k | k in mem && !(p <= k < p + n) :: mem[k]
  }

  /** The size class `CData::new` picks. */
  predicate IsInlineSize(size: nat) {
    0 < size <= SMALL_BUFFER_SIZE
  }

  /** What `CData::new(ctype, size)` needs from the allocator (`addr`) and
      from `Layout::from_size_align`, which panics otherwise. */
  predicate NewRequires(ctype: CType, size: nat, heap: Heap, addr: nat) {
    && (IsInlineSize(size) ==> Fresh(heap, addr, SMALL_BUFFER_SIZE))
    && (size > SMALL_BUFFER_SIZE ==>
          ValidLayout(size, Alignment(ctype)) && Fresh(heap, addr, size) && Aligned(addr, Alignment(ctype)))
  }

  /** `CData::new`. */
  function New(ctype: CType, size: nat, heap: Heap, addr: nat): (r: (CData, Heap))
    requires NewRequires(ctype, size, heap, addr)
    ensures r.0.ctype == ctype
    ensures IsInlineSize(size) ==>
      && r.0 == CData(ctype, addr, true, size, true)
      && r.1.blocks == heap.blocks[addr := INLINE_BLOCK]
      && Defined(r.1.mem, addr, SMALL_BUFFER_SIZE)
      && Load(r.1.mem, addr, SMALL_BUFFER_SIZE) == Repeat(0, SMALL_BUFFER_SIZE)
    ensures size > SMALL_BUFFER_SIZE ==>
      && r.0 == CData(ctype, addr, true, size, false)
      && r.1.blocks == heap.blocks[addr := Block(size, Alignment(ctype))]
      && (forall k :: addr <= k < addr + size ==> k !in r.1.mem)
    ensures size == 0 ==> r.0 == CData(ctype, NULL, false, 0, false) && r.1 == heap
    ensures forall k :: k in heap.mem && !(addr <= k < addr + Max(size, SMALL_BUFFER_SIZE)) ==>
      k in r.1.mem && r.1.mem[k] == heap.mem[k]
  {
    if IsInlineSize(size) then
      var mem := Store(heap.mem, addr, Repeat(0, SMALL_BUFFER_SIZE));
      LoadAfterStore(heap.mem, addr, Repeat(0, SMALL_BUFFER_SIZE));
      (CData(ctype, addr, true, size, true), Heap(mem, heap.blocks[addr := INLINE_BLOCK]))
    else if size > 0 then
      (CData(ctype, addr, true, size, false),
       Heap(Forget(heap.mem, addr, size), heap.blocks[addr := Block(size, Alignment(ctype))]))
    else
      (CData(ctype, NULL, false, 0, false), heap)
  }

  /** The first w bytes of a new inline value are zero. */
  lemma NewInlineZeroed(ctype: CType, size: nat, heap: Heap, addr: nat, w: nat)
    requires NewRequires(ctype, size, heap, addr) && IsInlineSize(size) && w <= SMALL_BUFFER_SIZE
    ensures var (c, h) := New(ctype, size, heap, addr);
      c.ptr == addr && Defined(h.mem, addr, w) && Load(h.mem, addr, w) == Repeat(0, w)
  {
    var (c, h) := New(ctype, size, heap, addr);
    var all := Load(h.mem, addr, SMALL_BUFFER_SIZE);
    assert Load(h.mem, addr, w) == all[..w];
  }

  /** `CData::new_null_ptr`: a null `void *`. */
  function NewNullPtr(): (c: CData)
    ensures c.ctype == Ptr(Void) && IsNull(c) && !c.owned && !c.inline
    ensures c.size == POINTER_WIDTH && c.size == Size(c.ctype)
  {
    PointerLayout(Ptr(Void));
    CData(Ptr(Void), NULL, false, POINTER_WIDTH, false)
  }

  /** `CData::from_ptr`: a value at an existing address, sized by its type. */
  function FromPtr(ctype: CType, ptr: Address, owned: bool): (c: CData)
    ensures c.ctype == ctype && c.ptr == ptr && c.owned == owned
    ensures c.size == Size(ctype) && !c.inline
  {
    CData(ctype, ptr, owned, Size(ctype), false)
  }

  /** `Drop` calls `dealloc`. */
  predicate FreesHeapBlock(c: CData) {
    c.owned && c.ptr != NULL && c.size > 0 && !c.inline
  }

  /** Dropping the inline `Box` frees the 64-byte buffer. */
  predicate FreesInlineBuffer(c: CData) {
    c.inline
  }

  predicate Releases(c: CData) {
    FreesHeapBlock(c) || FreesInlineBuffer(c)
  }

  /** How many bytes from `c.ptr` on a drop hands back: the heap block, the
      whole inline buffer, or nothing. */
  function ReleasedSpan(c: CData): nat {
    if FreesHeapBlock(c) then c.size
    else if FreesInlineBuffer(c) then SMALL_BUFFER_SIZE
    else 0
  }

  /** What `Drop` needs: the block it hands back is live and has the layout
      it is released with (`dealloc`'s contract). */
  predicate DropRequires(c: CData, heap: Heap) {
    && (FreesHeapBlock(c) ==>
          c.ptr in heap.blocks && heap.blocks[c.ptr] == Block(c.size, Alignment(c.ctype)))
    && (FreesInlineBuffer(c) ==> c.ptr in heap.blocks && heap.blocks[c.ptr] == INLINE_BLOCK)
  }

  /** `impl Drop for CData`, together with the drop of the inline buffer. */
  function Drop(c: CData, heap: Heap): (h: Heap)
    requires DropRequires(c, heap)
    ensures Releases(c) ==> h.blocks == heap.blocks - {c.ptr}
    ensures !Releases(c) ==> h == heap
    ensures forall k :: k in h.mem <==> k in heap.mem && !(c.ptr <= k < c.ptr + ReleasedSpan(c))
    ensures forall k :: k in h.mem ==> h.mem[k] == heap.mem[k]
  {
    if FreesHeapBlock(c) then
      Heap(Forget(heap.mem, c.ptr, c.size), heap.blocks - {c.ptr})
    else if FreesInlineBuffer(c) then
      Heap(Forget(heap.mem, c.ptr, SMALL_BUFFER_SIZE), heap.blocks - {c.ptr})
    else
      heap
  }

  /** Dropping a freshly created value hands back exactly what creating it
      took: the live blocks are as before. */
  lemma NewThenDrop(ctype: CType, size: nat, heap: Heap, addr: nat)
    requires NewRequires(ctype, size, heap, addr)
    requires size > 0 ==> addr !in heap.blocks
    ensures var (c, h) := New(ctype, size, heap, addr);
      DropRequires(c, h) && Drop(c, h).blocks == heap.blocks
  {
    var (c, h) := New(ctype, size, heap, addr);
    if IsInlineSize(size) {
      assert FreesInlineBuffer(c) && h.blocks == heap.blocks[addr := INLINE_BLOCK];
      assert h.blocks - {addr} == heap.blocks;
    } else if size > 0 {
      assert FreesHeapBlock(c) && h.blocks == heap.blocks[addr := Block(size, Alignment(ctype))];
      assert h.blocks - {addr} == heap.blocks;
    } else {
      assert !Releases(c) && h == heap;
    }
  }

  /** Exactly the non-empty values release something when dropped. */
  lemma NewReleasesIffNonEmpty(ctype: CType, size: nat, heap: Heap, addr: nat)
    requires NewRequires(ctype, size, heap, addr)
    ensures Releases(New(ctype, size, heap, addr).0) <==> size > 0
  {
  }

  /** Views (`from_ptr(_, _, false)`) and null values release nothing. */
  lemma ViewsReleaseNothing(c: CData, heap: Heap)
    requires !c.owned && !c.inline
    ensures DropRequires(c, heap) && Drop(c, heap) == heap
  {
  }

  /** Release happens once: after a value that releases something is
      dropped, dropping it again would violate `dealloc`'s contract. */
  lemma NoDoubleRelease(c: CData, heap: Heap)
    requires DropRequires(c, heap) && Releases(c)
    ensures !DropRequires(c, Drop(c, heap))
  {
  }
}

=== FILE: ctypes.dfy ===
/** The C type algebra of `src/ctype.rs`: the `CType` enum, struct and union
    fields, and the two structural recursions `alignment()` and `size()`, for
    an LP64 little-endian target (pointers, `long` and `size_t` are 8 bytes,
    `bool` is 1 byte).
 */
module CTypes {

  /** `size_of::<*const ()>()` and `align_of::<*const ()>()` on the target. */
  const POINTER_WIDTH: nat := 8

  datatype CType =
    | Bool | Char | UChar | Short | UShort | Int | UInt | Long | ULong | LongLong | ULongLong
    | Int8 | Int16 | Int32 | Int64 | UInt8 | UInt16 | UInt32 | UInt64
      // POSIX aliases (present on Unix targets only)
    | InoT | DevT | GidT | ModeT | NlinkT | UidT | OffT | PidT
    | UsecondsT | SusecondsT | BlksizeT | BlkcntT | TimeT
    | SizeT | SSizeT
    | Float | Double
    | Void
    | Ptr(pointee: CType)
    | Array(inner: CType, count: nat)
    | Struct(name: string, fields: seq<CField>)
    | Union(name: string, fields: seq<CField>)
    | Function(ret: CType, params: seq<CType>)
    | Typedef(name: string, inner: CType)

  /** A struct or union member; `offset` is 0 until the layout pass sets it. */
  datatype CField = CField(name: string, ctype: CType, offset: nat)

  predicate IsPosix(t: CType) {
    t.InoT? || t.DevT? || t.GidT? || t.ModeT? || t.NlinkT? || t.UidT? || t.OffT? || t.PidT?
    || t.UsecondsT? || t.SusecondsT? || t.BlksizeT? || t.BlkcntT? || t.TimeT?
  }

  /** The variants without inner structure. */
  predicate IsScalar(t: CType) {
    !(t.Ptr? || t.Array? || t.Struct? || t.Union? || t.Function? || t.Typedef?)
  }

  predicate IsPow2(n: nat) {
    if n <= 1 then n == 1 else n % 2 == 0 && IsPow2(n / 2)
  }

  function Max(a: nat, b: nat): nat {
    if a >= b then a else b
  }

  /** The largest element of a non-empty sequence. */
  function Maximum(xs: seq<nat>): (m: nat)
    requires |xs| > 0
    ensures forall i :: 0 <= i < |xs| ==> xs[i] <= m
    ensures exists i :: 0 <= i < |xs| && xs[i] == m
  {
    if |xs| == 1 then xs[0]
    else
      var rest := Maximum(xs[1..]);
      assert forall i :: 1 <= i < |xs| ==> xs[i] == xs[1..][i - 1];
      Max(xs[0], rest)
  }

  /** An element no other element exceeds is the maximum. */
  lemma MaximumAt(xs: seq<nat>, k: nat)
    requires k < |xs|
    requires forall i :: 0 <= i < |xs| ==> xs[i] <= xs[k]
    ensures Maximum(xs) == xs[k]
  {
    var j :| 0 <= j < |xs| && xs[j] == Maximum(xs);
  }

  /** The maximum of two elements. */
  lemma MaximumPair(xs: seq<nat>)
    requires |xs| == 2
    ensures Maximum(xs) == Max(xs[0], xs[1])
  {
    if xs[0] >= xs[1] {
      MaximumAt(xs, 0);
    } else {
      MaximumAt(xs, 1);
    }
  }

  /** `iter.max().unwrap_or(default)`. */
  function MaxOr(xs: seq<nat>, default: nat): nat {
    if |xs| == 0 then default else Maximum(xs)
  }

  /** `y & !(a - 1)` for a power of two a: the bits below a cleared, one
      bit at a time (`ClearLowBitsMod` shows this is `y - y % a`). */
  function ClearLowBits(y: nat, a: nat): nat
    requires a > 0
    decreases a
  {
    if a <= 1 then y else 2 * ClearLowBits(y / 2, a / 2)
  }

  /** `(x + a - 1) & !(a - 1)`, the round-up used by both the size of a struct
      and the offset pass. */
  function AlignUp(x: nat, a: nat): nat
    requires a > 0
  {
    ClearLowBits(x + a - 1, a)
  }

  lemma MulPos(k: int, a: int)
    requires k >= 1 && a > 0
    ensures k * a >= a
  {
    assert k * a == (k - 1) * a + a;
    assert (k - 1) * a >= 0;
  }

  /** Euclidean division is unique: a quotient and a remainder below the
      divisor are the ones `/` and `%` return. */
  lemma DivModUnique(z: int, a: int, q: int, r: int)
    requires a > 0 && 0 <= r < a && z == q * a + r
    ensures z / a == q && z % a == r
  {
    var q0, r0 := z / a, z % a;
    assert z == q0 * a + r0;
    if q0 < q {
      MulPos(q - q0, a);
    } else if q < q0 {
      MulPos(q0 - q, a);
    }
  }

  /** x is a whole number of a's (`x % a == 0`), stated by repeated
      subtraction; `AlignedMod` relates the two. */
  predicate Aligned(x: nat, a: nat)
    requires a > 0
    decreases x
  {
    if x < a then x == 0 else Aligned(x - a, a)
  }

  lemma {:induction false} AlignedMod(x: nat, a: nat)
    requires a > 0
    ensures Aligned(x, a) <==> x % a == 0
    decreases x
  {
    if x < a {
      DivModUnique(x, a, 0, x);
    } else {
      AlignedMod(x - a, a);
      var y := x - a;
      assert x == (y / a + 1) * a + y % a;
      DivModUnique(x, a, y / a + 1, y % a);
    }
  }

  /** Clearing the bits below a power of two a takes away the remainder
      modulo a. */
  lemma {:induction false} ClearLowBitsMod(y: nat, a: nat)
    requires IsPow2(a)
    ensures ClearLowBits(y, a) == y - y % a
    decreases a
  {
    if a > 1 {
      ClearLowBitsMod(y / 2, a / 2);
      ModDouble(y, a / 2);
    }
  }

  /** The remainder modulo 2b, from the remainders of halving. */
  lemma ModDouble(y: nat, b: nat)
    requires b > 0
    ensures y % (2 * b) == 2 * ((y / 2) % b) + y % 2
  {
    var q, r := y / 2, y % 2;
    var k, s := q / b, q % b;
    assert q == k * b + s;
    assert k * (2 * b) == 2 * (k * b);
    DivModUnique(y, 2 * b, k, 2 * s + r);
  }

  /** Clearing the bits below a moves y down by less than a. */
  lemma {:induction false} ClearLowBitsBounds(y: nat, a: nat)
    requires IsPow2(a)
    ensures y - a < ClearLowBits(y, a) <= y
    decreases a
  {
    if a > 1 {
      ClearLowBitsBounds(y / 2, a / 2);
    }
  }

  /** ... and leaves a multiple of a. */
  lemma {:induction false} ClearLowBitsAligned(y: nat, a: nat)
    requires IsPow2(a)
    ensures Aligned(ClearLowBits(y, a), a)
    decreases a
  {
    if a > 1 {
      ClearLowBitsAligned(y / 2, a / 2);
      AlignedDouble(ClearLowBits(y / 2, a / 2), a / 2);
    } else {
      AlignedByOne(y);
    }
  }

  lemma {:induction false} AlignedByOne(y: nat)
    ensures Aligned(y, 1)
    decreases y
  {
    if y >= 1 {
      AlignedByOne(y - 1);
    }
  }

  /** Doubling a multiple of b gives a multiple of 2b. */
  lemma {:induction false} AlignedDouble(z: nat, b: nat)
    requires b > 0 && Aligned(z, b)
    ensures Aligned(2 * z, 2 * b)
    decreases z
  {
    if z >= b {
      AlignedDouble(z - b, b);
    }
  }

  /** Two multiples of a less than a apart are in order. */
  lemma {:induction false} AlignedGap(v: nat, m: nat, a: nat)
    requires a > 0 && Aligned(v, a) && Aligned(m, a) && v < m + a
    ensures v <= m
    decreases m
  {
    if m >= a && v >= a {
      AlignedGap(v - a, m - a, a);
    }
  }

  lemma AlignUpBounds(x: nat, a: nat)
    requires IsPow2(a)
    ensures x <= AlignUp(x, a) < x + a
  {
    ClearLowBitsBounds(x + a - 1, a);
  }

  lemma AlignUpIsMultiple(x: nat, a: nat)
    requires IsPow2(a)
    ensures Aligned(AlignUp(x, a), a)
  {
    ClearLowBitsAligned(x + a - 1, a);
  }

  lemma AlignUpBelowMultiple(x: nat, a: nat, m: nat)
    requires IsPow2(a) && Aligned(m, a) && x <= m
    ensures AlignUp(x, a) <= m
  {
    AlignUpBounds(x, a);
    AlignUpIsMultiple(x, a);
    AlignedGap(AlignUp(x, a), m, a);
  }

  /** The round-up is the least multiple of a that is at least x. */
  lemma AlignUpIsLeastMultiple(x: nat, a: nat)
    requires IsPow2(a)
    ensures Aligned(AlignUp(x, a), a)
    ensures x <= AlignUp(x, a) < x + a
    ensures forall m: nat :: Aligned(m, a) && x <= m ==> AlignUp(x, a) <= m
  {
    AlignUpBounds(x, a);
    AlignUpIsMultiple(x, a);
    forall m: nat | Aligned(m, a) && x <= m ensures AlignUp(x, a) <= m {
      AlignUpBelowMultiple(x, a, m);
    }
  }

  /** `CType::alignment`. */
  function Alignment(t: CType): (a: nat)
    ensures a >= 1 && IsPow2(a)
  {
    match t
    case Bool => 1
    case Char | UChar | Int8 | UInt8 => 1
    case Short | UShort | Int16 | UInt16 => 2
    case Int | UInt | Int32 | UInt32 | Float => 4
    case Long | ULong | LongLong | ULongLong | Int64 | UInt64 | Double => 8
    case SizeT | SSizeT => POINTER_WIDTH
    case Void => 1
    case Ptr(_) => POINTER_WIDTH
    case Function(_, _) => POINTER_WIDTH
    case Array(inner, _) => Alignment(inner)
    case Typedef(_, inner) => Alignment(inner)
    case Struct(_, fields) => MaxOr(FieldAlignments(t, fields), 1)
    case Union(_, fields) => MaxOr(FieldAlignments(t, fields), 1)
    case _ => 8
  }

  /** The alignments of the members of the aggregate `t`. */
  function FieldAlignments(t: CType, fields: seq<CField>): (xs: seq<nat>)
    requires t.Struct? || t.Union?
    requires fields == t.fields
    ensures |xs| == |fields|
    ensures forall i :: 0 <= i < |xs| ==> IsPow2(xs[i])
    decreases t, 0
  {
    seq(|fields|, i requires 0 <= i < |fields| => Alignment(fields[i].ctype))
  }

  /** `CType::size`. */
  function Size(t: CType): nat {
    match t
    case Bool => 1
    case Char | UChar | Int8 | UInt8 => 1
    case Short | UShort | Int16 | UInt16 => 2
    case Int | UInt | Int32 | UInt32 => 4
    case Long | ULong => 8
    case LongLong | ULongLong | Int64 | UInt64 => 8
    case SizeT | SSizeT => POINTER_WIDTH
    case InoT | DevT | GidT | ModeT | NlinkT | UidT | OffT | PidT
      | UsecondsT | SusecondsT | BlksizeT | BlkcntT | TimeT => 8
    case Float => 4
    case Double => 8
    case Void => 0
    case Ptr(_) => POINTER_WIDTH
    case Function(_, _) => POINTER_WIDTH
    case Array(inner, count) => Size(inner) * count
    case Struct(_, fields) =>
      if |fields| == 0 then 0
      else AlignUp(MaxOr(FieldEnds(t, fields), 0), Alignment(t))
    case Union(_, fields) => MaxOr(FieldSizes(t, fields), 0)
    case Typedef(_, inner) => Size(inner)
  }

  /** `offset + size` of each member of the struct `t`, from the stored offsets. */
  function FieldEnds(t: CType, fields: seq<CField>): (xs: seq<nat>)
    requires t.Struct? && fields == t.fields
    ensures |xs| == |fields|
    decreases t, 0
  {
    seq(|fields|, i requires 0 <= i < |fields| => fields[i].offset + Size(fields[i].ctype))
  }

  /** The sizes of the members of the union `t`. */
  function FieldSizes(t: CType, fields: seq<CField>): (xs: seq<nat>)
    requires t.Union? && fields == t.fields
    ensures |xs| == |fields|
    decreases t, 0
  {
    seq(|fields|, i requires 0 <= i < |fields| => Size(fields[i].ctype))
  }

  /** Every scalar other than `void` is as large as it is aligned, and both are
      1, 2, 4 or 8; `void` has size 0 and alignment 1. */
  lemma ScalarLayout(t: CType)
    requires IsScalar(t)
    ensures t == Void ==> Size(t) == 0 && Alignment(t) == 1
    ensures t != Void ==> Size(t) > 0 && Size(t) == Alignment(t)
    ensures t != Void ==> Size(t) == 1 || Size(t) == 2 || Size(t) == 4 || Size(t) == 8
  {
  }

  /** Pointers and function types are pointer-sized whatever they refer to. */
  lemma PointerLayout(t: CType)
    requires t.Ptr? || t.Function?
    ensures Size(t) == POINTER_WIDTH && Alignment(t) == POINTER_WIDTH
  {
  }

  /** An array is `count` back-to-back elements aligned like one element;
      nested arrays multiply their counts. */
  lemma ArrayLayout(elem: CType, m: nat, n: nat)
    ensures Size(Array(elem, n)) == n * Size(elem)
    ensures Alignment(Array(elem, n)) == Alignment(elem)
    ensures Size(Array(elem, 0)) == 0
    ensures Size(Array(Array(elem, m), n)) == n * m * Size(elem)
  {
    var e := Size(elem);
    assert Size(Array(elem, n)) == e * n == n * e;
    assert Size(Array(elem, m)) == e * m;
    assert Size(Array(Array(elem, m), n)) == (e * m) * n;
    MulReorder(e, m, n);
  }

  lemma MulReorder(e: nat, m: nat, n: nat)
    ensures (e * m) * n == n * m * e
  {
  }

  /** A typedef has the layout of the type it names. */
  lemma TypedefLayout(name: string, t: CType)
    ensures Size(Typedef(name, t)) == Size(t)
    ensures Alignment(Typedef(name, t)) == Alignment(t)
  {
  }

  /** The alignment of a struct or union is the largest alignment of a
      member, and 1 when there is none. */
  lemma AggregateAlignment(t: CType)
    requires t.Struct? || t.Union?
    ensures |t.fields| == 0 ==> Alignment(t) == 1
    ensures forall i :: 0 <= i < |t.fields| ==> Alignment(t.fields[i].ctype) <= Alignment(t)
    ensures |t.fields| > 0 ==> exists i :: 0 <= i < |t.fields| && Alignment(t) == Alignment(t.fields[i].ctype)
  {
    MaxOfMembers(t.fields, FieldAlignments(t, t.fields), Alignment(t));
  }

  /** The largest of the members' alignments, or 1 when there are none. */
  lemma MaxOfMembers(fields: seq<CField>, xs: seq<nat>, m: nat)
    requires |xs| == |fields|
    requires forall i :: 0 <= i < |xs| ==> xs[i] == Alignment(fields[i].ctype)
    requires m == MaxOr(xs, 1)
    ensures |fields| == 0 ==> m == 1
    ensures forall i :: 0 <= i < |fields| ==> Alignment(fields[i].ctype) <= m
    ensures |fields| > 0 ==> exists i :: 0 <= i < |fields| && m == Alignment(fields[i].ctype)
  {
    if |xs| > 0 {
      var k :| 0 <= k < |xs| && xs[k] == Maximum(xs);
      assert m == Alignment(fields[k].ctype);
    }
  }

  /** The end of member i of a struct according to its stored offset. */
  function FieldEnd(f: CField): nat {
    f.offset + Size(f.ctype)
  }

  /** A non-empty struct is the least multiple of its alignment that covers
      the end of every member at its stored offset. */
  lemma StructSize(t: CType)
    requires t.Struct? && |t.fields| > 0
    ensures Aligned(Size(t), Alignment(t))
    ensures forall i :: 0 <= i < |t.fields| ==> FieldEnd(t.fields[i]) <= Size(t)
    ensures forall m: nat :: Aligned(m, Alignment(t)) && (forall i :: 0 <= i < |t.fields| ==> FieldEnd(t.fields[i]) <= m) ==> Size(t) <= m
  {
    var ends := FieldEnds(t, t.fields);
    assert forall i :: 0 <= i < |t.fields| ==> ends[i] == FieldEnd(t.fields[i]);
    var maxEnd := Maximum(ends);
    AlignUpIsLeastMultiple(maxEnd, Alignment(t));
    forall m: nat | Aligned(m, Alignment(t)) && (forall i :: 0 <= i < |t.fields| ==> FieldEnd(t.fields[i]) <= m)
      ensures Size(t) <= m
    {
      var k :| 0 <= k < |ends| && ends[k] == maxEnd;
      assert maxEnd <= m;
    }
  }

  /** The size of an empty struct is 0. */
  lemma EmptyStructSize(name: string)
    ensures Size(Struct(name, [])) == 0 && Alignment(Struct(name, [])) == 1
  {
  }

  /** A union is as large as its largest member: offsets play no part and the
      size is not rounded to the union's alignment. */
  lemma UnionSize(t: CType)
    requires t.Union?
    ensures |t.fields| == 0 ==> Size(t) == 0
    ensures forall i :: 0 <= i < |t.fields| ==> Size(t.fields[i].ctype) <= Size(t)
    ensures |t.fields| > 0 ==> exists i :: 0 <= i < |t.fields| && Size(t) == Size(t.fields[i].ctype)
  {
    var xs := FieldSizes(t, t.fields);
    assert forall i :: 0 <= i < |t.fields| ==> xs[i] == Size(t.fields[i].ctype);
    if |xs| > 0 {
      var k :| 0 <= k < |xs| && xs[k] == Maximum(xs);
      assert Size(t) == Size(t.fields[k].ctype);
    }
  }

  /** Two unions whose members have the same types have the same size,
      whatever their names and offsets. */
  lemma UnionSizeIgnoresOffsets(t: CType, u: CType)
    requires t.Union? && u.Union? && |t.fields| == |u.fields|
    requires forall i :: 0 <= i < |t.fields| ==> t.fields[i].ctype == u.fields[i].ctype
    ensures Size(t) == Size(u)
  {
    assert FieldSizes(t, t.fields) == FieldSizes(u, u.fields);
  }

  /** `union { char c[5]; int i; }` has size 5 although it is 4-aligned. */
  lemma UnionSizeNotRounded()
    ensures var u := Union("U", [CField("c", Array(Char, 5), 0), CField("i", Int, 0)]);
      Size(u) == 5 && Alignment(u) == 4 && !Aligned(Size(u), Alignment(u))
  {
    var u := Union("U", [CField("c", Array(Char, 5), 0), CField("i", Int, 0)]);
    assert FieldSizes(u, u.fields) == [5, 4];
    assert FieldAlignments(u, u.fields) == [1, 4];
  }

  /** The size of a struct follows whatever offsets its members carry: an
      `int` member stored at offset 100 makes the struct 104 bytes. */
  lemma StructSizeTrustsOffsets()
    ensures Size(Struct("S", [CField("x", Int, 100)])) == 104
  {
    var t := Struct("S", [CField("x", Int, 100)]);
    assert FieldEnds(t, t.fields) == [104];
    assert FieldAlignments(t, t.fields) == [4];
  }
}

=== FILE: ffiops.dfy ===
/** The operations behind the Lua-facing `ffi` table (`src/ffi_ops.rs`):
    resolving a C type name, the registry of declared types, `sizeof`,
    `offsetof`, `new`, `cast`, `addressof`, and the raw buffer operations
    `copy`, `fill` and `string`.

    The registry is a value passed in and returned rather than a global
    behind a lock; the allocator's answer is a parameter as in `Cdata`.
 */
module FfiOps {
  import opened Wrappers
  import opened Bytes
  import opened Text
  import opened CTypes
  import opened Cdata
  import opened Marshal
  import Layout

  /** The names the resolver knows without any declaration. */
  const BASIC_TYPES: map<string, CType> := map[
    "int" := Int,
    "unsigned int" := UInt,
    "char" := Char,
    "unsigned char" := UChar,
    "short" := Short,
    "unsigned short" := UShort,
    "long" := Long,
    "unsigned long" := ULong,
    "float" := Float,
    "double" := Double,
    "void" := Void,
    "bool" := Bool,
    "int8_t" := Int8,
    "int16_t" := Int16,
    "int32_t" := Int32,
    "int64_t" := Int64,
    "uint8_t" := UInt8,
    "uint16_t" := UInt16,
    "uint32_t" := UInt32,
    "uint64_t" := UInt64,
    "size_t" := SizeT,
    "ssize_t" := SSizeT
  ]

  /** Declared types by name (`TYPE_REGISTRY`). */
  type Registry = map<string, CType>

  /** `register_type`: a later declaration replaces an earlier one. */
  function Register(reg: Registry, name: string, t: CType): (r: Registry)
    ensures name in r && r[name] == t
    ensures forall n :: n != name ==> (n in r <==> n in reg)
    ensures forall n :: n != name && n in reg ==> r[n] == reg[n]
  {
    reg[name := t]
  }

  /** Slicing between the first `[` and the first `]` stays in bounds: no
      `]` comes before the first `[`. */
  predicate BracketsOrdered(s: string) {
    '[' in s ==> IndexOf(s, '[') <= IndexOf(s, ']')
  }

  /** `lookup_type`: the basic names first, then a trailing `*` (all trailing
      stars at once), then an array suffix, then the registry. */
  function LookupType(reg: Registry, s: string): (r: Result<CType>)
    requires BracketsOrdered(s)
    ensures s in BASIC_TYPES ==> r == Ok(BASIC_TYPES[s])
    ensures s !in BASIC_TYPES && |s| > 0 && s[|s| - 1] == '*' ==> (r.Ok? ==> r.value.Ptr?)
    ensures s !in BASIC_TYPES && '[' !in s && (|s| == 0 || s[|s| - 1] != '*') ==>
      r == (if s in reg then Ok(reg[s]) else Err(UnknownType(s)))
    decreases |s|
  {
    if s in BASIC_TYPES then Ok(BASIC_TYPES[s])
    else if |s| > 0 && s[|s| - 1] == '*' then
      var inner :- LookupType(reg, PointerBase(s));
      Ok(Ptr(inner))
    else if '[' in s then
      var inner :- LookupType(reg, ArrayBase(s));
      var n :- ArrayCount(s);
      Ok(Array(inner, n))
    else if s in reg then Ok(reg[s])
    else Err(UnknownType(s))
  }

  /** A name ending in `*` is a pointer to whatever its base name resolves
      to, and fails exactly as the base name does. */
  lemma LookupTypePointer(reg: Registry, s: string)
    requires BracketsOrdered(s) && s !in BASIC_TYPES && |s| > 0 && s[|s| - 1] == '*'
    ensures match LookupType(reg, PointerBase(s))
      case Ok(t) => LookupType(reg, s) == Ok(Ptr(t))
      case Err(e) => LookupType(reg, s) == Err(e)
  {
  }

  /** A name with `[` and no trailing `*` is an array of whatever the text
      before the bracket resolves to, counted by the text inside; the base
      name's failure comes first, then the count's. */
  lemma LookupTypeArray(reg: Registry, s: string)
    requires BracketsOrdered(s) && s !in BASIC_TYPES && (|s| == 0 || s[|s| - 1] != '*') && '[' in s
    ensures match LookupType(reg, ArrayBase(s))
      case Ok(t) => LookupType(reg, s) == (if ArrayCount(s).Ok? then Ok(Array(t, ArrayCount(s).value)) else Err(ArrayCount(s).error))
      case Err(e) => LookupType(reg, s) == Err(e)
  {
  }

  /** The pointee name of `T *`: the text before the trailing stars, trimmed. */
  function PointerBase(s: string): (b: string)
    requires |s| > 0 && s[|s| - 1] == '*' && BracketsOrdered(s)
    ensures |b| < |s| && BracketsOrdered(b)
    ensures b == Trim(s[..TrimEndStars(s)])
  {
    TrimKeepsBrackets(s[..TrimEndStars(s)], s);
    Trim(s[..TrimEndStars(s)])
  }

  /** The element name of `T[n]`: the text before the first `[`, trimmed. */
  function ArrayBase(s: string): (b: string)
    requires '[' in s
    ensures |b| < |s| && '[' !in b && BracketsOrdered(b)
    ensures b == Trim(s[..IndexOf(s, '[')])
  {
    Trim(s[..IndexOf(s, '[')])
  }

  /** The count of `T[n]`: the trimmed text between the first `[` and the
      first `]`; empty text is a flexible array of 0. */
  function ArrayCount(s: string): (r: Result<nat>)
    requires '[' in s && BracketsOrdered(s)
    ensures ']' !in s ==> r == Err(MissingCloseBracket(s))
    ensures ']' in s ==>
      var text := Trim(s[IndexOf(s, '[') + 1..IndexOf(s, ']')]);
      && (|text| == 0 ==> r == Ok(0))
      && (|text| > 0 ==> r == (if ParseUsize(text).Some? then Ok(ParseUsize(text).value) else Err(InvalidArraySize(text))))
  {
    var open := IndexOf(s, '[');
    var close := IndexOf(s, ']');
    if close == |s| then Err(MissingCloseBracket(s))
    else
      var text := Trim(s[open + 1..close]);
      if |text| == 0 then Ok(0)
      else
        match ParseUsize(text)
        case Some(n) => Ok(n)
        case None => Err(InvalidArraySize(text))
  }

  /** Trimming a prefix of a bracket-ordered name keeps it bracket-ordered. */
  lemma TrimKeepsBrackets(prefix: string, s: string)
    requires prefix <= s && BracketsOrdered(s)
    ensures BracketsOrdered(Trim(prefix))
  {
    LeadingNotOpen(prefix, s);
    InfixBrackets(s, TrimLeft(prefix), TrimEndIndex(prefix));
    assert Trim(prefix) == s[TrimLeft(prefix)..TrimEndIndex(prefix)];
  }

  /** The white space `trim` drops from the front holds no `[`. */
  lemma LeadingNotOpen(prefix: string, s: string)
    requires prefix <= s
    ensures forall i :: 0 <= i < TrimLeft(prefix) ==> s[i] != '['
  {
    forall i | 0 <= i < TrimLeft(prefix) ensures s[i] != '[' {
      assert IsWhitespace(prefix[i]);
    }
  }

  /** A slice of a bracket-ordered name that starts before any `[` is
      bracket-ordered. */
  lemma InfixBrackets(s: string, a: nat, b: nat)
    requires a <= b <= |s| && BracketsOrdered(s)
    requires forall i :: 0 <= i < a ==> s[i] != '['
    ensures BracketsOrdered(s[a..b])
  {
    var t := s[a..b];
    if '[' in t {
      var j := IndexOf(t, '[');
      assert s[a + j] == t[j];
      forall i | a <= i < a + j ensures s[i] != '[' {
        assert s[i] == t[i - a];
      }
      IndexOfAt(s, '[', a + j);
      forall i | 0 <= i < j ensures t[i] != ']' {
        assert t[i] == s[a + i];
      }
      IndexOfAtLeast(t, ']', j);
    }
  }

  /** `find` looks no earlier than the first occurrence. */
  lemma IndexOfAtLeast(s: string, c: char, k: nat)
    requires k <= |s| && forall i :: 0 <= i < k ==> s[i] != c
    ensures IndexOf(s, c) >= k
  {
  }

  /** `find` returns the first occurrence. */
  lemma IndexOfAt(s: string, c: char, k: nat)
    requires k < |s| && s[k] == c
    requires forall i :: 0 <= i < k ==> s[i] != c
    ensures IndexOf(s, c) == k
  {
  }

  /** A name the registry answers for: not basic, no `[`, no trailing `*`. */
  predicate PlainName(s: string) {
    s !in BASIC_TYPES && '[' !in s && (|s| == 0 || s[|s| - 1] != '*')
  }

  /** A type registered under a plain name resolves to that type; the basic
      names cannot be shadowed. */
  lemma {:induction false} RegisterThenLookup(reg: Registry, name: string, t: CType)
    requires BracketsOrdered(name)
    ensures PlainName(name) ==> LookupType(Register(reg, name, t), name) == Ok(t)
    ensures name in BASIC_TYPES ==> LookupType(Register(reg, name, t), name) == Ok(BASIC_TYPES[name])
  {
  }

  /** A name that is spelled without padding: not empty, and neither its
      first nor its last character is white space. */
  predicate Unpadded(s: string) {
    |s| > 0 && !IsWhitespace(s[0]) && !IsWhitespace(s[|s| - 1])
  }

  lemma TrimUnpadded(s: string)
    requires Unpadded(s)
    ensures Trim(s) == s
  {
  }

  /** Every basic name ends in a lower-case letter. */
  lemma BasicNamesEndInLetter()
    ensures forall s :: s in BASIC_TYPES ==> |s| > 0 && 'a' <= s[|s| - 1] <= 'z'
  {
  }

  /** A name ending in anything but a lower-case letter (a star, a bracket,
      a digit) is never basic. */
  lemma NotBasic(s: string)
    requires |s| > 0 && !('a' <= s[|s| - 1] <= 'z')
    ensures s !in BASIC_TYPES
  {
    BasicNamesEndInLetter();
  }

  /** k stars. */
  function Stars(k: nat): (r: string)
    ensures |r| == k && forall i :: 0 <= i < k ==> r[i] == '*'
  {
    seq(k, _ => '*')
  }

  /** Any number of trailing stars denotes ONE level of pointer: `T **`
      resolves to a pointer to `T`, not to a pointer to a pointer. White
      space before the stars (`char *`) is trimmed away with the stars. */
  lemma StarsCollapse(reg: Registry, name: string, k: nat)
    requires |name| > 0 && name[|name| - 1] != '*' && BracketsOrdered(name)
    requires k >= 1
    ensures BracketsOrdered(name + Stars(k)) && BracketsOrdered(Trim(name))
    ensures var r := LookupType(reg, name + Stars(k));
      match LookupType(reg, Trim(name))
      case Ok(t) => r == Ok(Ptr(t))
      case Err(e) => r == Err(e)
  {
    var s := name + Stars(k);
    assert s[|s| - 1] == '*';
    NotBasic(s);
    assert s[..|name|] == name;
    TrimEndStarsOf(name, k);
    BracketsOrderedAppend(name, Stars(k));
    assert PointerBase(s) == Trim(name);
    LookupTypePointer(reg, s);
  }

  lemma TrimEndStarsOf(name: string, k: nat)
    requires |name| > 0 && name[|name| - 1] != '*'
    ensures TrimEndStars(name + Stars(k)) == |name|
  {
    var s := name + Stars(k);
    assert s[|name| - 1] == name[|name| - 1];
  }

  /** Appending text without brackets keeps a name bracket-ordered. */
  lemma BracketsOrderedAppend(name: string, tail: string)
    requires BracketsOrdered(name) && '[' !in tail && ']' !in tail
    ensures BracketsOrdered(name + tail)
  {
    var s := name + tail;
    if '[' in s {
      assert '[' in name by {
        var k :| 0 <= k < |s| && s[k] == '[';
        assert k < |name| ==> name[k] == '[';
      }
      var j := IndexOf(name, '[');
      assert j < |name| && name[j] == '[';
      assert forall i :: 0 <= i < j ==> s[i] == name[i];
      IndexOfAt(s, '[', j);
      assert forall i :: 0 <= i < j ==> name[i] != ']';
    }
  }

  /** The text `name[count]`. */
  function ArrayName(name: string, count: string): string {
    name + "[" + count + "]"
  }

  /** `name[count]` resolves to an array of what `name` resolves to, once
      both are trimmed: `[]` or blank brackets give a flexible array of 0, a
      count `usize::from_str` accepts gives that many elements, any other
      count is `InvalidArraySize`; an error resolving `name` comes first. */
  lemma ArrayLookup(reg: Registry, name: string, count: string)
    requires '[' !in name && ']' !in name && '[' !in count && ']' !in count
    ensures BracketsOrdered(ArrayName(name, count)) && BracketsOrdered(Trim(name))
    ensures var r := LookupType(reg, ArrayName(name, count));
      var text := Trim(count);
      match LookupType(reg, Trim(name))
      case Ok(t) =>
        && (|text| == 0 ==> r == Ok(Array(t, 0)))
        && (|text| > 0 ==> r == (if ParseUsize(text).Some? then Ok(Array(t, ParseUsize(text).value))
                                 else Err(InvalidArraySize(text))))
      case Err(e) => r == Err(e)
  {
    var s := ArrayName(name, count);
    ArrayNameBrackets(name, count);
    NotBasic(s);
    assert ArrayBase(s) == Trim(name);
    LookupTypeArray(reg, s);
  }

  /** How the resolver splits `name[digits]` for an unpadded name. */
  lemma ArrayNameParts(name: string, digits: string)
    requires Unpadded(name) && '[' !in name && ']' !in name
    requires AllDigits(digits) && (|digits| > 0 ==> DigitsValue(digits) < USIZE_LIMIT)
    ensures var s := ArrayName(name, digits);
      && s !in BASIC_TYPES && s[|s| - 1] != '*' && '[' in s && BracketsOrdered(s)
      && ArrayBase(s) == name
      && ArrayCount(s) == Ok(if |digits| == 0 then 0 else DigitsValue(digits))
  {
    DigitsNoBrackets(digits);
    ArrayNameBrackets(name, digits);
    NotBasic(ArrayName(name, digits));
    ArrayNameBase(name, digits);
    ArrayNameCount(name, digits);
  }

  lemma DigitsNoBrackets(digits: string)
    requires AllDigits(digits)
    ensures '[' !in digits && ']' !in digits
  {
    assert forall i :: 0 <= i < |digits| ==> digits[i] != '[' && digits[i] != ']';
  }

  /** The element name of `name[digits]` is `name`. */
  lemma ArrayNameBase(name: string, digits: string)
    requires Unpadded(name) && '[' !in name && ']' !in name && '[' !in digits && ']' !in digits
    ensures '[' in ArrayName(name, digits) && ArrayBase(ArrayName(name, digits)) == name
  {
    ArrayNameBrackets(name, digits);
    TrimUnpadded(name);
  }

  /** The count of `name[digits]` is the value of `digits`, or 0 for none. */
  lemma ArrayNameCount(name: string, digits: string)
    requires '[' !in name && ']' !in name
    requires AllDigits(digits) && (|digits| > 0 ==> DigitsValue(digits) < USIZE_LIMIT)
    ensures var s := ArrayName(name, digits);
      && '[' in s && BracketsOrdered(s)
      && ArrayCount(s) == Ok(if |digits| == 0 then 0 else DigitsValue(digits))
  {
    var s := ArrayName(name, digits);
    DigitsNoBrackets(digits);
    ArrayNameBrackets(name, digits);
    BracketedCount(s, digits);
  }

  /** The count of any name whose brackets enclose exactly `digits`. */
  lemma BracketedCount(s: string, digits: string)
    requires '[' in s && ']' in s && BracketsOrdered(s)
    requires s[IndexOf(s, '[') + 1..IndexOf(s, ']')] == digits
    requires AllDigits(digits) && (|digits| > 0 ==> DigitsValue(digits) < USIZE_LIMIT)
    ensures ArrayCount(s) == Ok(if |digits| == 0 then 0 else DigitsValue(digits))
  {
    if |digits| > 0 {
      DigitsCount(s, digits);
    } else {
      EmptyCount(s);
    }
  }

  /** `name[]` is a flexible array: its count is 0. */
  lemma EmptyCount(s: string)
    requires '[' in s && ']' in s && BracketsOrdered(s)
    requires IndexOf(s, '[') + 1 == IndexOf(s, ']')
    ensures ArrayCount(s) == Ok(0)
  {
    assert Trim(s[IndexOf(s, '[') + 1..IndexOf(s, ']')]) == [];
  }

  /** `name[digits]` counts the value of `digits`. */
  lemma DigitsCount(s: string, digits: string)
    requires '[' in s && ']' in s && BracketsOrdered(s)
    requires s[IndexOf(s, '[') + 1..IndexOf(s, ']')] == digits
    requires |digits| > 0 && AllDigits(digits) && DigitsValue(digits) < USIZE_LIMIT
    ensures ArrayCount(s) == Ok(DigitsValue(digits))
  {
    DigitsTrimmed(digits);
    assert ParseUsize(digits) == Some(DigitsValue(digits));
  }

  /** A run of digits has no white space to trim. */
  lemma DigitsTrimmed(digits: string)
    requires |digits| > 0 && AllDigits(digits)
    ensures Trim(digits) == digits
  {
    assert IsAsciiDigit(digits[0]) && IsAsciiDigit(digits[|digits| - 1]);
    TrimUnpadded(digits);
  }

  /** Where the brackets of `name[count]` are. */
  lemma ArrayNameBrackets(name: string, count: string)
    requires '[' !in name && ']' !in name && '[' !in count && ']' !in count
    ensures var s := ArrayName(name, count);
      && '[' in s && ']' in s
      && IndexOf(s, '[') == |name| && IndexOf(s, ']') == |name| + 1 + |count|
      && s[|s| - 1] == ']' && BracketsOrdered(s)
      && s[..|name|] == name && s[|name| + 1..|name| + 1 + |count|] == count
  {
    var s := ArrayName(name, count);
    var open := |name|;
    var close := |name| + 1 + |count|;
    assert s[open] == '[' && s[close] == ']';
    assert forall i :: 0 <= i < open ==> s[i] == name[i];
    IndexOfAt(s, '[', open);
    forall i | 0 <= i < close ensures s[i] != ']' {
      if i > open {
        assert s[i] == count[i - open - 1];
      }
    }
    IndexOfAt(s, ']', close);
    assert s[..open] == name;
    assert s[open + 1..close] == count;
  }

  /** Printing a count and resolving it again: `name[<decimal n>]` is an
      array of exactly n elements, so `sizeof` gives n times the element
      size. */
  lemma ArrayNameRoundTrip(reg: Registry, name: string, n: nat)
    requires Unpadded(name) && '[' !in name && ']' !in name && n < USIZE_LIMIT
    requires LookupType(reg, name).Ok? && n * Size(LookupType(reg, name).value) < USIZE_LIMIT
    ensures BracketsOrdered(ArrayName(name, NatToDigits(n)))
    ensures LookupType(reg, ArrayName(name, NatToDigits(n))) == Ok(Array(LookupType(reg, name).value, n))
    ensures SizeOf(reg, ArrayName(name, NatToDigits(n))) == Ok(n * Size(LookupType(reg, name).value))
  {
    DigitsRoundTrip(n);
    ArrayNameParts(name, NatToDigits(n));
    ArrayLayout(LookupType(reg, name).value, 0, n);
  }

  /** `ffi.new("T[n]")` makes an array value whose length (`#`) is n. */
  lemma NewArrayLen(reg: Registry, name: string, n: nat, heap: Heap, addr: nat)
    requires Unpadded(name) && '[' !in name && ']' !in name && n < USIZE_LIMIT
    requires LookupType(reg, name).Ok?
    requires NewCDataRequires(reg, ArrayName(name, NatToDigits(n)), heap, addr)
    ensures NewCData(reg, ArrayName(name, NatToDigits(n)), heap, addr).Ok?
    ensures Len(NewCData(reg, ArrayName(name, NatToDigits(n)), heap, addr).value.0) == Ok(n)
  {
    DigitsRoundTrip(n);
    ArrayNameParts(name, NatToDigits(n));
  }

  /** A missing `]` (`name[digits` with nothing after) is reported only
      once the element type has resolved. */
  lemma MissingBracket(reg: Registry, name: string, rest: string)
    requires Unpadded(name) && '[' !in name && ']' !in name && AllDigits(rest)
    ensures BracketsOrdered(name + "[" + rest)
    ensures var r := LookupType(reg, name + "[" + rest);
      match LookupType(reg, name)
      case Ok(_) => r == Err(MissingCloseBracket(name + "[" + rest))
      case Err(e) => r == Err(e)
  {
    var s := name + "[" + rest;
    MissingBracketShape(name, rest);
    TrimUnpadded(name);
  }

  /** Where the `[` of `name[digits` is, and that no `]` follows it. */
  lemma MissingBracketShape(name: string, rest: string)
    requires '[' !in name && ']' !in name && AllDigits(rest)
    ensures var s := name + "[" + rest;
      && s !in BASIC_TYPES && s[|s| - 1] != '*' && '[' in s && ']' !in s
      && IndexOf(s, '[') == |name| && s[..|name|] == name
  {
    var s := name + "[" + rest;
    var open := |name|;
    assert s[open] == '[';
    assert forall i :: 0 <= i < open ==> s[i] == name[i];
    IndexOfAt(s, '[', open);
    assert ']' !in s by {
      forall i | 0 <= i < |s| ensures s[i] != ']' {
        if i > open {
          assert s[i] == rest[i - open - 1];
        }
      }
    }
    assert s[|s| - 1] == '[' || IsAsciiDigit(s[|s| - 1]) by {
      if |rest| > 0 {
        assert s[|s| - 1] == rest[|rest| - 1];
      }
    }
    NotBasic(s);
    assert s[..open] == name;
  }

  /** `sizeof_type`. */
  function SizeOf(reg: Registry, s: string): (r: Result<nat>)
    requires BracketsOrdered(s)
    ensures r.Ok? <==> LookupType(reg, s).Ok?
    ensures r.Ok? ==> r.value == Size(LookupType(reg, s).value)
    ensures r.Err? ==> r.error == LookupType(reg, s).error
  {
    var t :- LookupType(reg, s);
    Ok(Size(t))
  }

  /** Index of the first member called `name`. */
  function FindField(fields: seq<CField>, name: string): (r: Option<nat>)
    ensures r.Some? ==> r.value < |fields| && fields[r.value].name == name
    ensures r.Some? ==> forall j :: 0 <= j < r.value ==> fields[j].name != name
    ensures r.None? <==> forall j :: 0 <= j < |fields| ==> fields[j].name != name
  {
    if |fields| == 0 then None
    else if fields[0].name == name then Some(0)
    else match FindField(fields[1..], name)
      case Some(j) => Some(j + 1)
      case None => None
  }

  /** `offsetof_field`: the stored offset of the first member with the
      name. A typedef of a struct is not looked through. */
  function OffsetOf(reg: Registry, s: string, field: string): (r: Result<nat>)
    requires BracketsOrdered(s)
    ensures LookupType(reg, s).Err? ==> r == Err(LookupType(reg, s).error)
    ensures LookupType(reg, s).Ok? && !(LookupType(reg, s).value.Struct? || LookupType(reg, s).value.Union?) ==>
      r == Err(NotStructOrUnion)
    ensures r.Ok? ==> var t := LookupType(reg, s).value;
      (t.Struct? || t.Union?)
      && exists j :: 0 <= j < |t.fields| && t.fields[j].name == field && t.fields[j].offset == r.value
    ensures r.Ok? ==> var t := LookupType(reg, s).value;
      && FindField(t.fields, field).Some?
      && r.value == t.fields[FindField(t.fields, field).value].offset
    ensures LookupType(reg, s).Ok? && (LookupType(reg, s).value.Struct? || LookupType(reg, s).value.Union?) ==>
      (r.Err? <==> forall j :: 0 <= j < |LookupType(reg, s).value.fields| ==> LookupType(reg, s).value.fields[j].name != field)
    ensures r.Err? && LookupType(reg, s).Ok? && (LookupType(reg, s).value.Struct? || LookupType(reg, s).value.Union?) ==>
      r.error == FieldNotFound(field)
  {
    var t :- LookupType(reg, s);
    if t.Struct? || t.Union? then
      match FindField(t.fields, field)
      case Some(j) => Ok(t.fields[j].offset)
      case None => Err(FieldNotFound(field))
    else Err(NotStructOrUnion)
  }

  /** A member of a struct declared through the parser sits at an offset
      aligned for its type, and past the end of every earlier member. */
  lemma OffsetOfDeclared(reg: Registry, s: string, field: string, name: string, fields: seq<CField>)
    requires BracketsOrdered(s)
    requires LookupType(reg, s) == Ok(Struct(name, Layout.AssignOffsets(fields, 0)))
    requires OffsetOf(reg, s, field).Ok?
    ensures var out := Layout.AssignOffsets(fields, 0);
      var j := FindField(out, field).value;
      && OffsetOf(reg, s, field).value == out[j].offset
      && Aligned(OffsetOf(reg, s, field).value, Alignment(out[j].ctype))
      && forall i :: 0 <= i < j ==> FieldEnd(out[i]) <= OffsetOf(reg, s, field).value
  {
    var out := Layout.AssignOffsets(fields, 0);
    var j := FindField(out, field).value;
    assert OffsetOf(reg, s, field) == Ok(out[j].offset);
    Layout.AssignOffsetsLaidOut(fields, 0);
    Layout.LaidOutAligned(out, 0);
    forall i | 0 <= i < j ensures FieldEnd(out[i]) <= out[j].offset {
      Layout.LaidOutOrdered(out, 0, i, j);
    }
  }

  predicate NewCDataRequires(reg: Registry, s: string, heap: Heap, addr: nat) {
    BracketsOrdered(s)
    && (LookupType(reg, s).Ok? ==>
          NewRequires(LookupType(reg, s).value, Size(LookupType(reg, s).value), heap, addr))
  }

  /** `new_cdata`: a value of the named type, as large as the type. The
      initialiser argument is ignored by the source. */
  function NewCData(reg: Registry, s: string, heap: Heap, addr: nat): (r: Result<(CData, Heap)>)
    requires NewCDataRequires(reg, s, heap, addr)
    ensures r.Ok? <==> LookupType(reg, s).Ok?
    ensures r.Err? ==> r.error == LookupType(reg, s).error
    ensures r.Ok? ==> var c := r.value.0;
      && c.ctype == LookupType(reg, s).value
      && c.size == Size(c.ctype)
      && (c.owned <==> Size(c.ctype) > 0)
      && (c.inline <==> 0 < Size(c.ctype) <= SMALL_BUFFER_SIZE)
  {
    var t :- LookupType(reg, s);
    Ok(New(t, Size(t), heap, addr))
  }

  /** A new value of an integer type reads as zero: integers are small
      enough to live in the zero-filled inline buffer. */
  lemma NewIntegerIsZero(t: CType, heap: Heap, addr: nat)
    requires NewRequires(t, Size(t), heap, addr)
    requires IntKindOf(t).Some? && Marshalled(t)
    ensures var (c, h) := New(t, Size(t), heap, addr);
      ReadRequires(h.mem, c.ptr, t) && ReadValue(h.mem, c.ptr, t) == Integer(0)
  {
    IntKindWidth(t);
    var (c, h) := New(t, Size(t), heap, addr);
    NewInlineZeroed(t, Size(t), heap, addr, Size(t));
    ZeroBytesReadZero(h.mem, c.ptr, t);
  }

  /** An integer whose bytes are all zero reads as 0. */
  lemma ZeroBytesReadZero(mem: Mem, p: Address, t: CType)
    requires IntKindOf(t).Some? && Marshalled(t)
    requires Defined(mem, p, Size(t)) && Load(mem, p, Size(t)) == Repeat(0, Size(t))
    ensures ReadRequires(mem, p, t) && ReadValue(mem, p, t) == Integer(0)
  {
    var k := IntKindOf(t).value;
    IntKindWidth(t);
    DecodeZeros(k.width);
    assert FromBits(0, k) == 0;
  }

  lemma {:induction false} DecodeZeros(n: nat)
    ensures DecodeLE(Repeat(0, n)) == 0
  {
    if n > 0 {
      assert Repeat(0, n)[1..] == Repeat(0, n - 1);
      DecodeZeros(n - 1);
    }
  }

  /** `cast_cdata`: a non-owning view of the named type at the address the
      value gives (an integer is reinterpreted as an address; a userdata
      must hold a cdata). */
  function CastCData(reg: Registry, s: string, value: LuaValue): (r: Result<CData>)
    requires BracketsOrdered(s)
    ensures LookupType(reg, s).Err? ==> r == Err(LookupType(reg, s).error)
    ensures LookupType(reg, s).Ok? ==> (r.Ok? <==> value.Integer? || value.UserData?)
    ensures LookupType(reg, s).Ok? && r.Err? && !value.ForeignUserData? ==> r.error == CannotCast
    ensures LookupType(reg, s).Ok? && value.ForeignUserData? ==> r == Err(NotACData)
    ensures r.Ok? ==> r.value.ctype == LookupType(reg, s).value && !r.value.owned && !r.value.inline
    ensures r.Ok? && value.Integer? ==> r.value.ptr == value.i % ADDRESS_LIMIT
    ensures r.Ok? && value.UserData? ==> r.value.ptr == value.cdata.ptr
  {
    var t :- LookupType(reg, s);
    match value
    case Integer(i) => Ok(FromPtr(t, i % ADDRESS_LIMIT, false))
    case UserData(cd) => Ok(FromPtr(t, cd.ptr, false))
    case ForeignUserData => Err(NotACData)
    case _ => Err(CannotCast)
  }

  /** `get_address`: a view typed as a pointer to the value's type, at the
      value's own address. */
  function GetAddress(cd: CData): (r: CData)
    ensures r.ctype == Ptr(cd.ctype) && r.ptr == cd.ptr
    ensures r.size == POINTER_WIDTH && !r.owned && !r.inline
  {
    PointerLayout(Ptr(cd.ctype));
    FromPtr(Ptr(cd.ctype), cd.ptr, false)
  }

  /** Casting a value to another type and taking addresses never creates an
      owner: dropping the results releases nothing. */
  lemma ViewsOwnNothing(reg: Registry, s: string, value: LuaValue, cd: CData, heap: Heap)
    requires BracketsOrdered(s) && CastCData(reg, s, value).Ok?
    ensures DropRequires(CastCData(reg, s, value).value, heap)
    ensures Drop(CastCData(reg, s, value).value, heap) == heap
    ensures DropRequires(GetAddress(cd), heap) && Drop(GetAddress(cd), heap) == heap
  {
    ViewsReleaseNothing(CastCData(reg, s, value).value, heap);
    ViewsReleaseNothing(GetAddress(cd), heap);
  }

  /** How many bytes `copy_memory` moves. */
  function CopyLen(src: LuaValue, len: Option<nat>): nat
    requires src.Str?
  {
    if len.Some? then len.value else |src.bytes|
  }

  /** What `copy_nonoverlapping` needs: a string source holds the bytes
      requested once the size check has passed, and a cdata source's span is
      clear of the destination. The source bytes need not be initialised. */
  predicate CopyRequires(mem: Mem, dst: CData, src: LuaValue, len: Option<nat>) {
    && (src.Str? && CopyLen(src, len) <= dst.size ==> CopyLen(src, len) <= |src.bytes|)
    && (src.UserData? && len.Some? ==>
          (src.cdata.ptr + len.value <= dst.ptr || dst.ptr + len.value <= src.cdata.ptr))
  }

  /** Whether a string copy appends a terminating zero. */
  predicate Terminates(dst: CData, src: LuaValue, len: Option<nat>)
    requires src.Str?
  {
    len.None? && CopyLen(src, len) < dst.size
  }

  /** The bytes bs written at p, followed by a 0 when `zero` holds. */
  function StoreString(mem: Mem, p: nat, bs: seq<byte>, zero: bool): (m: Mem)
    ensures Defined(m, p, |bs|) && Load(m, p, |bs|) == bs
    ensures zero ==> p + |bs| in m && m[p + |bs|] == 0
    ensures forall k :: k in mem && !(p <= k < p + |bs| + (if zero then 1 else 0)) ==> k in m && m[k] == mem[k]
  {
    var m := Store(mem, p, bs);
    LoadAfterStore(mem, p, bs);
    if zero then
      var m' := Store(m, p + |bs|, [0]);
      assert Load(m', p, |bs|) == Load(m, p, |bs|);
      m'
    else m
  }

  /** `copy_memory`: the memory afterwards and the count copied. A string
      is checked against the destination's size and gets a terminating zero
      when no length was given and there is room; a cdata source is copied
      without any size check. */
  function CopyMemory(mem: Mem, dst: CData, src: LuaValue, len: Option<nat>): (r: Result<(Mem, nat)>)
    requires CopyRequires(mem, dst, src, len)
    ensures src.Str? ==> (r.Ok? <==> CopyLen(src, len) <= dst.size)
    ensures src.Str? && r.Err? ==> r.error == BufferOverflow(CopyLen(src, len), dst.size)
    ensures src.Str? && r.Ok? ==>
      var (m, n) := r.value;
      && n == CopyLen(src, len)
      && Defined(m, dst.ptr, n)
      && Load(m, dst.ptr, n) == src.bytes[..n]
      && (Terminates(dst, src, len) ==> dst.ptr + n in m && m[dst.ptr + n] == 0)
      && (forall k :: k in mem && !(dst.ptr <= k < dst.ptr + n + (if Terminates(dst, src, len) then 1 else 0)) ==>
            k in m && m[k] == mem[k])
    ensures src.UserData? ==> (r.Ok? <==> len.Some?)
    ensures src.UserData? && r.Err? ==> r.error == LengthRequired
    ensures src.UserData? && r.Ok? ==>
      var (m, n) := r.value;
      && n == len.value
      && Contents(m, dst.ptr, n) == Contents(mem, src.cdata.ptr, n)
      && (Defined(mem, src.cdata.ptr, n) ==> Defined(m, dst.ptr, n) && Load(m, dst.ptr, n) == Load(mem, src.cdata.ptr, n))
      && (forall k :: !(dst.ptr <= k < dst.ptr + n) ==> (k in m <==> k in mem))
      && (forall k :: k in mem && !(dst.ptr <= k < dst.ptr + n) ==> m[k] == mem[k])
    ensures src.ForeignUserData? ==> r == Err(NotACData)
    ensures !src.Str? && !src.UserData? && !src.ForeignUserData? ==> r == Err(InvalidCopySource)
  {
    match src
    case Str(bytes) =>
      var n := CopyLen(src, len);
      if n > dst.size then Err(BufferOverflow(n, dst.size))
      else
        Ok((StoreString(mem, dst.ptr, bytes[..n], Terminates(dst, src, len)), n))
    case UserData(s) =>
      if len.None? then Err(LengthRequired)
      else
        Ok((CopyBytes(mem, s.ptr, dst.ptr, len.value), len.value))
    case ForeignUserData => Err(NotACData)
    case _ => Err(InvalidCopySource)
  }

  /** A cdata-to-cdata copy is not checked against the destination size:
      any length the source can supply is written. */
  lemma CdataCopyUnchecked(mem: Mem, dst: CData, src: CData, n: nat)
    requires CopyRequires(mem, dst, UserData(src), Some(n))
    requires n > dst.size
    ensures CopyMemory(mem, dst, UserData(src), Some(n)).Ok?
  {
  }

  /** Copying from a block nothing has been written to, such as a fresh
      `alloc`ed cdata, succeeds and leaves the destination span undefined. */
  lemma CopyUninitialised(mem: Mem, dst: CData, src: CData, n: nat)
    requires src.ptr + n <= dst.ptr || dst.ptr + n <= src.ptr
    requires forall k :: src.ptr <= k < src.ptr + n ==> k !in mem
    ensures CopyRequires(mem, dst, UserData(src), Some(n))
    ensures var r := CopyMemory(mem, dst, UserData(src), Some(n));
      r.Ok? && forall k :: dst.ptr <= k < dst.ptr + n ==> k !in r.value.0
  {
    var m := CopyMemory(mem, dst, UserData(src), Some(n)).value.0;
    forall k | dst.ptr <= k < dst.ptr + n
      ensures k !in m
    {
      assert Contents(m, dst.ptr, n)[k - dst.ptr] == Contents(mem, src.ptr, n)[k - dst.ptr];
    }
  }

  /** `fill_memory`: `len` copies of the byte at the value's address, with
      no size check either. */
  function FillMemory(mem: Mem, cd: CData, len: nat, value: byte): (m: Mem)
    ensures Defined(m, cd.ptr, len)
    ensures Load(m, cd.ptr, len) == Repeat(value, len)
    ensures forall k :: k in mem && !(cd.ptr <= k < cd.ptr + len) ==> k in m && m[k] == mem[k]
  {
    LoadAfterStore(mem, cd.ptr, Repeat(value, len));
    Store(mem, cd.ptr, Repeat(value, len))
  }

  /** Zero-filling an integer value makes it read as 0. */
  lemma FillZeroReadsZero(mem: Mem, cd: CData)
    requires IntKindOf(cd.ctype).Some? && Marshalled(cd.ctype)
    ensures var m := FillMemory(mem, cd, Size(cd.ctype), 0);
      ReadRequires(m, cd.ptr, cd.ctype) && ReadValue(m, cd.ptr, cd.ctype) == Integer(0)
  {
    ZeroBytesReadZero(FillMemory(mem, cd, Size(cd.ctype), 0), cd.ptr, cd.ctype);
  }

  /** The bytes at p are a C string with contents bs: bs holds no zero and
      is followed by one. */
  predicate IsCString(mem: Mem, p: nat, bs: seq<byte>) {
    && Defined(mem, p, |bs| + 1)
    && mem[p + |bs|] == 0
    && forall i :: 0 <= i < |bs| ==> NonZeroAt(mem, p, i) && mem[p + i] == bs[i]
  }

  /** The byte at p + i is defined and not zero. */
  predicate NonZeroAt(mem: Mem, p: nat, i: nat) {
    p + i in mem && mem[p + i] != 0
  }

  /** The bytes from p up to and including p + n are defined, and the last is 0. */
  predicate ZeroAt(mem: Mem, p: nat, n: nat) {
    Defined(mem, p, n + 1) && mem[p + n] == 0
  }

  /** A string at p is determined by memory: it ends at the first zero. */
  lemma CStringUnique(mem: Mem, p: nat, a: seq<byte>, b: seq<byte>)
    requires IsCString(mem, p, a) && IsCString(mem, p, b)
    ensures a == b
  {
    assert !NonZeroAt(mem, p, |a|) && !NonZeroAt(mem, p, |b|);
  }

  /** A pointer to or array of `char`/`unsigned char`. */
  predicate IsCharBuffer(t: CType) {
    (t.Ptr? && (t.pointee == Char || t.pointee == UChar))
    || (t.Array? && (t.inner == Char || t.inner == UChar))
  }

  /** What `CStr::from_ptr` needs: a zero byte somewhere at or after the address. */
  ghost predicate ToStringRequires(mem: Mem, cd: CData) {
    !IsNull(cd) && IsCharBuffer(cd.ctype) ==> exists n: nat :: ZeroAt(mem, cd.ptr, n)
  }

  /** `cdata_to_string`: the bytes up to the first zero, found by scanning
      from the address (not bounded by an array's declared length). */
  method CdataToString(mem: Mem, cd: CData) returns (r: Result<seq<byte>>)
    requires ToStringRequires(mem, cd)
    ensures IsNull(cd) ==> r == Err(NullPointer)
    ensures !IsNull(cd) && IsCharBuffer(cd.ctype) ==> r.Ok? && IsCString(mem, cd.ptr, r.value)
    ensures !IsNull(cd) && (cd.ctype.Ptr? || cd.ctype.Array?) && !IsCharBuffer(cd.ctype) ==>
      r == Err(NotAStringPointer)
    ensures !IsNull(cd) && !(cd.ctype.Ptr? || cd.ctype.Array?) ==> r == Err(NotAString)
  {
    if IsNull(cd) {
      return Err(NullPointer);
    }
    if !(cd.ctype.Ptr? || cd.ctype.Array?) {
      return Err(NotAString);
    }
    if !IsCharBuffer(cd.ctype) {
      return Err(NotAStringPointer);
    }
    var p := cd.ptr;
    ghost var end: nat :| ZeroAt(mem, p, end);
    var bs: seq<byte> := [];
    var i: nat := 0;
    while mem[p + i] != 0
      invariant i <= end && |bs| == i
      invariant forall j :: 0 <= j < i ==> NonZeroAt(mem, p, j) && mem[p + j] == bs[j]
      decreases end - i
    {
      bs := bs + [mem[p + i]];
      i := i + 1;
    }
    return Ok(bs);
  }

  /** Copying a zero-free string into a larger buffer without a length and
      then reading the buffer as a string gives the string back. */
  lemma CopyThenToString(mem: Mem, dst: CData, bytes: seq<byte>)
    requires |bytes| < dst.size
    requires forall i :: 0 <= i < |bytes| ==> bytes[i] != 0
    ensures CopyRequires(mem, dst, Str(bytes), None)
    ensures var r := CopyMemory(mem, dst, Str(bytes), None);
      r.Ok? && IsCString(r.value.0, dst.ptr, bytes)
  {
    var src := Str(bytes);
    var n := |bytes|;
    assert CopyLen(src, None) == n && Terminates(dst, src, None);
    var m := CopyMemory(mem, dst, src, None).value.0;
    TerminatedCopy(m, dst.ptr, bytes);
  }

  /** Bytes stored at p, none of them zero and followed by a zero, are the
      C string at p. */
  lemma TerminatedCopy(m: Mem, p: nat, bytes: seq<byte>)
    requires Defined(m, p, |bytes|) && Load(m, p, |bytes|) == bytes[..|bytes|]
    requires p + |bytes| in m && m[p + |bytes|] == 0
    requires forall i :: 0 <= i < |bytes| ==> bytes[i] != 0
    ensures IsCString(m, p, bytes)
  {
    var written := Load(m, p, |bytes|);
    assert written == bytes;
    forall i | 0 <= i < |bytes| ensures NonZeroAt(m, p, i) && m[p + i] == bytes[i] {
      assert written[i] == m[p + i];
    }
  }

  /** With an explicit length, or when the string fills the buffer, no
      terminator is written: the byte after the copy keeps its old value. */
  lemma NoTerminatorWithoutRoom(mem: Mem, dst: CData, bytes: seq<byte>, len: Option<nat>)
    requires CopyRequires(mem, dst, Str(bytes), len)
    requires CopyMemory(mem, dst, Str(bytes), len).Ok?
    requires len.Some? || |bytes| == dst.size
    ensures var (m, n) := CopyMemory(mem, dst, Str(bytes), len).value;
      dst.ptr + n in mem ==> dst.ptr + n in m && m[dst.ptr + n] == mem[dst.ptr + n]
  {
  }
}

=== FILE: layout.dfy ===
/** The struct layout pass `calculate_field_offsets` of `src/parser.rs`: a
    running cursor walks the members in declaration order, is rounded up to
    each member's alignment to give that member's offset, and then advances
    by the member's size.
 */
module Layout {
  import opened CTypes

  /** The pass as a fold: the members with offsets assigned from `cursor` on. */
  function AssignOffsets(fields: seq<CField>, cursor: nat): (r: seq<CField>)
    ensures |r| == |fields|
  {
    if |fields| == 0 then []
    else
      var offset := AlignUp(cursor, Alignment(fields[0].ctype));
      [fields[0].(offset := offset)] + AssignOffsets(fields[1..], offset + Size(fields[0].ctype))
  }

  /** Same number of members, with the same names and types in the same order. */
  predicate SameMembers(a: seq<CField>, b: seq<CField>) {
    |a| == |b| && forall i :: 0 <= i < |a| ==> a[i].name == b[i].name && a[i].ctype == b[i].ctype
  }

  /** Each offset is the least multiple of the member's alignment at or past
      the end of the previous member (or past `start` for the first one). */
  predicate LaidOutFrom(fs: seq<CField>, start: nat)
    decreases |fs|
  {
    |fs| == 0 ||
    (fs[0].offset == AlignUp(start, Alignment(fs[0].ctype)) && LaidOutFrom(fs[1..], FieldEnd(fs[0])))
  }

  predicate LaidOut(fs: seq<CField>) {
    LaidOutFrom(fs, 0)
  }

  /** Rounding up leaves a multiple of the alignment where it is. */
  lemma AlignUpExact(x: nat, a: nat)
    requires IsPow2(a) && Aligned(x, a)
    ensures AlignUp(x, a) == x
  {
    AlignUpBounds(x, a);
    AlignUpBelowMultiple(x, a, x);
  }

  /** The fold changes offsets only, and produces a layout. */
  lemma {:induction false} AssignOffsetsLaidOut(fields: seq<CField>, cursor: nat)
    ensures SameMembers(AssignOffsets(fields, cursor), fields)
    ensures LaidOutFrom(AssignOffsets(fields, cursor), cursor)
  {
    if |fields| > 0 {
      var r := AssignOffsets(fields, cursor);
      var offset := AlignUp(cursor, Alignment(fields[0].ctype));
      var next := offset + Size(fields[0].ctype);
      AssignOffsetsLaidOut(fields[1..], next);
      assert r[1..] == AssignOffsets(fields[1..], next);
      assert FieldEnd(r[0]) == next;
    }
  }

  /** A layout is determined by its members: any sequence laid out from
      `start` with the members of `fields` is the fold's result. */
  lemma {:induction false} LaidOutUnique(fs: seq<CField>, fields: seq<CField>, start: nat)
    requires SameMembers(fs, fields) && LaidOutFrom(fs, start)
    ensures fs == AssignOffsets(fields, start)
  {
    if |fs| > 0 {
      var next := FieldEnd(fs[0]);
      assert LaidOutFrom(fs[1..], next);
      LaidOutUnique(fs[1..], fields[1..], next);
      assert fs[0] == fields[0].(offset := fs[0].offset);
    }
  }

  /** In a layout every member is aligned. */
  lemma {:induction false} LaidOutAligned(fs: seq<CField>, start: nat)
    requires LaidOutFrom(fs, start)
    ensures forall i :: 0 <= i < |fs| ==> Aligned(fs[i].offset, Alignment(fs[i].ctype))
    decreases |fs|
  {
    if |fs| > 0 {
      AlignUpIsMultiple(start, Alignment(fs[0].ctype));
      LaidOutAligned(fs[1..], FieldEnd(fs[0]));
      assert forall i :: 0 < i < |fs| ==> fs[i] == fs[1..][i - 1];
    }
  }

  /** Every member of a layout from `start` starts at or past `start`. */
  lemma {:induction false} LaidOutAbove(fs: seq<CField>, start: nat)
    requires LaidOutFrom(fs, start)
    ensures forall i :: 0 <= i < |fs| ==> start <= fs[i].offset
    decreases |fs|
  {
    if |fs| > 0 {
      AlignUpBounds(start, Alignment(fs[0].ctype));
      LaidOutAbove(fs[1..], FieldEnd(fs[0]));
      assert forall i :: 0 < i < |fs| ==> fs[i] == fs[1..][i - 1];
    }
  }

  /** Each member after the first sits at the end of the one before it,
      rounded up to its own alignment. */
  lemma {:induction false} LaidOutStep(fs: seq<CField>, start: nat, i: nat)
    requires LaidOutFrom(fs, start)
    requires 0 < i < |fs|
    ensures fs[i].offset == AlignUp(FieldEnd(fs[i - 1]), Alignment(fs[i].ctype))
    decreases i
  {
    assert LaidOutFrom(fs[1..], FieldEnd(fs[0]));
    if i > 1 {
      LaidOutStep(fs[1..], FieldEnd(fs[0]), i - 1);
    }
  }

  /** In a layout no two members overlap: every member ends at or before
      the start of every later one. */
  lemma {:induction false} LaidOutOrdered(fs: seq<CField>, start: nat, i: nat, j: nat)
    requires LaidOutFrom(fs, start)
    requires i < j < |fs|
    ensures FieldEnd(fs[i]) <= fs[j].offset
    decreases i
  {
    var rest := fs[1..];
    assert LaidOutFrom(rest, FieldEnd(fs[0]));
    if i == 0 {
      LaidOutAbove(rest, FieldEnd(fs[0]));
      assert fs[j] == rest[j - 1];
    } else {
      LaidOutOrdered(rest, FieldEnd(fs[0]), i - 1, j - 1);
      assert fs[i] == rest[i - 1] && fs[j] == rest[j - 1];
    }
  }

  /** The size of a laid-out struct is the final cursor of the pass rounded up
      to the struct's alignment. */
  lemma LaidOutStructSize(name: string, fs: seq<CField>)
    requires LaidOut(fs) && |fs| > 0
    ensures Size(Struct(name, fs)) == AlignUp(FieldEnd(fs[|fs| - 1]), Alignment(Struct(name, fs)))
  {
    var t := Struct(name, fs);
    var ends := FieldEnds(t, fs);
    LastEndIsMaximum(fs, ends);
    assert Size(t) == AlignUp(Maximum(ends), Alignment(t));
  }

  /** In a layout the last member ends furthest. */
  lemma LastEndIsMaximum(fs: seq<CField>, ends: seq<nat>)
    requires LaidOut(fs) && |fs| > 0
    requires |ends| == |fs| && forall i :: 0 <= i < |ends| ==> ends[i] == FieldEnd(fs[i])
    ensures Maximum(ends) == FieldEnd(fs[|fs| - 1])
  {
    LastEndsFurthest(fs);
    MaximumAt(ends, |fs| - 1);
  }

  lemma LastEndsFurthest(fs: seq<CField>)
    requires LaidOut(fs) && |fs| > 0
    ensures forall i :: 0 <= i < |fs| ==> FieldEnd(fs[i]) <= FieldEnd(fs[|fs| - 1])
  {
    var last := |fs| - 1;
    forall i | 0 <= i < last ensures FieldEnd(fs[i]) <= FieldEnd(fs[last]) {
      LaidOutOrdered(fs, 0, i, last);
    }
  }

  /** The layout the pass produces from offset 0: the members keep their
      names and types, the first sits at 0, each later one at the end of the
      one before rounded up to its alignment, every member is aligned, and
      no two overlap. */
  lemma LayoutFacts(fields: seq<CField>)
    ensures var out := AssignOffsets(fields, 0);
      && SameMembers(out, fields)
      && (|out| > 0 ==> out[0].offset == 0)
      && (forall i :: 0 < i < |out| ==> out[i].offset == AlignUp(FieldEnd(out[i - 1]), Alignment(out[i].ctype)))
      && (forall i :: 0 <= i < |out| ==> Aligned(out[i].offset, Alignment(out[i].ctype)))
      && (forall i, j :: 0 <= i < j < |out| ==> FieldEnd(out[i]) <= out[j].offset)
  {
    var out := AssignOffsets(fields, 0);
    AssignOffsetsLaidOut(fields, 0);
    if |out| > 0 {
      AlignUpExact(0, Alignment(out[0].ctype));
    }
    LaidOutAligned(out, 0);
    forall i | 0 < i < |out|
      ensures out[i].offset == AlignUp(FieldEnd(out[i - 1]), Alignment(out[i].ctype))
    {
      LaidOutStep(out, 0, i);
    }
    forall i, j | 0 <= i < j < |out|
      ensures FieldEnd(out[i]) <= out[j].offset
    {
      LaidOutOrdered(out, 0, i, j);
    }
  }

  /** `calculate_field_offsets`: assigns each member its offset in one pass
      over the members, as the Rust loop does in place. */
  method CalculateFieldOffsets(fields: seq<CField>) returns (out: seq<CField>)
    ensures SameMembers(out, fields)
    ensures |out| > 0 ==> out[0].offset == 0
    ensures forall i :: 0 < i < |out| ==> out[i].offset == AlignUp(FieldEnd(out[i - 1]), Alignment(out[i].ctype))
    ensures forall i :: 0 <= i < |out| ==> Aligned(out[i].offset, Alignment(out[i].ctype))
    ensures forall i, j :: 0 <= i < j < |out| ==> FieldEnd(out[i]) <= out[j].offset
    ensures out == AssignOffsets(fields, 0)
  {
    out := PlaceMembers(fields);
    LayoutFacts(fields);
  }

  /** The loop of `calculate_field_offsets`: a running cursor, rounded up to
      each member's alignment, then advanced by the member's size. */
  method PlaceMembers(fields: seq<CField>) returns (out: seq<CField>)
    ensures out == AssignOffsets(fields, 0)
  {
    ghost var whole := AssignOffsets(fields, 0);
    var offset: nat := 0;
    out := [];
    var i := 0;
    while i < |fields|
      invariant 0 <= i <= |fields|
      invariant out == whole[..i]
      invariant offset == if i == 0 then 0 else FieldEnd(whole[i - 1])
    {
      var field := fields[i];
      var placed := AlignUp(offset, Alignment(field.ctype));
      FoldPlaces(fields, i);
      out, offset, i := out + [field.(offset := placed)], placed + Size(field.ctype), i + 1;
    }
  }

  /** Member i of the fold is member i of the input, placed at the end of
      member i - 1 (or at 0) rounded up to its alignment. */
  lemma FoldPlaces(fields: seq<CField>, i: nat)
    requires i < |fields|
    ensures var whole := AssignOffsets(fields, 0);
      var cursor := if i == 0 then 0 else FieldEnd(whole[i - 1]);
      whole[i] == fields[i].(offset := AlignUp(cursor, Alignment(fields[i].ctype)))
  {
    var whole := AssignOffsets(fields, 0);
    AssignOffsetsLaidOut(fields, 0);
    if i > 0 {
      LaidOutStep(whole, 0, i);
    }
    assert whole[i].name == fields[i].name && whole[i].ctype == fields[i].ctype;
  }

  /** The size and alignment of a two-member struct. */
  lemma StructPairLayout(name: string, fs: seq<CField>)
    requires |fs| == 2
    ensures Alignment(Struct(name, fs)) == Max(Alignment(fs[0].ctype), Alignment(fs[1].ctype))
    ensures Size(Struct(name, fs))
      == AlignUp(Max(FieldEnd(fs[0]), FieldEnd(fs[1])), Max(Alignment(fs[0].ctype), Alignment(fs[1].ctype)))
  {
    var t := Struct(name, fs);
    var ends := FieldEnds(t, fs);
    var aligns := FieldAlignments(t, fs);
    assert ends[0] == FieldEnd(fs[0]) && ends[1] == FieldEnd(fs[1]);
    assert aligns[0] == Alignment(fs[0].ctype) && aligns[1] == Alignment(fs[1].ctype);
    MaximumPair(ends);
    MaximumPair(aligns);
    assert Alignment(t) == Maximum(aligns);
  }

  /** A one-byte cursor rounds up to the alignment itself. */
  lemma AlignUpOne(a: nat)
    requires IsPow2(a)
    ensures AlignUp(1, a) == a
  {
    AlignUpBounds(1, a);
    AlignUpIsMultiple(1, a);
    AlignedGap(a, AlignUp(1, a), a);
  }

  /** Twice a multiple of a is a multiple of a. */
  lemma {:induction false} DoubleMultiple(n: nat, a: nat)
    requires a > 0 && Aligned(n, a)
    ensures Aligned(2 * n, a)
    decreases n
  {
    if n >= a {
      DoubleMultiple(n - a, a);
      assert Aligned(2 * n - a, a);
    }
  }

  /** Two members of one type whose size is a multiple of its alignment (every
      scalar) sit back to back, and the struct is twice the member's size:
      `struct { int x; int y; }` puts y at 4 and is 8 bytes. */
  lemma SameTypePair(name: string, t: CType, x: string, y: string)
    requires Aligned(Size(t), Alignment(t))
    ensures var p := AssignOffsets([CField(x, t, 0), CField(y, t, 0)], 0);
      p[0].offset == 0 && p[1].offset == Size(t) && Size(Struct(name, p)) == 2 * Size(t)
  {
    PairOffsets(CField(x, t, 0), CField(y, t, 0));
    AlignUpExact(Size(t), Alignment(t));
    TwinStructSize(name, AssignOffsets([CField(x, t, 0), CField(y, t, 0)], 0), t);
  }

  /** Two members of type t at 0 and at t's size make a struct of twice
      that size, when the size is a multiple of the alignment. */
  lemma TwinStructSize(name: string, p: seq<CField>, t: CType)
    requires |p| == 2 && p[0].ctype == t && p[1].ctype == t
    requires p[0].offset == 0 && p[1].offset == Size(t)
    requires Aligned(Size(t), Alignment(t))
    ensures Size(Struct(name, p)) == 2 * Size(t)
  {
    var sz, a := Size(t), Alignment(t);
    StructPairLayout(name, p);
    assert Max(FieldEnd(p[0]), FieldEnd(p[1])) == 2 * sz;
    assert Max(Alignment(p[0].ctype), Alignment(p[1].ctype)) == a;
    DoubleMultiple(sz, a);
    AlignUpExact(2 * sz, a);
  }

  /** With two members, the first sits at 0 and the second at the first's
      size rounded up to its own alignment. */
  lemma PairOffsets(f: CField, g: CField)
    ensures var p := AssignOffsets([f, g], 0);
      && |p| == 2
      && p[0] == f.(offset := 0)
      && p[1] == g.(offset := AlignUp(Size(f.ctype), Alignment(g.ctype)))
  {
    var fg := [f, g];
    assert fg[0] == f && fg[1] == g;
    var whole := AssignOffsets(fg, 0);
    AlignUpExact(0, Alignment(f.ctype));
    FoldPlaces(fg, 0);
    assert whole[0] == f.(offset := 0);
    assert FieldEnd(whole[0]) == Size(f.ctype);
    FoldPlaces(fg, 1);
  }

  /** A one-byte first member (`char`, `bool`, `int8_t`, ...) pads the next
      member up to that member's alignment: `struct { char c; int i; }` puts
      i at 4. */
  lemma ByteThenMember(u: CType, t: CType, c: string, m: string)
    requires Size(u) == 1 && Alignment(u) == 1
    ensures var p := AssignOffsets([CField(c, u, 0), CField(m, t, 0)], 0);
      p[0].offset == 0 && p[1].offset == Alignment(t)
  {
    PairOffsets(CField(c, u, 0), CField(m, t, 0));
    AlignUpOne(Alignment(t));
  }

  /** ... and the struct takes that member's alignment. */
  lemma ByteThenMemberAlignment(name: string, u: CType, t: CType, c: string, m: string)
    requires Size(u) == 1 && Alignment(u) == 1
    ensures Alignment(Struct(name, AssignOffsets([CField(c, u, 0), CField(m, t, 0)], 0))) == Alignment(t)
  {
    var p := AssignOffsets([CField(c, u, 0), CField(m, t, 0)], 0);
    PairOffsets(CField(c, u, 0), CField(m, t, 0));
    StructPairLayout(name, p);
  }
}

=== FILE: marshal.dfy ===
/** Moving values between Lua and C memory (`src/cdata.rs`):
    `read_ctype_value`, `write_value_to_ptr` with its `write_numeric!` macro,
    and the `__index`, `__newindex` and `__len` meta-methods of `CData`.

    Integers are stored in the C type's width, little-endian, with the
    wrap-around of Rust's `as` casts; a read widens back to `i64`, so the
    64-bit unsigned kinds come back reinterpreted as signed. Reads of every
    non-scalar type, pointers and typedefs included, give a non-owning view
    at the address instead of a value.
 */
module Marshal {
  import opened Wrappers
  import opened Bytes
  import opened Text
  import opened CTypes
  import opened Cdata

  const I64_MIN: int := -0x8000_0000_0000_0000
  const I64_MAX: int := 0x7FFF_FFFF_FFFF_FFFF

  type I64 = i: int | I64_MIN <= i <= I64_MAX

  /** The Lua values the marshalling code distinguishes. A `Number` is a
      finite double, kept as its exact real value; a string is its bytes;
      `ForeignUserData` is a userdata that does not hold a `CData`, and
      `Other` stands for tables, functions and the like. */
  datatype LuaValue =
    | Nil
    | Boolean(b: bool)
    | Integer(i: I64)
    | Number(n: real)
    | Str(bytes: seq<byte>)
    | UserData(cdata: CData)
    | ForeignUserData
    | Other

  /** The Rust integer type a C integer type is read and written as. */
  datatype IntKind = IntKind(width: nat, signed: bool)

  /** The integer kinds of `read_ctype_value` and `write_value_to_ptr`
      (`long` and `size_t` are 8 bytes on the fixed LP64 platform). */
  function IntKindOf(t: CType): (k: Option<IntKind>)
    ensures k.Some? ==> k.value.width in {1, 2, 4, 8}
  {
    match t
    case Char | Int8 => Some(IntKind(1, true))
    case UChar | UInt8 => Some(IntKind(1, false))
    case Short | Int16 => Some(IntKind(2, true))
    case UShort | UInt16 => Some(IntKind(2, false))
    case Int | Int32 => Some(IntKind(4, true))
    case UInt | UInt32 => Some(IntKind(4, false))
    case Long | LongLong | Int64 | SSizeT => Some(IntKind(8, true))
    case ULong | ULongLong | UInt64 | SizeT => Some(IntKind(8, false))
    case _ => None
  }

  /** The width the marshalling code uses is the type's size. */
  lemma IntKindWidth(t: CType)
    requires IntKindOf(t).Some?
    ensures IntKindOf(t).value.width == Size(t) == Alignment(t)
    ensures IsScalar(t) && t != Void
  {
    match t
    case Char | Int8 | UChar | UInt8 =>
    case Short | Int16 | UShort | UInt16 =>
    case Int | Int32 | UInt | UInt32 =>
    case Long | LongLong | Int64 | SSizeT | ULong | ULongLong | UInt64 | SizeT =>
  }

  /** The types whose values are moved by this model: floating-point types and
      the POSIX typedefs are left out. */
  predicate Marshalled(t: CType) {
    t != Float && t != Double && !IsPosix(t)
  }

  /** Half of 256^n: the count of non-negative n-byte signed values. */
  function Half(n: nat): int {
    Pow256(n) / 2
  }

  /** Two's-complement reading of an unsigned n-byte pattern. */
  function ToSigned(v: nat, n: nat): (r: int)
    requires n > 0 && v < Pow256(n)
    ensures -Half(n) <= r < Half(n)
    ensures r == v || r == v - Pow256(n)
  {
    HalfDouble(n);
    if v >= Half(n) then v - Pow256(n) else v
  }

  lemma HalfDouble(n: nat)
    requires n > 0
    ensures Pow256(n) == 2 * Half(n)
  {
    assert Pow256(n) == 256 * Pow256(n - 1);
  }

  /** The values a read of kind k can produce, after the widening `as i64`. */
  predicate InReadRange(x: int, k: IntKind) {
    if k.signed || k.width == 8 then -Half(k.width) <= x < Half(k.width)
    else 0 <= x < Pow256(k.width)
  }

  /** The Lua integer a stored bit pattern of kind k reads back as. */
  function FromBits(v: nat, k: IntKind): (r: I64)
    requires k.width in {1, 2, 4, 8} && v < Pow256(k.width)
    ensures InReadRange(r, k)
    ensures (r - v) % Pow256(k.width) == 0
  {
    Pow256Widths();
    if k.signed || k.width == 8 then
      var s := ToSigned(v, k.width);
      if s != v then MultipleModInt(-1, Pow256(k.width)); s else s
    else v
  }

  lemma Pow256Widths()
    ensures Pow256(1) == 0x100 && Pow256(2) == 0x1_0000
    ensures Pow256(4) == 0x1_0000_0000 && Pow256(8) == 0x1_0000_0000_0000_0000
  {
  }

  /** (q * m) % m == 0 for every integer q. */
  lemma MultipleModInt(q: int, m: nat)
    requires m > 0
    ensures (q * m) % m == 0
  {
    DivModUnique(q * m, m, q, 0);
  }

  /** `i as T` on an integer: the low bytes of its two's-complement form. */
  function WrapBits(i: int, w: nat): (v: nat)
    ensures v < Pow256(w)
    ensures (v - i) % Pow256(w) == 0
  {
    ModDiff(i, Pow256(w));
    i % Pow256(w)
  }

  /** i % m differs from i by a multiple of m. */
  lemma ModDiff(i: int, m: nat)
    requires m > 0
    ensures (i % m - i) % m == 0
  {
    var q := i / m;
    assert i % m - i == (-q) * m;
    MultipleModInt(-q, m);
  }

  /** Rounding toward zero, as `f64 as T` does before saturating. */
  function TruncTowardZero(r: real): int {
    if r >= 0.0 then r.Floor else -((-r).Floor)
  }

  /** `n as T` on a finite double: truncate toward zero, then saturate to
      the range of T. */
  function FloatBits(n: real, k: IntKind): (v: nat)
    requires k.width in {1, 2, 4, 8}
    ensures v < Pow256(k.width)
  {
    var lo := if k.signed then -Half(k.width) else 0;
    var hi := if k.signed then Half(k.width) - 1 else Pow256(k.width) - 1;
    var t := TruncTowardZero(n);
    var clamped := if t < lo then lo else if t > hi then hi else t;
    WrapBits(clamped, k.width)
  }

  /** What a read needs: the bytes are initialised, and a `bool` holds 0 or 1
      (anything else is undefined behaviour in Rust). */
  predicate ReadRequires(mem: Mem, p: Address, t: CType) {
    && Marshalled(t)
    && (IntKindOf(t).Some? ==> Defined(mem, p, IntKindOf(t).value.width))
    && (t == Bool ==> p in mem && mem[p] <= 1)
  }

  /** `read_ctype_value`. */
  function ReadValue(mem: Mem, p: Address, t: CType): (v: LuaValue)
    requires ReadRequires(mem, p, t)
    ensures IntKindOf(t).Some? ==>
      v.Integer? && InReadRange(v.i, IntKindOf(t).value)
      && (v.i - DecodeLE(Load(mem, p, IntKindOf(t).value.width))) % Pow256(IntKindOf(t).value.width) == 0
    ensures t == Bool ==> v == Boolean(mem[p] == 1)
    ensures IntKindOf(t).None? && t != Bool ==> v.UserData? && v.cdata == FromPtr(t, p, false)
  {
    var kind := IntKindOf(t);
    if kind.Some? then Integer(FromBits(DecodeLE(Load(mem, p, kind.value.width)), kind.value))
    else if t == Bool then Boolean(mem[p] == 1)
    else UserData(FromPtr(t, p, false))
  }

  /** The bytes `write_value_to_ptr` stores for `value` at type t, or the
      error it raises. */
  function Encode(t: CType, value: LuaValue): (r: Result<seq<byte>>)
    requires Marshalled(t)
    ensures r.Ok? ==> |r.value| == Size(t)
    ensures IntKindOf(t).Some? ==> (r.Ok? <==> value.Integer? || value.Number?)
    ensures IntKindOf(t).Some? && r.Err? ==> r.error == ExpectedNumber
    ensures t == Bool ==> (r.Ok? <==> value.Boolean? || value.Integer?)
    ensures t == Bool && r.Err? ==> r.error == ExpectedBooleanOrInteger
    ensures t.Ptr? ==> (r.Ok? <==> value.Integer? || value.UserData?)
    ensures t.Ptr? && r.Err? && !value.ForeignUserData? ==> r.error == ExpectedPointerValue
    ensures t.Ptr? && value.ForeignUserData? ==> r == Err(NotACData)
    ensures t.Ptr? && value.Integer? ==> r == Ok(EncodeLE(WrapBits(value.i, POINTER_WIDTH), POINTER_WIDTH))
    ensures t.Ptr? && value.UserData? ==> r == Ok(EncodeLE(value.cdata.ptr, POINTER_WIDTH))
    ensures IntKindOf(t).None? && t != Bool && !t.Ptr? ==> r == Err(CannotAssign)
  {
    match IntKindOf(t)
    case Some(k) =>
      IntKindWidth(t);
      (match value
       case Integer(i) => Ok(EncodeLE(WrapBits(i, k.width), k.width))
       case Number(n) => Ok(EncodeLE(FloatBits(n, k), k.width))
       case _ => Err(ExpectedNumber))
    case None =>
      if t == Bool then
        (match value
         case Boolean(b) => Ok([if b then 1 else 0])
         case Integer(i) => Ok([if i != 0 then 1 else 0])
         case _ => Err(ExpectedBooleanOrInteger))
      else if t.Ptr? then
        PointerLayout(t);
        Pow256Widths();
        (match value
         case Integer(i) => Ok(EncodeLE(WrapBits(i, POINTER_WIDTH), POINTER_WIDTH))
         case UserData(cd) => Ok(EncodeLE(cd.ptr, POINTER_WIDTH))
         case ForeignUserData => Err(NotACData)
         case _ => Err(ExpectedPointerValue))
      else Err(CannotAssign)
  }

  /** `write_value_to_ptr`: on success exactly the `size(t)` bytes at p
      change, and all of them become defined; on failure nothing is
      written (the memory is not returned). */
  function WriteValue(mem: Mem, p: Address, t: CType, value: LuaValue): (r: Result<Mem>)
    requires Marshalled(t)
    ensures r.Ok? <==> Encode(t, value).Ok?
    ensures r.Ok? ==> Defined(r.value, p, Size(t)) && Load(r.value, p, Size(t)) == Encode(t, value).value
    ensures r.Ok? ==> forall k :: k in mem && !(p <= k < p + Size(t)) ==> k in r.value && r.value[k] == mem[k]
    ensures r.Ok? ==> forall k :: k in r.value ==> k in mem || p <= k < p + Size(t)
  {
    var bytes :- Encode(t, value);
    LoadAfterStore(mem, p, bytes);
    Ok(Store(mem, p, bytes))
  }

  /** Writing a Lua integer to an integer type and reading it back gives the
      integer reduced modulo 2^(8*width) into the range the read produces:
      itself when it fits, its wrapped-around value otherwise. */
  lemma {:induction false} IntegerRoundTrip(mem: Mem, p: Address, t: CType, i: I64)
    requires IntKindOf(t).Some? && Marshalled(t)
    ensures var k := IntKindOf(t).value;
      var r := WriteValue(mem, p, t, Integer(i));
      && r.Ok?
      && ReadRequires(r.value, p, t)
      && ReadValue(r.value, p, t).Integer?
      && InReadRange(ReadValue(r.value, p, t).i, k)
      && (ReadValue(r.value, p, t).i - i) % Pow256(k.width) == 0
      && (InReadRange(i, k) ==> ReadValue(r.value, p, t) == Integer(i))
  {
    var k := IntKindOf(t).value;
    IntKindWidth(t);
    var bits := WrapBits(i, k.width);
    IntegerWrite(mem, p, t, i);
    StoredBitsRead(mem, p, t, k, bits);
    WrapThenRead(i, k);
  }

  /** Writing a Lua integer to an integer type stores its wrapped bit
      pattern in the type's width. */
  lemma IntegerWrite(mem: Mem, p: Address, t: CType, i: I64)
    requires IntKindOf(t).Some? && Marshalled(t)
    ensures var w := IntKindOf(t).value.width;
      WriteValue(mem, p, t, Integer(i)) == Ok(Store(mem, p, EncodeLE(WrapBits(i, w), w)))
  {
  }

  /** Reading back a bit pattern stored in the type's width gives the
      pattern's value widened to `i64`. */
  lemma StoredBitsRead(mem: Mem, p: Address, t: CType, k: IntKind, bits: nat)
    requires IntKindOf(t) == Some(k) && Marshalled(t) && bits < Pow256(k.width)
    ensures var m := Store(mem, p, EncodeLE(bits, k.width));
      ReadRequires(m, p, t) && ReadValue(m, p, t) == Integer(FromBits(bits, k))
  {
    var bytes := EncodeLE(bits, k.width);
    var m := Store(mem, p, bytes);
    LoadAfterStore(mem, p, bytes);
    DecodeEncode(bits, k.width);
    assert Defined(m, p, k.width) && t != Bool;
    assert DecodeLE(Load(m, p, k.width)) == bits;
  }

  /** The integer arithmetic behind a write followed by a read: the value
      read is congruent to the one written and lies in the read range, so it
      is the written one whenever that is in range. */
  lemma WrapThenRead(i: int, k: IntKind)
    requires k.width in {1, 2, 4, 8}
    ensures var x := FromBits(WrapBits(i, k.width), k);
      && (x - i) % Pow256(k.width) == 0
      && (InReadRange(i, k) ==> x == i)
  {
    var bits := WrapBits(i, k.width);
    var x := FromBits(bits, k);
    SameResidue(x, bits, i, Pow256(k.width));
    if InReadRange(i, k) {
      UniqueInRange(x, i, k);
    }
  }

  /** Congruence modulo m is transitive. */
  lemma SameResidue(x: int, v: int, i: int, m: nat)
    requires m > 0 && (x - v) % m == 0 && (v - i) % m == 0
    ensures (x - i) % m == 0
  {
    var a := (x - v) / m;
    var b := (v - i) / m;
    assert x - v == a * m;
    assert v - i == b * m;
    assert x - i == (a + b) * m;
    MultipleModInt(a + b, m);
  }

  /** Two values of one read range that agree modulo 2^(8*width) are equal. */
  lemma UniqueInRange(x: int, i: int, k: IntKind)
    requires k.width in {1, 2, 4, 8}
    requires InReadRange(x, k) && InReadRange(i, k) && (x - i) % Pow256(k.width) == 0
    ensures x == i
  {
    var m := Pow256(k.width);
    var q := (x - i) / m;
    assert x - i == q * m;
    if q > 0 {
      MulPos(q, m);
    } else if q < 0 {
      MulPos(-q, m);
    }
  }

  /** A `bool` stores 1 for true and 0 for false, so it reads back as the
      truth value written; an integer is stored as `i != 0`. */
  lemma BoolRoundTrip(mem: Mem, p: Address, value: LuaValue)
    requires value.Boolean? || value.Integer?
    ensures var r := WriteValue(mem, p, Bool, value);
      && r.Ok?
      && ReadRequires(r.value, p, Bool)
      && ReadValue(r.value, p, Bool) == Boolean(if value.Boolean? then value.b else value.i != 0)
  {
    var bs: seq<byte> := if value.Boolean? then [if value.b then 1 else 0] else [if value.i != 0 then 1 else 0];
    assert Encode(Bool, value) == Ok(bs);
    var m := Store(mem, p, bs);
    assert WriteValue(mem, p, Bool, value) == Ok(m);
    assert m[p] == bs[0];
  }

  /** A pointer member stores an address, but reading it gives a view of the
      member itself, typed as the pointer, at the member's own address: the
      stored address is not followed. */
  lemma PointerReadIsView(mem: Mem, p: Address, pointee: CType, value: LuaValue)
    requires value.Integer? || value.UserData?
    ensures var r := WriteValue(mem, p, Ptr(pointee), value);
      && r.Ok?
      && ReadValue(r.value, p, Ptr(pointee)) == UserData(CData(Ptr(pointee), p, false, POINTER_WIDTH, false))
  {
    var t := Ptr(pointee);
    PointerLayout(t);
    assert IntKindOf(t).None? && t != Bool;
    assert Encode(t, value).Ok?;
    var m := WriteValue(mem, p, t, value).value;
    assert ReadRequires(m, p, t);
    assert ReadValue(m, p, t) == UserData(FromPtr(t, p, false));
  }

  /** `Typedef` is not looked through: writing to it always fails and reading
      it gives a view. */
  lemma TypedefNotForwarded(mem: Mem, p: Address, name: string, inner: CType, value: LuaValue)
    ensures WriteValue(mem, p, Typedef(name, inner), value) == Err(CannotAssign)
    ensures ReadValue(mem, p, Typedef(name, inner)).UserData?
  {
  }

  /** Writing an integer or a cdata to a pointer stores an address: the
      eight bytes written read back, little-endian, as the integer modulo
      2^64 or as the cdata's own address. */
  lemma PointerWriteStoresAddress(mem: Mem, p: Address, pointee: CType, value: LuaValue)
    requires value.Integer? || value.UserData?
    ensures var r := WriteValue(mem, p, Ptr(pointee), value);
      && r.Ok?
      && Defined(r.value, p, POINTER_WIDTH)
      && DecodeLE(Load(r.value, p, POINTER_WIDTH))
         == (if value.Integer? then value.i % ADDRESS_LIMIT else value.cdata.ptr)
  {
    var t := Ptr(pointee);
    PointerLayout(t);
    Pow256Widths();
    var a := if value.Integer? then WrapBits(value.i, POINTER_WIDTH) else value.cdata.ptr;
    assert Encode(t, value) == Ok(EncodeLE(a, POINTER_WIDTH));
    DecodeEncode(a, POINTER_WIDTH);
  }

  // ----- meta-methods -----

  /** Index of the first member whose name is the key (compared as UTF-8
      bytes, the form a Lua string carries). */
  function FindFieldNamed(fields: seq<CField>, key: seq<byte>): (r: Option<nat>)
    ensures r.Some? ==> r.value < |fields| && Utf8Encode(fields[r.value].name) == key
    ensures r.Some? ==> forall j :: 0 <= j < r.value ==> Utf8Encode(fields[j].name) != key
    ensures r.None? ==> forall j :: 0 <= j < |fields| ==> Utf8Encode(fields[j].name) != key
  {
    if |fields| == 0 then None
    else if Utf8Encode(fields[0].name) == key then Some(0)
    else match FindFieldNamed(fields[1..], key)
      case Some(j) => Some(j + 1)
      case None => None
  }

  /** `obj.ptr.add(offset)`, wrapping at 2^64. */
  function FieldAddr(ptr: Address, offset: nat): (a: Address)
    ensures ptr + offset < ADDRESS_LIMIT ==> a == ptr + offset
    ensures (ptr + offset - a) % ADDRESS_LIMIT == 0
  {
    (ptr + offset) % ADDRESS_LIMIT
  }

  /** `obj.ptr.add(i as usize * elem_size)`: the index is reinterpreted as
      unsigned and the product and sum wrap at 2^64, as in a release build. */
  function ElemAddr(ptr: Address, i: int, elemSize: nat): (a: Address) {
    (ptr + ((i % ADDRESS_LIMIT) * elemSize) % ADDRESS_LIMIT) % ADDRESS_LIMIT
  }

  /** The element address is the plain `ptr + i * size` taken modulo 2^64,
      for negative indexes too. */
  lemma ElemAddrIsWrappedOffset(ptr: Address, i: int, elemSize: nat)
    ensures ElemAddr(ptr, i, elemSize) == (ptr + i * elemSize) % ADDRESS_LIMIT
  {
    var m := ADDRESS_LIMIT;
    var x := (i % m) * elemSize;
    ModMulCongruent(i, elemSize, m);
    ModAddCongruent(ptr, x, i * elemSize, m);
  }

  /** ((a % m) * b) % m == (a * b) % m. */
  lemma ModMulCongruent(a: int, b: int, m: nat)
    requires m > 0
    ensures ((a % m) * b) % m == (a * b) % m
  {
    var q := a / m;
    assert a == q * m + a % m;
    assert a * b == (a % m) * b + (q * b) * m;
    ModShift((a % m) * b, q * b, m);
  }

  /** (x + k * m) % m == x % m. */
  lemma ModShift(x: int, k: int, m: nat)
    requires m > 0
    ensures (x + k * m) % m == x % m
  {
    var q := x / m;
    assert x == q * m + x % m;
    assert x + k * m == (q + k) * m + x % m;
    DivModUnique(x + k * m, m, q + k, x % m);
  }

  /** (p + x % m) % m == (p + y) % m when x and y agree modulo m. */
  lemma ModAddCongruent(p: int, x: int, y: int, m: nat)
    requires m > 0 && x % m == y % m
    ensures (p + x % m) % m == (p + y) % m
  {
    var q := y / m;
    assert y == q * m + y % m;
    assert p + y == (p + x % m) + q * m;
    ModShift(p + x % m, q, m);
  }

  /** The type elements of an array or pointer have. */
  function ElemType(t: CType): CType
    requires t.Array? || t.Ptr?
  {
    if t.Array? then t.inner else t.pointee
  }

  /** The address and type an `__index`/`__newindex` key designates, or the
      error the key raises. */
  function Locate(obj: CData, key: LuaValue): (r: Result<(Address, CType)>)
    ensures key.Str? && (obj.ctype.Struct? || obj.ctype.Union?) ==>
      (r.Ok? <==> FindFieldNamed(obj.ctype.fields, key.bytes).Some?)
    ensures key.Str? && (obj.ctype.Struct? || obj.ctype.Union?) && r.Ok? ==>
      var f := obj.ctype.fields[FindFieldNamed(obj.ctype.fields, key.bytes).value];
      r.value == (FieldAddr(obj.ptr, f.offset), f.ctype)
    ensures key.Str? && !(obj.ctype.Struct? || obj.ctype.Union?) ==> r == Err(NotStructOrUnion)
    ensures key.Integer? && (obj.ctype.Array? || obj.ctype.Ptr?) ==>
      r == Ok((ElemAddr(obj.ptr, key.i, Size(ElemType(obj.ctype))), ElemType(obj.ctype)))
    ensures key.Integer? && !(obj.ctype.Array? || obj.ctype.Ptr?) ==> r == Err(NotArrayOrPointer)
    ensures !key.Str? && !key.Integer? ==> r == Err(InvalidIndexType)
  {
    match key
    case Str(name) =>
      if obj.ctype.Struct? || obj.ctype.Union? then
        (match FindFieldNamed(obj.ctype.fields, name)
         case Some(j) =>
           var f := obj.ctype.fields[j];
           Ok((FieldAddr(obj.ptr, f.offset), f.ctype))
         case None => Err(UnknownField))
      else Err(NotStructOrUnion)
    case Integer(i) =>
      if obj.ctype.Array? || obj.ctype.Ptr? then
        var elem := ElemType(obj.ctype);
        Ok((ElemAddr(obj.ptr, i, Size(elem)), elem))
      else Err(NotArrayOrPointer)
    case _ => Err(InvalidIndexType)
  }

  predicate IndexRequires(mem: Mem, obj: CData, key: LuaValue) {
    Locate(obj, key).Ok? ==> ReadRequires(mem, Locate(obj, key).value.0, Locate(obj, key).value.1)
  }

  /** The `__index` meta-method. */
  function Index(mem: Mem, obj: CData, key: LuaValue): (r: Result<LuaValue>)
    requires IndexRequires(mem, obj, key)
    ensures r.Ok? <==> Locate(obj, key).Ok?
    ensures r.Err? ==> r.error == Locate(obj, key).error
    ensures r.Ok? ==> r.value == ReadValue(mem, Locate(obj, key).value.0, Locate(obj, key).value.1)
  {
    var (addr, t) :- Locate(obj, key);
    Ok(ReadValue(mem, addr, t))
  }

  predicate NewIndexRequires(obj: CData, key: LuaValue) {
    Locate(obj, key).Ok? ==> Marshalled(Locate(obj, key).value.1)
  }

  /** The `__newindex` meta-method: the memory after the assignment. */
  function NewIndex(mem: Mem, obj: CData, key: LuaValue, value: LuaValue): (r: Result<Mem>)
    requires NewIndexRequires(obj, key)
    ensures Locate(obj, key).Err? ==> r == Err(Locate(obj, key).error)
    ensures Locate(obj, key).Ok? ==>
      var (addr, t) := Locate(obj, key).value;
      r == WriteValue(mem, addr, t, value)
    ensures Locate(obj, key).Ok? && r.Err? ==>
      r.error == Encode(Locate(obj, key).value.1, value).error
    ensures r.Ok? ==>
      var (addr, t) := Locate(obj, key).value;
      && Defined(r.value, addr, Size(t))
      && (forall k :: k in mem && !(addr <= k < addr + Size(t)) ==> k in r.value && r.value[k] == mem[k])
  {
    var (addr, t) :- Locate(obj, key);
    WriteValue(mem, addr, t, value)
  }

  /** The `__len` meta-method. */
  function Len(obj: CData): (r: Result<nat>)
    ensures obj.ctype.Array? ==> r == Ok(obj.ctype.count)
    ensures !obj.ctype.Array? ==> r == Err(NotAnArray)
  {
    if obj.ctype.Array? then Ok(obj.ctype.count) else Err(NotAnArray)
  }

  /** Element access has no bounds check: every integer index of an array of
      scalars designates an element, past the declared count or below zero. */
  lemma NoBoundsCheck(obj: CData, i: I64)
    requires obj.ctype.Array?
    ensures Locate(obj, Integer(i)).Ok?
    ensures Locate(obj, Integer(i)).value.0
      == (obj.ptr + i * Size(obj.ctype.inner)) % ADDRESS_LIMIT
  {
    ElemAddrIsWrappedOffset(obj.ptr, i, Size(obj.ctype.inner));
  }

  /** Assigning an integer to a struct member and reading the member back
      gives the integer wrapped to the member's type. */
  lemma FieldRoundTrip(mem: Mem, obj: CData, name: seq<byte>, i: I64)
    requires obj.ctype.Struct? || obj.ctype.Union?
    requires FindFieldNamed(obj.ctype.fields, name).Some?
    requires var f := obj.ctype.fields[FindFieldNamed(obj.ctype.fields, name).value];
      IntKindOf(f.ctype).Some? && Marshalled(f.ctype)
    ensures var f := obj.ctype.fields[FindFieldNamed(obj.ctype.fields, name).value];
      var k := IntKindOf(f.ctype).value;
      var r := NewIndex(mem, obj, Str(name), Integer(i));
      && r.Ok?
      && IndexRequires(r.value, obj, Str(name))
      && Index(r.value, obj, Str(name)).Ok?
      && (InReadRange(i, k) ==> Index(r.value, obj, Str(name)) == Ok(Integer(i)))
  {
    var (addr, t) := Locate(obj, Str(name)).value;
    IntegerRoundTrip(mem, addr, t, i);
  }
}

=== FILE: parser.dfy ===
/** The declaration parser `parse_cdef` (`src/parser.rs`), a set of nom
    combinators over the declaration text.

    Every parser here takes the whole text and a position and answers with
    the position it stops at, or `None` where nom answers with a recoverable
    error (`nom::Err::Error`); nothing in this parser raises a fatal one.
    The registry of declared types is threaded through explicitly: a struct
    declaration that parses registers its type, with offsets assigned by the
    layout pass, and nothing else touches the registry.
 */
module Parser {
  import opened Wrappers
  import opened Text
  import opened CTypes
  import opened Layout
  import opened FfiOps

  /** The end of the longest run, from i, of characters satisfying p
      (`take_while`). */
  function Span(s: string, i: nat, p: char -> bool): (j: nat)
    requires i <= |s|
    ensures i <= j <= |s|
    ensures forall k :: i <= k < j ==> p(s[k])
    ensures j < |s| ==> !p(s[j])
    decreases |s| - i
  {
    if i == |s| || !p(s[i]) then i else Span(s, i + 1, p)
  }

  /** `multispace0`. */
  function Multispace0(s: string, i: nat): (j: nat)
    requires i <= |s|
    ensures i <= j <= |s|
    ensures forall k :: i <= k < j ==> IsMultispace(s[k])
    ensures j < |s| ==> !IsMultispace(s[j])
  {
    Span(s, i, IsMultispace)
  }

  /** `multispace1`: at least one white-space character. */
  function Multispace1(s: string, i: nat): (r: Option<nat>)
    requires i <= |s|
    ensures r.Some? <==> i < |s| && IsMultispace(s[i])
    ensures r.Some? ==> r.value == Multispace0(s, i)
  {
    var j := Multispace0(s, i);
    if j > i then Some(j) else None
  }

  /** `identifier`: one or more letters, digits or underscores. */
  function Identifier(s: string, i: nat): (r: Option<nat>)
    requires i <= |s|
    ensures r.Some? <==> i < |s| && IsIdentChar(s[i])
    ensures r.Some? ==> i < r.value <= |s|
    ensures r.Some? ==> forall k :: i <= k < r.value ==> IsIdentChar(s[k])
    ensures r.Some? ==> r.value == |s| || !IsIdentChar(s[r.value])
  {
    var j := Span(s, i, IsIdentChar);
    if j > i then Some(j) else None
  }

  /** A whole identifier: one or more identifier characters. */
  predicate IsIdent(w: string) {
    |w| > 0 && forall k :: 0 <= k < |w| ==> IsIdentChar(w[k])
  }

  /** `tag(t)`. */
  function Tag(s: string, i: nat, t: string): (r: Option<nat>)
    requires i <= |s|
    ensures r.Some? <==> i + |t| <= |s| && s[i..i + |t|] == t
    ensures r.Some? ==> r.value == i + |t|
  {
    if i + |t| <= |s| && s[i..i + |t|] == t then Some(i + |t|) else None
  }

  /** `char(c)`. */
  function Char(s: string, i: nat, c: char): (r: Option<nat>)
    requires i <= |s|
    ensures r.Some? <==> i < |s| && s[i] == c
    ensures r.Some? ==> r.value == i + 1
  {
    if i < |s| && s[i] == c then Some(i + 1) else None
  }

  /** An identifier never holds a bracket, so the resolver can take it. */
  lemma IdentifierBracketFree(s: string, i: nat, j: nat)
    requires i <= j <= |s|
    requires forall k :: i <= k < j ==> IsIdentChar(s[k])
    ensures '[' !in s[i..j] && BracketsOrdered(s[i..j])
  {
    assert forall k :: 0 <= k < j - i ==> s[i..j][k] == s[i + k];
  }

  /** The text an identifier spans is a whole identifier. */
  lemma IdentifierWord(s: string, i: nat, j: nat)
    requires i < j <= |s|
    requires forall k :: i <= k < j ==> IsIdentChar(s[k])
    ensures IsIdent(s[i..j])
  {
    assert forall k :: 0 <= k < j - i ==> s[i..j][k] == s[i + k];
  }

  /** The type a member's type name stands for: what the resolver answers,
      or, when it fails, a typedef of that name standing for `int`. */
  function MemberType(reg: Registry, name: string): (t: CType)
    requires '[' !in name
    ensures LookupType(reg, name).Ok? ==> t == LookupType(reg, name).value
    ensures LookupType(reg, name).Err? ==> t == Typedef(name, Int)
  {
    if LookupType(reg, name).Ok? then LookupType(reg, name).value else Typedef(name, Int)
  }

  /** `parse_type`: one identifier, then resolved. */
  function ParseType(reg: Registry, s: string, i: nat): (r: Option<(CType, nat)>)
    requires i <= |s|
    ensures r.Some? <==> Identifier(s, i).Some?
    ensures r.Some? ==> r.value.1 == Identifier(s, i).value
    ensures r.Some? ==> '[' !in s[i..r.value.1] && r.value.0 == MemberType(reg, s[i..r.value.1])
  {
    match Identifier(s, i)
    case None => None
    case Some(j) =>
      IdentifierBracketFree(s, i, j);
      Some((MemberType(reg, s[i..j]), j))
  }

  /** An unresolvable member type behaves as `int`. */
  lemma FallbackIsInt(name: string)
    ensures Size(Typedef(name, Int)) == Size(Int) == 4
    ensures Alignment(Typedef(name, Int)) == Alignment(Int) == 4
  {
  }

  /** The end of the run of ASCII digits at i. */
  function DigitRunEnd(s: string, i: nat): (j: nat)
    requires i <= |s|
    ensures i <= j <= |s| && AllDigits(s[i..j])
    ensures j < |s| ==> !IsAsciiDigit(s[j])
  {
    var j := Span(s, i, IsAsciiDigit);
    assert forall k :: 0 <= k < j - i ==> s[i..j][k] == s[i + k];
    j
  }

  /** `digits.parse().expect(..)` panics on an overflowing count, and is
      reached only once the `]` has matched: digits enclosed by a `[` at i
      and a `]` denote a value below 2^64. */
  predicate ArraySizeFits(s: string, i: nat)
    requires i <= |s|
  {
    i < |s| && s[i] == '[' && DigitRunEnd(s, i + 1) < |s| && s[DigitRunEnd(s, i + 1)] == ']'
    ==> DigitsValue(s[i + 1..DigitRunEnd(s, i + 1)]) < USIZE_LIMIT
  }

  /** Every count enclosed in brackets in the text fits: no position can panic. */
  predicate CountsFit(s: string) {
    forall i :: 0 <= i <= |s| ==> ArraySizeFits(s, i)
  }

  /** `parse_array_size`: `[`, one or more digits, `]`. */
  function ParseArraySize(s: string, i: nat): (r: Option<(nat, nat)>)
    requires i <= |s| && ArraySizeFits(s, i)
    ensures r.Some? <==>
      (i < |s| && s[i] == '[' && (var j := DigitRunEnd(s, i + 1); i + 1 < j < |s| && s[j] == ']'))
    ensures r.Some? ==>
      var j := DigitRunEnd(s, i + 1);
      r.value == (DigitsValue(s[i + 1..j]), j + 1)
  {
    match Char(s, i, '[')
    case None => None
    case Some(a) =>
      var j := DigitRunEnd(s, a);
      if j == a then None
      else match Char(s, j, ']')
        case None => None
        case Some(k) => Some((DigitsValue(s[a..j]), k))
  }

  /** The part of `parse_field` before the optional count: white space, a
      type name, white space, a member name. The type, the name, and the
      position after the name. */
  function FieldHead(reg: Registry, s: string, i: nat): (r: Option<(CType, string, nat)>)
    requires i <= |s|
    ensures r.Some? <==>
      var j0 := Multispace0(s, i);
      && Identifier(s, j0).Some?
      && Multispace1(s, Identifier(s, j0).value).Some?
      && Identifier(s, Multispace0(s, Identifier(s, j0).value)).Some?
    ensures r.Some? ==>
      var j0 := Multispace0(s, i);
      var j1 := Identifier(s, j0).value;
      var j2 := Multispace0(s, j1);
      var j3 := Identifier(s, j2).value;
      && '[' !in s[j0..j1]
      && r.value == (MemberType(reg, s[j0..j1]), s[j2..j3], j3)
    ensures r.Some? ==> i < r.value.2 <= |s| && IsIdent(r.value.1)
  {
    var j0 := Multispace0(s, i);
    match ParseType(reg, s, j0)
    case None => None
    case Some((t, j1)) =>
      match Multispace1(s, j1)
      case None => None
      case Some(j2) =>
        match Identifier(s, j2)
        case None => None
        case Some(j3) =>
          IdentifierWord(s, j2, j3);
          Some((t, s[j2..j3], j3))
  }

  /** `parse_field`: type, white space, name, optional `[n]`, white space. */
  function ParseField(reg: Registry, s: string, i: nat): (r: Option<(CField, nat)>)
    requires i <= |s| && CountsFit(s)
    ensures r.Some? ==> i < r.value.1 <= |s|
    ensures r.Some? ==> r.value.0.offset == 0
    ensures r.Some? ==> |r.value.0.name| > 0 && forall k :: 0 <= k < |r.value.0.name| ==> IsIdentChar(r.value.0.name[k])
    ensures r.Some? <==> FieldHead(reg, s, i).Some?
    ensures r.Some? ==>
      var t := FieldHead(reg, s, i).value.0;
      var j3 := FieldHead(reg, s, i).value.2;
      && r.value.0.name == FieldHead(reg, s, i).value.1
      && (ParseArraySize(s, j3).Some? ==>
            && r.value.0.ctype == Array(t, ParseArraySize(s, j3).value.0)
            && r.value.1 == Multispace0(s, ParseArraySize(s, j3).value.1))
      && (ParseArraySize(s, j3).None? ==> r.value.0.ctype == t && r.value.1 == Multispace0(s, j3))
  {
    match FieldHead(reg, s, i)
    case None => None
    case Some((t, name, j3)) =>
      var (ctype, j4) :=
        match ParseArraySize(s, j3)
        case Some((n, k)) => (Array(t, n), k)
        case None => (t, j3);
      Some((CField(name, ctype, 0), Multispace0(s, j4)))
  }

  /** `separated_list0(char(';'), parse_field)`: the members, and the
      position after the last one. A `;` that is not followed by a member is
      left in the input. */
  function FieldList(reg: Registry, s: string, i: nat): (r: (seq<CField>, nat))
    requires i <= |s| && CountsFit(s)
    ensures i <= r.1 <= |s|
    ensures |r.0| == 0 ==> r.1 == i
  {
    match ParseField(reg, s, i)
    case None => ([], i)
    case Some((f, j)) =>
      var (fs, k) := MoreFields(reg, s, j);
      ([f] + fs, k)
  }

  /** A `;` followed by a member. */
  function NextField(reg: Registry, s: string, i: nat): (r: Option<(CField, nat)>)
    requires i <= |s| && CountsFit(s)
    ensures r.Some? ==> i < r.value.1 <= |s|
    ensures r.Some? ==> r.value.0.offset == 0
  {
    match Char(s, i, ';')
    case None => None
    case Some(a) => ParseField(reg, s, a)
  }

  /** The `;`-led continuation of a member list. */
  function MoreFields(reg: Registry, s: string, i: nat): (r: (seq<CField>, nat))
    requires i <= |s| && CountsFit(s)
    ensures i <= r.1 <= |s|
    ensures |r.0| == 0 ==> r.1 == i
    decreases |s| - i
  {
    match NextField(reg, s, i)
    case None => ([], i)
    case Some((f, j)) =>
      var (fs, k) := MoreFields(reg, s, j);
      ([f] + fs, k)
  }

  /** `parse_struct_fields`: the member list, an optional `;`, white space. */
  function ParseStructFields(reg: Registry, s: string, i: nat): (r: (seq<CField>, nat))
    requires i <= |s| && CountsFit(s)
    ensures i <= r.1 <= |s|
  {
    var members := FieldList(reg, s, Multispace0(s, i));
    var semi := Char(s, members.1, ';');
    var j2 := if semi.Some? then semi.value else members.1;
    (members.0, Multispace0(s, j2))
  }

  /** The struct a declaration named `name` with these members registers:
      the members laid out by the offset pass. */
  function DeclaredStruct(name: string, fields: seq<CField>): (t: CType)
    ensures t.Struct? && t.name == name && LaidOut(t.fields) && SameMembers(t.fields, fields)
  {
    AssignOffsetsLaidOut(fields, 0);
    Struct(name, AssignOffsets(fields, 0))
  }

  /** White space, the keyword `kw`, then at least one white-space
      character: the position after that white space. */
  function KeywordThenSpace(s: string, i: nat, kw: string): (r: Option<nat>)
    requires i <= |s|
    ensures r.Some? <==>
      && Tag(s, Multispace0(s, i), kw).Some?
      && Multispace1(s, Multispace0(s, i) + |kw|).Some?
    ensures r.Some? ==> r.value == Multispace0(s, Multispace0(s, i) + |kw|)
    ensures r.Some? ==> i < r.value <= |s|
  {
    var j0 := Multispace0(s, i);
    match Tag(s, j0, kw)
    case None => None
    case Some(j1) => Multispace1(s, j1)
  }

  /** The head of a struct declaration: white space, `struct`, white space,
      the struct's name, white space and `{`. The name, and the position
      after the `{`. */
  function StructHead(s: string, i: nat): (r: Option<(string, nat)>)
    requires i <= |s|
    ensures r.Some? <==>
      && KeywordThenSpace(s, i, "struct").Some?
      && var j2 := KeywordThenSpace(s, i, "struct").value;
      && Identifier(s, j2).Some?
      && Char(s, Multispace0(s, Identifier(s, j2).value), '{').Some?
    ensures r.Some? ==>
      var j2 := KeywordThenSpace(s, i, "struct").value;
      var j3 := Identifier(s, j2).value;
      r.value == (s[j2..j3], Multispace0(s, j3) + 1)
  {
    match KeywordThenSpace(s, i, "struct")
    case None => None
    case Some(j2) =>
      match Identifier(s, j2)
      case None => None
      case Some(j3) =>
        match Char(s, Multispace0(s, j3), '{')
        case None => None
        case Some(j5) => Some((s[j2..j3], j5))
  }

  /** The end of a struct declaration after its members: `}`, white space,
      `;`, white space. The position after it. */
  function StructClose(s: string, j6: nat): (r: Option<nat>)
    requires j6 <= |s|
    ensures r.Some? <==> j6 < |s| && s[j6] == '}' && Char(s, Multispace0(s, j6 + 1), ';').Some?
    ensures r.Some? ==> j6 < r.value <= |s| && r.value == Multispace0(s, Multispace0(s, j6 + 1) + 1)
  {
    if Char(s, j6, '}').None? then None
    else
      var j8 := Multispace0(s, j6 + 1);
      if Char(s, j8, ';').None? then None
      else Some(Multispace0(s, j8 + 1))
  }

  /** `parse_struct`: on success the registry gains the struct under its
      name (replacing any earlier entry), with the members the member list
      parsed; on failure it is unchanged. It succeeds exactly when the head,
      the member list and the closing `};` follow one another. */
  function ParseStruct(reg: Registry, s: string, i: nat): (r: Option<(Registry, nat)>)
    requires i <= |s| && CountsFit(s)
    ensures r.Some? ==> i < r.value.1 <= |s|
    ensures r.Some? ==> exists name, fields ::
      r.value.0 == Register(reg, name, DeclaredStruct(name, fields))
    ensures r.Some? <==>
      && StructHead(s, i).Some?
      && StructClose(s, ParseStructFields(reg, s, StructHead(s, i).value.1).1).Some?
    ensures r.Some? ==>
      var name := StructHead(s, i).value.0;
      var members := ParseStructFields(reg, s, StructHead(s, i).value.1);
      && r.value.0 == Register(reg, name, DeclaredStruct(name, members.0))
      && r.value.1 == StructClose(s, members.1).value
  {
    var head := StructHead(s, i);
    if head.None? then None
    else
      var name := head.value.0;
      var members := ParseStructFields(reg, s, head.value.1);
      match StructClose(s, members.1)
      case None => None
      case Some(k) => Some((Register(reg, name, DeclaredStruct(name, members.0)), k))
  }

  /** `parse_typedef`: skipped up to and including the next `;`. */
  function ParseTypedef(s: string, i: nat): (r: Option<nat>)
    requires i <= |s|
    ensures r.Some? ==> i < r.value <= |s| && s[r.value - 1] == ';'
    ensures r.Some? <==>
      && KeywordThenSpace(s, i, "typedef").Some?
      && ';' in s[KeywordThenSpace(s, i, "typedef").value..]
    ensures r.Some? ==>
      var j2 := KeywordThenSpace(s, i, "typedef").value;
      && j2 < r.value
      && forall k :: j2 <= k < r.value - 1 ==> s[k] != ';'
  {
    match KeywordThenSpace(s, i, "typedef")
    case None => None
    case Some(j2) =>
      var j3 := Span(s, j2, c => c != ';');
      assert ';' in s[j2..] ==> j3 < |s| by {
        assert forall k :: j2 <= k < |s| ==> s[j2..][k - j2] == s[k];
      }
      Char(s, j3, ';')
  }

  /** Not a `;` and not a line feed. */
  predicate InFunctionText(c: char) {
    c != ';' && c != '\n'
  }

  /** `parse_function`: anything up to a `;` or a line end, skipped. */
  function ParseFunction(s: string, i: nat): (r: Option<nat>)
    requires i <= |s|
    ensures r.Some? <==> i < |s| && InFunctionText(s[i])
    ensures r.Some? ==> i < r.value <= |s|
    ensures r.Some? ==>
      var e := Span(s, i, InFunctionText);
      r.value == Multispace0(s, if e < |s| && s[e] == ';' then e + 1 else e)
  {
    var j1 := Span(s, i, InFunctionText);
    if j1 == i then None
    else
      var j2 := match Char(s, j1, ';') case Some(k) => k case None => j1;
      Some(Multispace0(s, j2))
  }

  /** `parse_declaration`: white space, then a struct, a typedef, or any
      other text taken as a function declaration, tried in that order. Only
      a struct changes the registry. */
  function ParseDeclaration(reg: Registry, s: string, i: nat): (r: Option<(Registry, nat)>)
    requires i <= |s| && CountsFit(s)
    ensures r.Some? ==> i < r.value.1 <= |s|
    ensures r.Some? ==> r.value.0 == reg || ParseStruct(reg, s, Multispace0(s, i)) == Some(r.value)
  {
    var j := Multispace0(s, i);
    if j == |s| then None
    else match ParseStruct(reg, s, j)
      case Some(res) => Some(res)
      case None =>
        match ParseTypedef(s, j)
        case Some(k) => Some((reg, k))
        case None =>
          match ParseFunction(s, j)
          case Some(k) => Some((reg, k))
          case None => None
  }

  /** The `alt` order of `parse_declaration`: after the white space, a
      struct that parses is the declaration; failing that, a typedef; failing
      both, a function declaration; and nothing at the end of the text. */
  lemma DeclarationAlternatives(reg: Registry, s: string, i: nat)
    requires i <= |s| && CountsFit(s)
    ensures var j := Multispace0(s, i);
      var r := ParseDeclaration(reg, s, i);
      && (j == |s| ==> r.None?)
      && (j < |s| && ParseStruct(reg, s, j).Some? ==> r == ParseStruct(reg, s, j))
      && (j < |s| && ParseStruct(reg, s, j).None? && ParseTypedef(s, j).Some? ==>
            r == Some((reg, ParseTypedef(s, j).value)))
      && (j < |s| && ParseStruct(reg, s, j).None? && ParseTypedef(s, j).None? ==>
            (r.Some? <==> ParseFunction(s, j).Some?)
            && (r.Some? ==> r.value == (reg, ParseFunction(s, j).value)))
  {
  }

  /** A declaration fails exactly at the end of the text or at a `;`
      (white space aside): any other character starts at least a function
      declaration. */
  lemma DeclarationFailsIff(reg: Registry, s: string, i: nat)
    requires i <= |s| && CountsFit(s)
    ensures ParseDeclaration(reg, s, i).None? <==>
      (var j := Multispace0(s, i); j == |s| || s[j] == ';')
  {
    var j := Multispace0(s, i);
    if j < |s| && s[j] == ';' {
      SemicolonStartsNothing(reg, s, j);
    }
  }

  /** No struct, typedef or function declaration starts with `;`. */
  lemma SemicolonStartsNothing(reg: Registry, s: string, j: nat)
    requires j < |s| && s[j] == ';' && CountsFit(s)
    ensures ParseStruct(reg, s, j).None? && ParseTypedef(s, j).None? && ParseFunction(s, j).None?
  {
    assert Multispace0(s, j) == j;
    assert "struct"[0] != ';' && "typedef"[0] != ';';
    if j + 6 <= |s| {
      assert s[j..j + 6][0] == ';';
    }
    if j + 7 <= |s| {
      assert s[j..j + 7][0] == ';';
    }
  }

  /** `many0(parse_declaration)`: declarations until one fails. */
  function Declarations(reg: Registry, s: string, i: nat): (r: (Registry, nat))
    requires i <= |s| && CountsFit(s)
    ensures i <= r.1 <= |s|
    decreases |s| - i
  {
    match ParseDeclaration(reg, s, i)
    case None => (reg, i)
    case Some((reg', k)) => Declarations(reg', s, k)
  }

  /** `parse_cdef`: the registry afterwards, and whether everything was
      consumed. Declarations that parsed stay registered when the rest of
      the text does not parse. */
  function ParseCdef(reg: Registry, s: string): (r: (Registry, Result<()>))
    requires CountsFit(s)
    ensures r.0 == Declarations(reg, s, 0).0
    ensures r.1.Err? ==> r.1.error.UnparsedInput?
    ensures var t := Trim(s[Declarations(reg, s, 0).1..]);
      && (r.1.Ok? <==> |t| == 0)
      && (r.1.Err? ==>
            && r.1.error.byteLength == |Utf8Encode(t)|
            && |r.1.error.shown| <= 50
            && r.1.error.shown <= t
            && (|t| <= 50 ==> r.1.error.shown == t)
            && (|t| > 50 ==> r.1.error.shown == t[..50]))
  {
    var (reg', k) := Declarations(reg, s, 0);
    var trimmed := Trim(s[k..]);
    if |trimmed| == 0 then (reg', Ok(()))
    else (reg', Err(UnparsedInput(Utf8ByteLength(trimmed), TakeChars(trimmed, 50))))
  }

  /** The declaration loop stops exactly at the end of the text or at a `;`
      that no declaration can start with (white space aside). */
  lemma {:induction false} DeclarationsStop(reg: Registry, s: string, i: nat)
    requires i <= |s| && CountsFit(s)
    ensures var j := Multispace0(s, Declarations(reg, s, i).1);
      j == |s| || s[j] == ';'
    decreases |s| - i
  {
    match ParseDeclaration(reg, s, i)
    case None =>
      DeclarationFailsIff(reg, s, i);
    case Some((reg', k)) =>
      DeclarationsStop(reg', s, k);
  }

  /** `parse_cdef` succeeds exactly when the declarations consume the text
      up to trailing white space; otherwise it reports the rest, which then
      starts with a `;`. */
  lemma CdefSucceedsIffConsumed(reg: Registry, s: string)
    requires CountsFit(s)
    ensures var k := Declarations(reg, s, 0).1;
      (ParseCdef(reg, s).1.Ok? <==> Multispace0(s, k) == |s|)
      && (ParseCdef(reg, s).1.Err? ==> s[Multispace0(s, k)] == ';')
  {
    var k := Declarations(reg, s, 0).1;
    DeclarationsStop(reg, s, 0);
    RestBlankIff(s, k);
  }

  /** The text from k on is blank exactly when the white space from k runs
      to the end, provided that run can only stop at a `;`. */
  lemma RestBlankIff(s: string, k: nat)
    requires k <= |s|
    requires var j := Multispace0(s, k); j == |s| || s[j] == ';'
    ensures Blank(s[k..]) <==> Multispace0(s, k) == |s|
  {
    var j := Multispace0(s, k);
    var rest := s[k..];
    if j == |s| {
      forall m | 0 <= m < |rest| ensures IsWhitespace(rest[m]) {
        MultispaceIsWhitespace(rest[m]);
      }
    } else {
      assert rest[j - k] == ';';
    }
  }

  /** Text without any `;` always parses: every stretch of it is taken as a
      function declaration if nothing else. */
  lemma NoSemicolonParses(reg: Registry, s: string)
    requires CountsFit(s) && ';' !in s
    ensures ParseCdef(reg, s).1 == Ok(())
  {
    var k := Declarations(reg, s, 0).1;
    CdefSucceedsIffConsumed(reg, s);
    DeclarationsStop(reg, s, 0);
  }

  /** Every registry entry is a struct stored under its own name, with its
      members laid out by the offset pass. */
  predicate StructsOnly(reg: Registry) {
    forall n :: n in reg ==> reg[n].Struct? && reg[n].name == n && LaidOut(reg[n].fields)
  }

  /** A struct declaration keeps the registry made of laid-out structs. */
  lemma ParseStructKeepsStructsOnly(reg: Registry, s: string, i: nat)
    requires i <= |s| && CountsFit(s)
    ensures StructsOnly(reg) && ParseStruct(reg, s, i).Some? ==> StructsOnly(ParseStruct(reg, s, i).value.0)
  {
    if StructsOnly(reg) && ParseStruct(reg, s, i).Some? {
      var name, fields :| ParseStruct(reg, s, i).value.0 == Register(reg, name, DeclaredStruct(name, fields));
      RegisterStructKeepsStructsOnly(reg, name, fields);
    }
  }

  /** Registering a declared struct keeps the registry made of laid-out
      structs under their own names. */
  lemma RegisterStructKeepsStructsOnly(reg: Registry, name: string, fields: seq<CField>)
    requires StructsOnly(reg)
    ensures StructsOnly(Register(reg, name, DeclaredStruct(name, fields)))
  {
  }

  /** Starting from registered structs only (for example from nothing),
      `parse_cdef` leaves registered structs only, whatever the text: typedef
      and function declarations register nothing. Nothing is ever removed. */
  lemma {:induction false} DeclarationsKeepStructsOnly(reg: Registry, s: string, i: nat)
    requires i <= |s| && CountsFit(s)
    ensures StructsOnly(reg) ==> StructsOnly(Declarations(reg, s, i).0)
    ensures forall n :: n in reg ==> n in Declarations(reg, s, i).0
    decreases |s| - i
  {
    match ParseDeclaration(reg, s, i)
    case None =>
    case Some((reg', k)) =>
      ParseStructKeepsStructsOnly(reg, s, Multispace0(s, i));
      DeclarationsKeepStructsOnly(reg', s, k);
  }

  /** The registry after `parse_cdef` on an empty registry holds laid-out
      structs only. */
  lemma CdefRegistersLaidOutStructs(s: string)
    requires CountsFit(s)
    ensures StructsOnly(ParseCdef(map[], s).0)
  {
    DeclarationsKeepStructsOnly(map[], s, 0);
  }

  /** A typedef is skipped without touching the registry. */
  lemma TypedefRegistersNothing(reg: Registry, s: string, i: nat)
    requires i <= |s| && CountsFit(s)
    requires ParseStruct(reg, s, Multispace0(s, i)).None?
    ensures ParseDeclaration(reg, s, i).Some? ==> ParseDeclaration(reg, s, i).value.0 == reg
  {
  }

  /** Text without a `[` has no count to overflow. */
  lemma NoBracketCountsFit(s: string)
    requires '[' !in s
    ensures CountsFit(s)
  {
  }

  // ----- a struct declaration, end to end -----

  /** `w` sits in `s` at position p. */
  predicate WordAt(s: string, p: nat, w: string) {
    p + |w| <= |s| && forall k :: 0 <= k < |w| ==> s[p + k] == w[k]
  }

  /** A word at p is its first part at p and its second part right after. */
  lemma WordSplit(s: string, p: nat, w: string, rest: string)
    requires WordAt(s, p, w + rest)
    ensures WordAt(s, p, w) && WordAt(s, p + |w|, rest)
  {
    assert forall k :: 0 <= k < |w| ==> (w + rest)[k] == w[k];
    assert forall k :: 0 <= k < |rest| ==> (w + rest)[|w| + k] == rest[k];
  }

  /** The slice a word occupies is that word. */
  lemma SliceOfWord(s: string, p: nat, w: string)
    requires WordAt(s, p, w)
    ensures s[p..p + |w|] == w
  {
    assert forall k :: 0 <= k < |w| ==> s[p..p + |w|][k] == w[k];
  }

  /** An identifier that ends before a character no identifier holds. */
  lemma IdentifierAt(s: string, a: nat, w: string)
    requires IsIdent(w) && WordAt(s, a, w) && a + |w| < |s| && !IsIdentChar(s[a + |w|])
    ensures Identifier(s, a) == Some(a + |w|)
  {
    forall k | a <= k < a + |w|
      ensures IsIdentChar(s[k])
    {
      assert s[a + (k - a)] == w[k - a];
    }
  }

  /** White space runs from i up to the first character that is not one. */
  lemma Multispace0Stops(s: string, i: nat, a: nat)
    requires i <= a < |s| && !IsMultispace(s[a])
    requires forall k :: i <= k < a ==> IsMultispace(s[k])
    ensures Multispace0(s, i) == a
  {
  }

  /** No white space at a: `multispace0` stays there. */
  lemma NoSpaceStops(s: string, a: nat)
    requires a < |s| && !IsMultispace(s[a])
    ensures Multispace0(s, a) == a
  {
  }

  /** One space and then none: `multispace0` steps over the space. */
  lemma OneSpaceStops(s: string, p: nat)
    requires p + 1 < |s| && s[p] == ' ' && !IsMultispace(s[p + 1])
    ensures Multispace0(s, p) == p + 1
  {
    Multispace0Stops(s, p, p + 1);
  }

  /** Where the scanners stop on `T f`, with white space only before it:
      the type word ends at j1 and the name at e. */
  lemma FieldHeadSteps(s: string, i: nat, a: nat, j1: nat, e: nat, t: string, f: string)
    requires IsIdent(t) && IsIdent(f)
    requires WordAt(s, a, t) && j1 == a + |t| && j1 < |s| && s[j1] == ' ' && WordAt(s, j1 + 1, f)
    requires e == j1 + 1 + |f| && e < |s| && !IsIdentChar(s[e])
    requires i <= a && forall k :: i <= k < a ==> IsMultispace(s[k])
    ensures Multispace0(s, i) == a && Identifier(s, a) == Some(j1)
    ensures Multispace1(s, j1) == Some(j1 + 1) && Identifier(s, j1 + 1) == Some(e)
  {
    assert s[a + 0] == t[0];
    assert s[j1 + 1 + 0] == f[0];
    Multispace0Stops(s, i, a);
    IdentifierAt(s, a, t);
    Multispace0Stops(s, j1, j1 + 1);
    IdentifierAt(s, j1 + 1, f);
  }

  /** The head of a member, once the scanners' stops are known. */
  lemma FieldHeadAt(reg: Registry, s: string, i: nat, a: nat, j1: nat, e: nat)
    requires i <= a <= j1 < e <= |s|
    requires Multispace0(s, i) == a && Identifier(s, a) == Some(j1)
    requires Multispace1(s, j1) == Some(j1 + 1) && Identifier(s, j1 + 1) == Some(e)
    ensures '[' !in s[a..j1]
    ensures FieldHead(reg, s, i) == Some((MemberType(reg, s[a..j1]), s[j1 + 1..e], e))
  {
    IdentifierBracketFree(s, a, j1);
  }

  /** A member without a count stops at the `;` after its name. */
  lemma ParseFieldBare(reg: Registry, s: string, i: nat)
    requires i <= |s| && CountsFit(s) && FieldHead(reg, s, i).Some?
    requires FieldHead(reg, s, i).value.2 < |s| && s[FieldHead(reg, s, i).value.2] == ';'
    ensures ParseField(reg, s, i) == Some((CField(FieldHead(reg, s, i).value.1, FieldHead(reg, s, i).value.0, 0), FieldHead(reg, s, i).value.2))
  {
    var e := FieldHead(reg, s, i).value.2;
    assert ParseArraySize(s, e).None?;
    Multispace0Stops(s, e, e);
  }

  /** One member `T f` followed by `;`, with white space only before it:
      the member is `f`, typed as `T` resolves (or the `int` fallback), and
      the parse stops at the `;` at e. */
  lemma ParseFieldAt(reg: Registry, s: string, i: nat, a: nat, j1: nat, e: nat, t: string, f: string)
    requires CountsFit(s) && IsIdent(t) && IsIdent(f)
    requires WordAt(s, a, t) && j1 == a + |t| && j1 < |s| && s[j1] == ' ' && WordAt(s, j1 + 1, f)
    requires e == j1 + 1 + |f| && e < |s| && s[e] == ';'
    requires i <= a && forall k :: i <= k < a ==> IsMultispace(s[k])
    ensures '[' !in t
    ensures ParseField(reg, s, i) == Some((CField(f, MemberType(reg, t), 0), e))
  {
    FieldHeadOf(reg, s, i, a, j1, e, t, f);
    ParseFieldOfHead(reg, s, i, MemberType(reg, t), f, e);
  }

  /** The head `T f` of a member, with white space only before it. */
  lemma FieldHeadOf(reg: Registry, s: string, i: nat, a: nat, j1: nat, e: nat, t: string, f: string)
    requires IsIdent(t) && IsIdent(f)
    requires WordAt(s, a, t) && j1 == a + |t| && j1 < |s| && s[j1] == ' ' && WordAt(s, j1 + 1, f)
    requires e == j1 + 1 + |f| && e < |s| && s[e] == ';'
    requires i <= a && forall k :: i <= k < a ==> IsMultispace(s[k])
    ensures '[' !in t
    ensures FieldHead(reg, s, i) == Some((MemberType(reg, t), f, e))
  {
    FieldHeadSteps(s, i, a, j1, e, t, f);
    SliceOfWordTo(s, a, t, j1);
    SliceOfWordTo(s, j1 + 1, f, e);
    FieldHeadAt(reg, s, i, a, j1, e);
  }

  /** The slice a word occupies, from p up to q, is that word. */
  lemma SliceOfWordTo(s: string, p: nat, w: string, q: nat)
    requires WordAt(s, p, w) && q == p + |w|
    ensures q <= |s| && s[p..q] == w
  {
    SliceOfWord(s, p, w);
  }

  /** A member head followed by `;` is the member, stopping at the `;`. */
  lemma ParseFieldOfHead(reg: Registry, s: string, i: nat, ty: CType, f: string, e: nat)
    requires i <= |s| && CountsFit(s) && FieldHead(reg, s, i) == Some((ty, f, e))
    requires e < |s| && s[e] == ';'
    ensures ParseField(reg, s, i) == Some((CField(f, ty, 0), e))
  {
    ParseFieldBare(reg, s, i);
  }

  /** `T f; ` at p: a type word, one space, a member name, then `;` at e
      and a space. */
  predicate MemberAt(s: string, p: nat, t: string, f: string, e: nat) {
    && WordAt(s, p, t) && p + |t| < |s| && s[p + |t|] == ' ' && WordAt(s, p + |t| + 1, f)
    && e == p + |t| + 1 + |f| && e + 1 < |s| && s[e] == ';' && s[e + 1] == ' '
  }

  /** `T f; ` at p, with its `;` at e, and what follows it. */
  lemma MemberPieces(s: string, p: nat, e: nat, next: nat, t: string, f: string, rest: string)
    requires WordAt(s, p, t + (" " + (f + ("; " + rest)))) && e == p + |t| + 1 + |f| && next == e + 2
    ensures MemberAt(s, p, t, f, e)
    ensures WordAt(s, next, rest)
  {
    WordSplit(s, p, t, " " + (f + ("; " + rest)));
    WordSplit(s, p + |t|, " ", f + ("; " + rest));
    WordSplit(s, p + |t| + 1, f, "; " + rest);
    WordSplit(s, e, "; ", rest);
    assert s[p + |t| + 0] == " "[0];
    assert s[e + 0] == "; "[0];
    assert s[e + 1] == "; "[1];
  }

  /** An identifier holds no bracket. */
  lemma IdentNoBracket(w: string)
    requires IsIdent(w)
    ensures '[' !in w
  {
  }

  /** `struct N {` at the start of the text: the head parses to N and
      stops after the brace. */
  lemma StructHeadAt(s: string, n: string)
    requires IsIdent(n) && WordAt(s, 0, "struct ") && WordAt(s, 7, n)
    requires 8 + |n| < |s| && s[7 + |n|] == ' ' && s[8 + |n|] == '{'
    ensures StructHead(s, 0) == Some((n, 9 + |n|))
  {
    assert "struct " == "struct" + " ";
    WordSplit(s, 0, "struct", " ");
    SliceOfWord(s, 0, "struct");
    assert s[0 + 0] == "struct"[0] == 's';
    assert s[6 + 0] == " "[0] == ' ';
    assert s[7 + 0] == n[0];
    Multispace0Stops(s, 0, 0);
    Multispace0Stops(s, 6, 7);
    assert KeywordThenSpace(s, 0, "struct") == Some(7);
    IdentifierAt(s, 7, n);
    SliceOfWord(s, 7, n);
    Multispace0Stops(s, 7 + |n|, 8 + |n|);
  }

  /** After the last member's `;`, a `}` ends the list. */
  lemma {:induction false} MoreFieldsStop(reg: Registry, s: string, c: nat, q: nat)
    requires CountsFit(s) && q == c + 2 && q < |s| && s[c] == ';' && s[c + 1] == ' ' && s[q] == '}'
    ensures MoreFields(reg, s, c) == ([], c)
  {
    Multispace0Stops(s, c + 1, q);
    assert FieldHead(reg, s, c + 1).None?;
  }

  /** One step of the continuation: a `;`-led member, then the rest. */
  lemma {:induction false} MoreFieldsStep(reg: Registry, s: string, c: nat, f: CField, e: nat)
    requires c <= |s| && CountsFit(s) && NextField(reg, s, c) == Some((f, e))
    ensures e <= |s| && MoreFields(reg, s, c) == ([f] + MoreFields(reg, s, e).0, MoreFields(reg, s, e).1)
  {
  }

  /** One step of the member list: a member, then the continuation. */
  lemma {:induction false} FieldListStep(reg: Registry, s: string, a: nat, f: CField, e: nat)
    requires a <= |s| && CountsFit(s) && ParseField(reg, s, a) == Some((f, e))
    ensures e <= |s| && FieldList(reg, s, a) == ([f] + MoreFields(reg, s, e).0, MoreFields(reg, s, e).1)
  {
  }

  /** The continuation from a member and what follows it. */
  lemma {:induction false} MoreFieldsJoin(reg: Registry, s: string, c: nat, e: nat, f: CField, rest: seq<CField>, n: nat)
    requires c <= |s| && CountsFit(s) && NextField(reg, s, c) == Some((f, e))
    requires MoreFields(reg, s, e) == (rest, n)
    ensures MoreFields(reg, s, c) == ([f] + rest, n)
  {
    MoreFieldsStep(reg, s, c, f, e);
  }

  /** The member list from its first member and the continuation after it. */
  lemma {:induction false} FieldListJoin(reg: Registry, s: string, a: nat, e: nat, f: CField, rest: seq<CField>, n: nat)
    requires a <= |s| && CountsFit(s) && ParseField(reg, s, a) == Some((f, e))
    requires MoreFields(reg, s, e) == (rest, n)
    ensures FieldList(reg, s, a) == ([f] + rest, n)
  {
    FieldListStep(reg, s, a, f, e);
  }

  /** No members before the `}`: the member list is empty. */
  lemma {:induction false} FieldListNone(reg: Registry, s: string, a: nat)
    requires CountsFit(s) && a < |s| && s[a] == '}'
    ensures FieldList(reg, s, a) == ([], a)
  {
    NoSpaceStops(s, a);
    assert FieldHead(reg, s, a).None?;
  }

  /** `parse_struct_fields` on ` }`: no members, stopping at the `}`. */
  lemma {:induction false} StructFieldsNone(reg: Registry, s: string, p: nat, q: nat)
    requires CountsFit(s) && q == p + 1 && q < |s| && s[p] == ' ' && s[q] == '}'
    ensures ParseStructFields(reg, s, p) == ([], q)
  {
    OneSpaceStops(s, p);
    FieldListNone(reg, s, q);
    NoSpaceStops(s, q);
  }

  /** `parse_struct_fields` once the member list is known: a space, the
      list, its last `; ` at n and the `}`. */
  lemma {:induction false} StructFieldsFrom(reg: Registry, s: string, p: nat, fs: seq<CField>, n: nat, q: nat)
    requires CountsFit(s) && p + 1 < |s| && s[p] == ' ' && !IsMultispace(s[p + 1])
    requires FieldList(reg, s, p + 1) == (fs, n)
    requires q == n + 2 && q < |s| && s[n] == ';' && s[n + 1] == ' ' && s[q] == '}'
    ensures ParseStructFields(reg, s, p) == (fs, q)
  {
    StructFieldsSpaces(s, p, n, q);
    StructFieldsSteps(reg, s, p, p + 1, fs, n, q);
  }

  /** The spaces `parse_struct_fields` steps over: before the first member
      and after the last `;`. */
  lemma StructFieldsSpaces(s: string, p: nat, n: nat, q: nat)
    requires p + 1 < |s| && s[p] == ' ' && !IsMultispace(s[p + 1])
    requires q == n + 2 && q < |s| && s[n + 1] == ' ' && s[q] == '}'
    ensures Multispace0(s, p) == p + 1 && Multispace0(s, n + 1) == q
  {
    OneSpaceStops(s, p);
    OneSpaceStops(s, n + 1);
  }

  /** `parse_struct_fields` from where its scanners stop. */
  lemma StructFieldsSteps(reg: Registry, s: string, p: nat, a: nat, fs: seq<CField>, n: nat, k: nat)
    requires CountsFit(s) && p <= |s| && Multispace0(s, p) == a
    requires FieldList(reg, s, a) == (fs, n) && n < |s| && s[n] == ';' && Multispace0(s, n + 1) == k
    ensures ParseStructFields(reg, s, p) == (fs, k)
  {
    assert Char(s, n, ';') == Some(n + 1);
    assert ParseStructFields(reg, s, p).0 == FieldList(reg, s, a).0;
    assert ParseStructFields(reg, s, p).1 == Multispace0(s, n + 1);
  }

  /** The struct head at the start, its members up to the `}` at q, and a
      `;` ending the text: the struct is registered and the text consumed. */
  lemma StructParsesAt(reg: Registry, s: string, n: string, h: nat, fs: seq<CField>, q: nat)
    requires CountsFit(s) && IsIdent(n) && WordAt(s, 0, "struct ") && WordAt(s, 7, n)
    requires 9 + |n| <= |s| && s[7 + |n|] == ' ' && s[8 + |n|] == '{' && h == 9 + |n|
    requires ParseStructFields(reg, s, h) == (fs, q)
    requires q + 1 < |s| && s[q] == '}' && s[q + 1] == ';' && |s| == q + 2
    ensures ParseStruct(reg, s, 0) == Some((Register(reg, n, DeclaredStruct(n, fs)), |s|))
  {
    StructHeadAt(s, n);
    StructTailAt(s, q);
    StructSteps(reg, s, n, h, fs, q, |s|);
  }

  /** After the members: the `}` at q, then `;` closing the text. */
  lemma StructTailAt(s: string, q: nat)
    requires q + 1 < |s| && s[q] == '}' && s[q + 1] == ';' && |s| == q + 2
    ensures StructClose(s, q) == Some(|s|)
  {
    NoSpaceStops(s, q + 1);
  }

  /** `parse_struct` from where its scanners stop. */
  lemma StructSteps(reg: Registry, s: string, n: string, h: nat, fs: seq<CField>, q: nat, k: nat)
    requires CountsFit(s) && StructHead(s, 0) == Some((n, h))
    requires ParseStructFields(reg, s, h) == (fs, q) && StructClose(s, q) == Some(k)
    ensures ParseStruct(reg, s, 0) == Some((Register(reg, n, DeclaredStruct(n, fs)), k))
  {
  }

  /** A declaration that `parse_struct` takes whole is all `parse_cdef`
      reads, and it succeeds. */
  lemma CdefOfStruct(reg: Registry, s: string, reg': Registry)
    requires CountsFit(s) && 0 < |s| && !IsMultispace(s[0])
    requires ParseStruct(reg, s, 0) == Some((reg', |s|))
    ensures ParseCdef(reg, s) == (reg', Ok(()))
  {
    NoSpaceStops(s, 0);
    DeclarationsEnd(reg', s);
    DeclarationsOne(reg, s, reg');
    NothingLeft(s);
    CdefSteps(reg, s, reg', |s|);
  }

  /** One struct declaration from the start, then nothing more. */
  lemma DeclarationsOne(reg: Registry, s: string, reg': Registry)
    requires CountsFit(s) && 0 < |s| && Multispace0(s, 0) == 0
    requires ParseStruct(reg, s, 0) == Some((reg', |s|)) && Declarations(reg', s, |s|) == (reg', |s|)
    ensures Declarations(reg, s, 0) == (reg', |s|)
  {
  }

  /** Nothing after the end of the text. */
  lemma NothingLeft(s: string)
    ensures |Trim(s[|s|..])| == 0
  {
    assert s[|s|..] == [];
  }

  /** `parse_cdef` once the declarations stop at k with only blanks after. */
  lemma CdefSteps(reg: Registry, s: string, reg': Registry, k: nat)
    requires CountsFit(s) && k <= |s| && Declarations(reg, s, 0) == (reg', k) && |Trim(s[k..])| == 0
    ensures ParseCdef(reg, s) == (reg', Ok(()))
  {
  }

  /** At the end of the text there is nothing more to declare. */
  lemma DeclarationsEnd(reg: Registry, s: string)
    requires CountsFit(s)
    ensures Declarations(reg, s, |s|) == (reg, |s|)
  {
    assert ParseDeclaration(reg, s, |s|).None?;
  }

  /** The text `struct N { T1 f1; T2 f2; };`. */
  function TwoMemberText(n: string, t1: string, f1: string, t2: string, f2: string): (s: string)
    ensures |s| == 18 + |n| + |t1| + |f1| + |t2| + |f2|
  {
    "struct " + (n + (" { " + (t1 + (" " + (f1 + ("; " + (t2 + (" " + (f2 + ("; " + "};"))))))))))
  }

  /** The text `struct N { };`. */
  function EmptyStructText(n: string): (s: string)
    ensures |s| == 12 + |n|
  {
    "struct " + (n + (" { " + "};"))
  }

  /** A text sits at its own start. */
  lemma WordAtSelf(s: string)
    ensures WordAt(s, 0, s)
  {
  }

  /** The head `struct N { ` of a struct declaration's text. */
  predicate HeadAt(s: string, n: string) {
    && WordAt(s, 0, "struct ") && WordAt(s, 7, n) && 9 + |n| < |s|
    && s[7 + |n|] == ' ' && s[8 + |n|] == '{' && s[9 + |n|] == ' '
  }

  /** Where the pieces of `struct N { T1 f1; T2 f2; };` sit: the head, the
      first member at a, the second at p2 after the `; ` at e1, and the
      closing `};` after the `; ` at e2. */
  lemma TwoMemberLayout(n: string, t1: string, f1: string, t2: string, f2: string,
                        a: nat, e1: nat, p2: nat, e2: nat, q: nat)
    requires IsIdent(t1)
    requires a == 10 + |n| && e1 == a + |t1| + 1 + |f1| && p2 == e1 + 2 && e2 == p2 + |t2| + 1 + |f2| && q == e2 + 2
    ensures var s := TwoMemberText(n, t1, f1, t2, f2);
      && HeadAt(s, n) && a == 9 + |n| + 1 && !IsMultispace(s[a])
      && MemberAt(s, a, t1, f1, e1) && MemberAt(s, p2, t2, f2, e2)
      && q + 1 < |s| && s[q] == '}' && s[q + 1] == ';' && |s| == q + 2
  {
    var s := TwoMemberText(n, t1, f1, t2, f2);
    WordAtSelf(s);
    HeadPieces(s, n, t1 + (" " + (f1 + ("; " + (t2 + (" " + (f2 + ("; " + "};"))))))));
    MemberPieces(s, a, e1, p2, t1, f1, t2 + (" " + (f2 + ("; " + "};"))));
    IdentStartsAt(s, a, t1);
    MemberPieces(s, p2, e2, q, t2, f2, "};");
    CloseAt(s, q);
  }

  /** `struct N { ` followed by rest: the head, and rest right after it. */
  lemma HeadPieces(s: string, n: string, rest: string)
    requires WordAt(s, 0, "struct " + (n + (" { " + rest)))
    ensures HeadAt(s, n) && WordAt(s, 10 + |n|, rest)
  {
    WordSplit(s, 0, "struct ", n + (" { " + rest));
    WordSplit(s, 7, n, " { " + rest);
    WordSplit(s, 7 + |n|, " { ", rest);
    assert s[7 + |n| + 0] == " { "[0] && s[7 + |n| + 1] == " { "[1] && s[7 + |n| + 2] == " { "[2];
  }

  /** A declaration that opens with `struct` starts with no white space. */
  lemma HeadStarts(s: string, n: string)
    requires HeadAt(s, n)
    ensures 0 < |s| && !IsMultispace(s[0])
  {
    assert s[0 + 0] == "struct "[0];
  }

  /** An identifier starts with a character that is not white space. */
  lemma IdentStartsAt(s: string, a: nat, t: string)
    requires WordAt(s, a, t) && IsIdent(t)
    ensures a < |s| && !IsMultispace(s[a])
  {
    assert s[a + 0] == t[0];
  }

  /** `};` at q. */
  lemma CloseAt(s: string, q: nat)
    requires WordAt(s, q, "};")
    ensures q + 1 < |s| && s[q] == '}' && s[q + 1] == ';'
  {
    assert s[q + 0] == "};"[0];
    assert s[q + 1] == "};"[1];
  }

  /** Where the pieces of `struct N { };` sit. */
  lemma EmptyStructLayout(n: string, q: nat)
    requires q == 7 + |n| + 3
    ensures var s := EmptyStructText(n);
      && HeadAt(s, n) && q + 1 < |s| && s[q] == '}' && s[q + 1] == ';' && |s| == q + 2
  {
    var s := EmptyStructText(n);
    WordAtSelf(s);
    WordSplit(s, 0, "struct ", n + (" { " + "};"));
    WordSplit(s, 7, n, " { " + "};");
    WordSplit(s, 7 + |n|, " { ", "};");
    assert s[7 + |n| + 0] == " { "[0] && s[7 + |n| + 1] == " { "[1] && s[7 + |n| + 2] == " { "[2];
    assert s[q + 0] == "};"[0] && s[q + 1] == "};"[1];
  }

  /** Identifiers hold no `[`, so neither does a declaration built of them. */
  lemma EmptyStructNoBracket(n: string)
    requires IsIdent(n)
    ensures '[' !in EmptyStructText(n)
  {
    IdentNoBracket(n);
  }

  lemma TwoMemberNoBracket(n: string, t1: string, f1: string, t2: string, f2: string)
    requires IsIdent(n) && IsIdent(t1) && IsIdent(f1) && IsIdent(t2) && IsIdent(f2)
    ensures '[' !in TwoMemberText(n, t1, f1, t2, f2)
  {
    IdentNoBracket(n);
    IdentNoBracket(t1);
    IdentNoBracket(f1);
    IdentNoBracket(t2);
    IdentNoBracket(f2);
  }

  /** `T f; ` at a, with its `;` at e: `parse_field` reads that member. */
  lemma FieldAtMember(reg: Registry, s: string, a: nat, e: nat, t: string, f: string)
    requires CountsFit(s) && IsIdent(t) && IsIdent(f) && MemberAt(s, a, t, f, e)
    ensures '[' !in t
    ensures ParseField(reg, s, a) == Some((CField(f, MemberType(reg, t), 0), e))
  {
    ParseFieldAt(reg, s, a, a, a + |t|, e, t, f);
  }

  /** `; T f; ` from c, the member at p with its `;` at e: the
      continuation reads that member. */
  lemma NextFieldAt(reg: Registry, s: string, c: nat, p: nat, e: nat, t: string, f: string)
    requires CountsFit(s) && IsIdent(t) && IsIdent(f)
    requires c + 1 < |s| && s[c] == ';' && s[c + 1] == ' ' && p == c + 2 && MemberAt(s, p, t, f, e)
    ensures '[' !in t
    ensures NextField(reg, s, c) == Some((CField(f, MemberType(reg, t), 0), e))
  {
    ParseFieldAt(reg, s, c + 1, p, p + |t|, e, t, f);
  }

  /** Two members laid out `T1 f1; T2 f2; }` from a: the member list reads
      both, in order, and stops at the second `;`. */
  lemma TwoFieldList(reg: Registry, s: string, a: nat, e1: nat, p2: nat, e2: nat, q: nat,
                     t1: string, f1: string, t2: string, f2: string)
    requires CountsFit(s) && IsIdent(t1) && IsIdent(f1) && IsIdent(t2) && IsIdent(f2)
    requires MemberAt(s, a, t1, f1, e1) && p2 == e1 + 2 && MemberAt(s, p2, t2, f2, e2)
    requires q == e2 + 2 && q < |s| && s[q] == '}'
    ensures '[' !in t1 && '[' !in t2
    ensures FieldList(reg, s, a) == ([CField(f1, MemberType(reg, t1), 0), CField(f2, MemberType(reg, t2), 0)], e2)
  {
    FieldAtMember(reg, s, a, e1, t1, f1);
    NextFieldAt(reg, s, e1, p2, e2, t2, f2);
    MoreFieldsStop(reg, s, e2, q);
    TwoFieldsJoin(reg, s, a, e1, e2, CField(f1, MemberType(reg, t1), 0), CField(f2, MemberType(reg, t2), 0));
  }

  /** A member, a `;`-led member and an empty continuation: the list of
      the two. */
  lemma TwoFieldsJoin(reg: Registry, s: string, a: nat, e1: nat, e2: nat, x: CField, y: CField)
    requires CountsFit(s) && a <= |s| && e1 <= |s| && e2 <= |s|
    requires ParseField(reg, s, a) == Some((x, e1)) && NextField(reg, s, e1) == Some((y, e2))
    requires MoreFields(reg, s, e2) == ([], e2)
    ensures FieldList(reg, s, a) == ([x, y], e2)
  {
    MoreFieldsJoin(reg, s, e1, e2, y, [], e2);
    FieldListJoin(reg, s, a, e1, x, [y] + [], e2);
    PairSeq(x, y);
  }

  /** One element, then one more. */
  lemma PairSeq<T>(x: T, y: T)
    ensures [x] + ([y] + []) == [x, y]
  {
  }

  /** `struct N { T1 f1; T2 f2; };`, with identifiers for N, the types and the
      names: `parse_cdef` succeeds and registers N as a struct of exactly
      those two members, in that order, each of its resolved type. */
  lemma TwoMemberStructRegisters(reg: Registry, n: string, t1: string, f1: string, t2: string, f2: string)
    requires IsIdent(n) && IsIdent(t1) && IsIdent(f1) && IsIdent(t2) && IsIdent(f2)
    ensures '[' !in t1 && '[' !in t2 && CountsFit(TwoMemberText(n, t1, f1, t2, f2))
    ensures ParseCdef(reg, TwoMemberText(n, t1, f1, t2, f2)) ==
      (Register(reg, n, DeclaredStruct(n, [CField(f1, MemberType(reg, t1), 0), CField(f2, MemberType(reg, t2), 0)])), Ok(()))
  {
    TwoMemberStruct(reg, n, t1, f1, t2, f2);
    CdefOfStruct(reg, TwoMemberText(n, t1, f1, t2, f2),
                 Register(reg, n, DeclaredStruct(n, [CField(f1, MemberType(reg, t1), 0), CField(f2, MemberType(reg, t2), 0)])));
  }

  /** `struct N { T1 f1; T2 f2; };` is one whole struct declaration, which
      starts the text. */
  lemma TwoMemberStruct(reg: Registry, n: string, t1: string, f1: string, t2: string, f2: string)
    requires IsIdent(n) && IsIdent(t1) && IsIdent(f1) && IsIdent(t2) && IsIdent(f2)
    ensures '[' !in t1 && '[' !in t2
    ensures var s := TwoMemberText(n, t1, f1, t2, f2);
      && CountsFit(s) && 0 < |s| && !IsMultispace(s[0])
      && ParseStruct(reg, s, 0) ==
           Some((Register(reg, n, DeclaredStruct(n, [CField(f1, MemberType(reg, t1), 0), CField(f2, MemberType(reg, t2), 0)])), |s|))
  {
    var s := TwoMemberText(n, t1, f1, t2, f2);
    var a := 10 + |n|;
    var e1 := a + |t1| + 1 + |f1|;
    var p2 := e1 + 2;
    var e2 := p2 + |t2| + 1 + |f2|;
    var q := e2 + 2;
    TwoMemberNoBracket(n, t1, f1, t2, f2);
    NoBracketCountsFit(s);
    TwoMemberLayout(n, t1, f1, t2, f2, a, e1, p2, e2, q);
    HeadStarts(s, n);
    TwoMemberParses(reg, s, n, a, e1, p2, e2, q, t1, f1, t2, f2);
  }

  /** The laid-out two-member declaration is one whole struct declaration. */
  lemma TwoMemberParses(reg: Registry, s: string, n: string, a: nat, e1: nat, p2: nat, e2: nat, q: nat,
                        t1: string, f1: string, t2: string, f2: string)
    requires CountsFit(s) && IsIdent(n) && IsIdent(t1) && IsIdent(f1) && IsIdent(t2) && IsIdent(f2)
    requires HeadAt(s, n) && a == 9 + |n| + 1
    requires MemberAt(s, a, t1, f1, e1) && !IsMultispace(s[a]) && p2 == e1 + 2 && MemberAt(s, p2, t2, f2, e2)
    requires q == e2 + 2 && q + 1 < |s| && s[q] == '}' && s[q + 1] == ';' && |s| == q + 2
    ensures '[' !in t1 && '[' !in t2
    ensures ParseStruct(reg, s, 0) ==
      Some((Register(reg, n, DeclaredStruct(n, [CField(f1, MemberType(reg, t1), 0), CField(f2, MemberType(reg, t2), 0)])), |s|))
  {
    TwoFieldList(reg, s, a, e1, p2, e2, q, t1, f1, t2, f2);
    StructOfFieldList(reg, s, n, a, [CField(f1, MemberType(reg, t1), 0), CField(f2, MemberType(reg, t2), 0)], e2, q);
  }

  /** The head `struct N {`, a member list from a whose last `;` is at e,
      then ` };` from q to the end: one whole struct declaration. */
  lemma StructOfFieldList(reg: Registry, s: string, n: string, a: nat, fs: seq<CField>, e: nat, q: nat)
    requires CountsFit(s) && IsIdent(n) && HeadAt(s, n) && a == 9 + |n| + 1 && a < |s| && !IsMultispace(s[a])
    requires FieldList(reg, s, a) == (fs, e)
    requires q == e + 2 && q + 1 < |s| && s[e] == ';' && s[e + 1] == ' ' && s[q] == '}' && s[q + 1] == ';'
    requires |s| == q + 2
    ensures ParseStruct(reg, s, 0) == Some((Register(reg, n, DeclaredStruct(n, fs)), |s|))
  {
    StructFieldsFrom(reg, s, 9 + |n|, fs, e, q);
    StructParsesAt(reg, s, n, 9 + |n|, fs, q);
  }

  /** `struct N { };`: `parse_cdef` succeeds and registers N as a struct
      with no members. */
  lemma EmptyStructRegisters(reg: Registry, n: string)
    requires IsIdent(n)
    ensures CountsFit(EmptyStructText(n))
    ensures ParseCdef(reg, EmptyStructText(n)) == (Register(reg, n, DeclaredStruct(n, [])), Ok(()))
  {
    var s := EmptyStructText(n);
    EmptyStructNoBracket(n);
    NoBracketCountsFit(s);
    var q := 7 + |n| + 3;
    EmptyStructLayout(n, q);
    HeadStarts(s, n);
    EmptyStructParses(reg, s, n, q);
    CdefOfStruct(reg, s, Register(reg, n, DeclaredStruct(n, [])));
  }

  /** The laid-out empty declaration is one whole struct declaration. */
  lemma EmptyStructParses(reg: Registry, s: string, n: string, q: nat)
    requires CountsFit(s) && IsIdent(n) && HeadAt(s, n)
    requires q == 7 + |n| + 3 && q + 1 < |s| && s[q] == '}' && s[q + 1] == ';' && |s| == q + 2
    ensures ParseStruct(reg, s, 0) == Some((Register(reg, n, DeclaredStruct(n, [])), |s|))
  {
    StructFieldsNone(reg, s, 9 + |n|, q);
    StructParsesAt(reg, s, n, 9 + |n|, [], q);
  }
}

=== FILE: text.dfy ===
/** Character classes and string helpers used by the type-name resolver and
    the declaration parser, each matching the Rust library routine the code
    calls: `str::trim` (Unicode white space), nom's `multispace0/1` (four ASCII
    characters only), `digit1`, `usize::from_str`, and UTF-8 lengths.
 */
module Text {
  import opened Wrappers
  import opened Bytes

  /** `char::is_whitespace`: the Unicode White_Space property. */
  predicate IsWhitespace(c: char) {
    || c == ' '
    || ('\t' <= c <= '\r')
    || c == '\U{0085}' || c == '\U{00A0}' || c == '\U{1680}'
    || ('\U{2000}' <= c <= '\U{200A}')
    || c == '\U{2028}' || c == '\U{2029}' || c == '\U{202F}'
    || c == '\U{205F}' || c == '\U{3000}'
  }

  /** nom's `multispace` on `&str`: space, tab, carriage return and line feed. */
  predicate IsMultispace(c: char) {
    c == ' ' || c == '\t' || c == '\r' || c == '\n'
  }

  predicate IsAsciiDigit(c: char) {
    '0' <= c <= '9'
  }

  /** The character class of the parser's `identifier`. The source accepts
      every Unicode alphanumeric; the model accepts the ASCII ones. */
  predicate IsIdentChar(c: char) {
    ('a' <= c <= 'z') || ('A' <= c <= 'Z') || IsAsciiDigit(c) || c == '_'
  }

  predicate Blank(s: string) {
    forall i :: 0 <= i < |s| ==> IsWhitespace(s[i])
  }

  lemma MultispaceIsWhitespace(c: char)
    requires IsMultispace(c)
    ensures IsWhitespace(c)
  {
  }

  /** Number of leading white-space characters. */
  function TrimStartIndex(s: string): (k: nat)
    ensures k <= |s|
    ensures forall i :: 0 <= i < k ==> IsWhitespace(s[i])
    ensures k < |s| ==> !IsWhitespace(s[k])
  {
    if |s| == 0 || !IsWhitespace(s[0]) then 0 else 1 + TrimStartIndex(s[1..])
  }

  /** Length of `s` without its trailing white space. */
  function TrimEndIndex(s: string): (k: nat)
    ensures k <= |s|
    ensures forall i :: k <= i < |s| ==> IsWhitespace(s[i])
    ensures k > 0 ==> !IsWhitespace(s[k - 1])
  {
    if |s| == 0 || !IsWhitespace(s[|s| - 1]) then |s| else TrimEndIndex(s[..|s| - 1])
  }

  /** Start of `str::trim(s)` within `s`. */
  function TrimLeft(s: string): (a: nat)
    ensures a <= TrimEndIndex(s)
    ensures forall i :: 0 <= i < a ==> IsWhitespace(s[i])
    ensures a < TrimEndIndex(s) ==> !IsWhitespace(s[a])
  {
    TrimStartIndex(s[..TrimEndIndex(s)])
  }

  /** `str::trim`: the infix of `s` without leading and trailing white space. */
  function Trim(s: string): (r: string)
    ensures r == s[TrimLeft(s)..TrimEndIndex(s)]
    ensures |r| > 0 ==> !IsWhitespace(r[0]) && !IsWhitespace(r[|r| - 1])
    ensures |r| == 0 <==> Blank(s)
  {
    s[TrimLeft(s)..TrimEndIndex(s)]
  }

  /** Length of `s` once every trailing `*` is removed (`trim_end_matches('*')`). */
  function TrimEndStars(s: string): (k: nat)
    ensures k <= |s|
    ensures forall i :: k <= i < |s| ==> s[i] == '*'
    ensures k > 0 ==> s[k - 1] != '*'
  {
    if |s| == 0 || s[|s| - 1] != '*' then |s| else TrimEndStars(s[..|s| - 1])
  }

  /** `str::find(c)`: the index of the first `c`, or `|s|` when there is none. */
  function IndexOf(s: string, c: char): (k: nat)
    ensures k <= |s|
    ensures k < |s| ==> s[k] == c
    ensures forall i :: 0 <= i < k ==> s[i] != c
    ensures k == |s| <==> c !in s
  {
    if |s| == 0 then 0 else if s[0] == c then 0 else 1 + IndexOf(s[1..], c)
  }

  predicate AllDigits(s: string) {
    forall i :: 0 <= i < |s| ==> IsAsciiDigit(s[i])
  }

  function DigitValue(c: char): (d: nat)
    requires IsAsciiDigit(c)
    ensures d < 10
  {
    (c as int) - ('0' as int)
  }

  function DigitChar(d: nat): (c: char)
    requires d < 10
    ensures IsAsciiDigit(c) && DigitValue(c) == d
  {
    (('0' as int) + d) as char
  }

  /** The value of a run of decimal digits, most significant first. */
  function DigitsValue(s: string): nat
    requires AllDigits(s)
  {
    if |s| == 0 then 0 else DigitsValue(s[..|s| - 1]) * 10 + DigitValue(s[|s| - 1])
  }

  /** Decimal rendering of a natural number, without leading zeros. */
  function NatToDigits(n: nat): (s: string)
    ensures AllDigits(s) && |s| > 0
    ensures |s| > 1 ==> s[0] != '0'
  {
    if n < 10 then [DigitChar(n)] else NatToDigits(n / 10) + [DigitChar(n % 10)]
  }

  lemma {:induction false} DigitsRoundTrip(n: nat)
    ensures DigitsValue(NatToDigits(n)) == n
  {
    if n >= 10 {
      var s := NatToDigits(n);
      assert s[..|s| - 1] == NatToDigits(n / 10);
      DigitsRoundTrip(n / 10);
    }
  }

  const USIZE_LIMIT: nat := 0x1_0000_0000_0000_0000

  /** `usize::from_str`: an optional `+`, then one or more ASCII digits whose
      value is below 2^64. */
  function ParseUsize(s: string): (r: Option<nat>)
    ensures r.Some? ==> r.value < USIZE_LIMIT
    ensures AllDigits(s) && |s| > 0 && DigitsValue(s) < USIZE_LIMIT ==> r == Some(DigitsValue(s))
    ensures r.Some? ==> |s| > 0 && (AllDigits(s) || (s[0] == '+' && AllDigits(s[1..])))
  {
    var digits := if |s| > 0 && s[0] == '+' then s[1..] else s;
    if |digits| == 0 || !AllDigits(digits) then None
    else if DigitsValue(digits) < USIZE_LIMIT then Some(DigitsValue(digits))
    else None
  }

  /** Number of bytes the UTF-8 encoding of `c` takes. */
  function Utf8Length(c: char): nat {
    if (c as int) < 0x80 then 1
    else if (c as int) < 0x800 then 2
    else if (c as int) < 0x1_0000 then 3
    else 4
  }

  /** `str::len`: the byte length of the UTF-8 encoding of `s`. */
  function Utf8ByteLength(s: string): nat {
    if |s| == 0 then 0 else Utf8ByteLength(s[..|s| - 1]) + Utf8Length(s[|s| - 1])
  }

  /** UTF-8 encoding of one character. */
  function Utf8EncodeChar(c: char): (bs: seq<byte>)
    ensures |bs| == Utf8Length(c)
  {
    var n := c as int;
    if n < 0x80 then [n]
    else if n < 0x800 then [0xC0 + n / 0x40, 0x80 + n % 0x40]
    else if n < 0x1_0000 then [0xE0 + n / 0x1000, 0x80 + (n / 0x40) % 0x40, 0x80 + n % 0x40]
    else [0xF0 + n / 0x4_0000, 0x80 + (n / 0x1000) % 0x40, 0x80 + (n / 0x40) % 0x40, 0x80 + n % 0x40]
  }

  /** `str::as_bytes`: the UTF-8 encoding of `s`. */
  function Utf8Encode(s: string): (bs: seq<byte>)
    ensures |bs| == Utf8ByteLength(s)
  {
    if |s| == 0 then [] else Utf8Encode(s[..|s| - 1]) + Utf8EncodeChar(s[|s| - 1])
  }

  /** `s.chars().take(n)`. */
  function TakeChars(s: string, n: nat): (r: string)
    ensures |r| <= n && r <= s
    ensures |s| <= n ==> r == s
  {
    if |s| <= n then s else s[..n]
  }
}

=== FILE: wrappers.dfy ===
/** Failure-carrying results shared by every module of the model.

    The Rust code reports every failure as `LuaError::RuntimeError(String)`;
    the model keeps the kind of failure (and the data quoted in the message)
    as a constructor of `Error`, so that properties can say which error a
    given input produces.
 */
module Wrappers {

  datatype Option<+T> = None | Some(value: T)

  /** The error kinds raised by the modelled code, one per distinct message. */
  datatype Error =
    | UnknownType(typeName: string)              // ffi_ops.rs lookup_type
    | MissingCloseBracket(typeName: string)      // ffi_ops.rs lookup_type
    | InvalidArraySize(sizeText: string)         // ffi_ops.rs lookup_type
    | FieldNotFound(field: string)               // ffi_ops.rs offsetof_field
    | NotStructOrUnion                           // offsetof_field, Index, NewIndex
    | UnknownField                               // Index, NewIndex
    | NotArrayOrPointer                          // Index, NewIndex
    | InvalidIndexType                           // Index, NewIndex
    | NotAnArray                                 // Len
    | ExpectedNumber                             // write_numeric!
    | ExpectedBooleanOrInteger                   // write of Bool
    | ExpectedPointerValue                       // write of Ptr
    | CannotAssign                               // write of any other type
    | CannotCast                                 // cast_cdata
    | NotACData                                  // AnyUserData::borrow::<CData>
    | NullPointer                                // cdata_to_string
    | NotAStringPointer                          // cdata_to_string
    | NotAString                                 // cdata_to_string
    | BufferOverflow(copyLen: nat, bufferSize: nat)  // copy_memory
    | LengthRequired                             // copy_memory
    | InvalidCopySource                          // copy_memory
    | UnparsedInput(byteLength: nat, shown: string)  // parser.rs parse_cdef

  datatype Result<+T> = Ok(value: T) | Err(error: Error) {

    predicate IsFailure() {
      Err?
    }

    function PropagateFailure<U>(): Result<U>
      requires Err?
    {
      Err(error)
    }

    function Extract(): T
      requires Ok?
    {
      value
    }
  }
}
